=== FILE: README.md ===
# PDF tool transfer protocol — a Dafny model

This project models the request/response protocol between the desktop PDF
tool's client (`send_request_to_server`) and its server (the session body of
`server_program`). It also models the small routines the server runs on the
strings it receives.

A request has two parts:

- **Upload.** The client sends the action name, a file name, a 16-byte size
  field and the file's bytes in 64 KiB chunks. Each of the first three is
  answered by an exact `ACK_…` token. Then come the action's option fields,
  each answered by its own token: password, split ranges, rotate pages and
  angle, or page-number position.
- **Result envelope.** The server sends a suggested file name, waits for
  `ACK_OUT_FILENAME`, sends a size field, waits for `ACK_OUT_SIZE`, and
  sends the output's bytes.
  - On failure it sends an error envelope instead: a sentinel name
    (`error_processing.bin` or `error_file_not_found.bin`), a zero size, and
    one message.

Modules, one per component:

- `Strings`: the Python `str` operations used, namely `strip`, `lower`, `in`,
  `split`, `int()` and `str()`.
- `Frames`: the acknowledgement tokens and the fixed-width size field codec.
- `Transfer`: the connection as two queues of sent messages, `recv(n)`,
  sender chunking, and the exact-size receive loop.
- `Actions`: the action names and the option table.
- `Workspace`: `splitext`, `basename`, `safe_base`, and the per-action
  file-name table.
- `PageRanges`: the split-range and rotate-page parsers, and the
  multiple-of-90 angle check.
- `Merge`: the archive member filter, the extraction to a scratch directory,
  and the sort.
- `Client`: validation and preparation, the send plan, the client step
  function and its outcomes.
- `Server`: the server step function, the error envelopes and the reply to
  a processed job.
- `Session`: both ends run together. A scheduler moves whichever end is not
  blocked in a `recv`. A connection where both ends are blocked times out on
  both sides.

The main theorem is `Session.HonestSession`. Take any request that the
client does not reject locally and whose pieces fit the protocol's frames.
The connection then ends on both sides:

- the server has run the action on exactly the client's action, file name,
  payload and option texts;
- the client ends with the outcome that result calls for: the output saved
  byte for byte, an empty result, or the server's error message.

`Session.HonestSessionAsWritten` carries the theorem to the client as
written for every request that does not send an empty password.

Modelling choices:

- A `recv(n)` returns at most `n` bytes of the oldest message that has not
  been read. Any remainder stays at the head of the queue.
- A zero-length `sendall` puts nothing on the wire.
- Characters stand for octets, and character classes are ASCII.
- `int()` accepts trimmed, optionally signed ASCII decimal text.
- Paths use both `/` and `\` as separators, as `ntpath` does. A drive
  prefix (`C:`, `\\server\share`) is not split off (see "## Left out").
- The server runs on Windows (it drives Word through `comtypes`), whose file
  system ignores case: `A.pdf` and `a.pdf` open one file.
- The PDF and Office work is `Host.exec`, a parameter. It returns the output
  bytes, no output file, or an exception.
- The save dialog's answer is a parameter (`Desk.save`, `World.save`). An
  empty answer, which is what a cancelled dialog returns, counts as no path.
- The readable files and the zip packer are parameters (`Desk.files`,
  `Desk.pack`).

## Model

| member | source | states |
|---|---|---|
| Strings.Strip | server.py:547 | `str.strip()`: the result has no whitespace at either end, sits in the input exactly where its first non-space is, and text without whitespace is unchanged |
| Strings.StripRemovesOnlySpace | server.py:547 | `strip` removes whitespace only: everything before and after the stripped text is whitespace |
| Strings.StripAt | server.py:547 | a text that starts and ends with a non-space and is surrounded by whitespace only is exactly what `strip` returns |
| Strings.Split | server.py:327 | `str.split(sep)`: at least one part, no part contains the separator, and joining the parts with it gives the input back |
| Strings.SplitOnce | server.py:336 | `split('-', 1)`: the text before the first separator (which holds none) and the rest, which glue back to the input |
| Strings.SplitCons | server.py:327 | splitting text that starts with a separator-free part yields that part first, then the split of the rest |
| Strings.SplitOnceCons | server.py:336 | `split('-', 1)` of text whose first part holds no `-` gives that part and everything after the first `-` |
| Strings.NatToString | client.py:144 | `str(n)`: canonical decimal digits, no leading zero, whose value is `n` |
| Strings.NatToStringInjective | client.py:144 | different sizes give different decimal texts |
| Strings.IntToStringRoundTrip | client.py:170 | `int(str(i)) == i` for every integer, negative ones included |
| Strings.ParseIntAcceptsOnlyNumerals | server.py:602 | `int()` (`Strings.ParseInt`) succeeds exactly when the trimmed text is an ASCII numeral with at most one leading sign |
| Strings.NatToStringLength | client.py:144 | the decimal text of `n` fits in `k` characters exactly when `n < 10^k` |
| Frames.Token | client.py:111 | every acknowledgement token starts with `ACK_` and fits in one 1024-byte read |
| Frames.TokenInjective | client.py:138-146 | distinct acknowledgements have distinct tokens, so a reply names the step it answers |
| Frames.LeftJustify | client.py:144 | `ljust(16)`: keeps the text, pads with spaces to the width, and leaves longer text alone |
| Frames.EncodeSize | client.py:144 | the size field is exactly 16 bytes wide exactly when the size is below 10^16 |
| Frames.DecodeSize | server.py:602 | strip-then-`int()` succeeds exactly when the trimmed field is an optionally signed numeral |
| Frames.SizeFieldRoundTrip | server.py:600-602 | for every size below 10^16, the 16-byte field decodes back to that size |
| Frames.NonNumericSizeRejected | client.py:198 | a field that is not a numeral once trimmed is rejected (`ValueError`) |
| Transfer.Enqueue | client.py:153 | `sendall` adds exactly its bytes to what is in flight, and a zero-length send adds no message |
| Transfer.Take | server.py:545 | `recv(n)`: reads the first `min(n, len)` bytes of the oldest message in flight, so at most `n` bytes; since no empty message is in flight, it reads nothing exactly at the end of the stream |
| Transfer.TakeSplits | server.py:545 | the bytes read plus what is left in flight are exactly what was in flight before the read |
| Transfer.Chunks | server.py:709-715 | the sender's chunks are non-empty, at most 64 KiB each, and concatenate to the data |
| Transfer.ChunkAligned | server.py:613 | a read of `min(65536, remaining)` takes exactly the sender's next chunk |
| Transfer.ReceiveExactly | server.py:608-619 | the receive loop, stated alone: read `i` is issued with `before[i]` bytes in hand, the first with none, and asks for `min(65536, size - before[i])` with bytes still missing; each read adds bytes; the loop returns exactly `size` bytes (none for a negative size), which are the bytes sent, or fails with the count read so far when the stream ends early |
| Actions.ParseAction | server.py:656-687 | action text is recognised only as the action whose name it is |
| Actions.ParseName | server.py:656-687 | every action's name is recognised as that action |
| Actions.Fields | server.py:621-651 | the option fields read after the payload, per action; `Session.OptionsAgree` proves the client sends the same fields with the same acknowledgements |
| Workspace.SplitExt | server.py:560 | `splitext`: root plus extension is the name; the extension is empty or a dot followed by no dot or separator; it is non-empty exactly when the last path component has a dot after some other character |
| Workspace.SplitExtOf | server.py:560 | a name whose stem has no dot or separator, followed by one dotted extension, splits at that dot |
| Workspace.BaseName | client.py:132 | `basename` on paths without a drive prefix: a separator-free tail of the path, the whole path when it has no separator |
| Workspace.BaseNameFollowsSeparator | client.py:132 | a base name shorter than its path starts right after a separator, so it is everything after the last one |
| Workspace.SafeBase | server.py:561 | `safe_base`: at most 50 characters, only alphanumerics, `_` and `-`; each character kept when safe and replaced by `_` otherwise |
| Workspace.SafeBaseIdempotent | server.py:561 | sanitising a safe base again changes nothing |
| Workspace.AllSafeSeparatorFree | server.py:561 | a safe base contains no separator and no dot |
| Workspace.SessionNames | server.py:559-596 | corrected, with every client-supplied piece sanitised: no session name contains a separator; the merge input is a `.zip`; the merge output starts with `merged_`; any other output starts with the safe base |
| Workspace.NamesAsWritten | server.py:559-596 | as written: the input and scratch names hold no separator; the merge input is a `.zip` and the merge output starts with `merged_`; with action text of safe characters, any other output and its suggestion hold no separator and start with the safe base |
| Workspace.RawLayout | server.py:559-596 | the name table as written, over a safe base and a separator-free extension: the same facts for any merge stem |
| Workspace.LayoutPrefixes | server.py:564-596 | in the name table, the merge input is a `.zip` and the merge output starts with its stem; any other output starts with the safe base |
| Workspace.LayoutSeparatorFree | server.py:564-596 | the name table built from safe pieces holds no separator in any name |
| Workspace.LayoutDistinctPids | server.py:562 | in the name table, two process ids give different input and output names |
| Workspace.LayoutSuggestionLength | server.py:571-596 | in the name table, the suggestion is 4 to 66 + len(action) characters long when the base and merge stem are cut to 50 |
| Workspace.SuggestionMatchesOutput | server.py:571-596 | for both namings, the suggested name is the output file's name without the pid suffix, with the extension of the action's kind of output |
| Workspace.SuggestionLength | server.py:571-596 | for both namings, the suggestion is 4 to 66 + len(action) characters long |
| Workspace.DistinctProcessesDistinctNames | server.py:562 | for both namings, two server processes never share an input or output file name |
| Workspace.SanitisingKeepsHonestNames | server.py:589 | for what an honest client sends, the sanitised naming equals the naming as written |
| Workspace.MergeNameEscapesAsWritten | server.py:589-591 | as written, the merge file name `../../../evil.zip` yields an output name starting `merged_../../../evil`, which climbs out of the temporary directory; the sanitised naming has no `/` |
| Workspace.ActionTextEscapesAsWritten | server.py:593-596 | as written, unrecognised action text `../x` puts a separator into the output name (never written: such a request fails before any output exists); the sanitised naming has none |
| PageRanges.PageRun | server.py:340 | `range(start-1, end)` in 1-based pages: exactly the pages first..last, in order |
| PageRanges.Usable | server.py:330-344 | a part is used exactly when it is non-blank once trimmed, parses as `N`, `A-B`, `A-` or `-B`, and satisfies `1 <= start <= end <= num_pages` |
| PageRanges.PartBoundsMeaning | server.py:335-343 | the bounds of one part (`PageRanges.PartBounds`): a part without `-` is accepted exactly when it is an integer and names a single page; a range is accepted exactly when each bound it gives is an integer; a missing start is page 1, a missing end the last page |
| PageRanges.UsableRange | server.py:335-340 | `A-B` gives pages A..B exactly when `1 <= A <= B <= num_pages` |
| PageRanges.UsableFrom | server.py:335-340 | `A-` gives pages A..num_pages exactly when `1 <= A <= num_pages` |
| PageRanges.UsableUpTo | server.py:335-340 | `-B` gives pages 1..B exactly when `1 <= B <= num_pages` |
| PageRanges.UsablePage | server.py:342-344 | `N` gives page N exactly when `1 <= N <= num_pages` |
| PageRanges.SpansWithinDocument | server.py:329-357 | every usable part's bounds lie within the document, first page not after the last |
| PageRanges.Pieces | server.py:346-352 | one output per usable part |
| PageRanges.PiecesFollowSpans | server.py:340-352 | output `i` is numbered consecutively and holds exactly the pages of the `i`-th usable part, in order |
| PageRanges.SplitPlan | server.py:324-359 | an empty document fails; otherwise the split succeeds exactly when some part is usable; the outputs are the pieces of the comma-separated parts, output `i` holding exactly the pages of the `i`-th usable part, numbered from 1, each non-empty and within the document |
| PageRanges.SplitExample | server.py:324-359 | the ranges `1-3,5,7-` on ten pages give pages 1..3, page 5 and pages 7..10, numbered 1 to 3 |
| PageRanges.UsableSpansExact | server.py:359 | no output exactly when every part is blank or unusable |
| PageRanges.ParseAngle | server.py:418-419 | the angle is accepted exactly when it parses as an integer that is a multiple of 90, and is then that integer; text that is not an integer and a non-multiple fail with different errors |
| PageRanges.Span | server.py:441 | the selection `first..last` flags exactly those pages |
| PageRanges.Union | server.py:441 | `set.update`: a page is selected when either selection has it |
| PageRanges.SelectParts | server.py:431-446 | a successful selection has one flag per page |
| PageRanges.SelectPartsOk | server.py:432-446 | the rotate selection succeeds exactly when every non-blank part is usable; one bad part fails the whole request |
| PageRanges.SelectPartsExact | server.py:441-445 | a successful selection holds exactly the pages some part names, each once |
| PageRanges.SelectPages | server.py:426-430 | trimmed, case-insensitive `all` selects every page; blank text selects none |
| PageRanges.Rotate | server.py:418-456 | a bad angle fails before the document is read; an empty document fails; otherwise each selected page turns by the angle exactly once and every other page is unchanged |
| PageRanges.RotateAll | server.py:427-429 | `all` on a non-empty document turns every page |
| Merge.Eligibles | server.py:378-379 | the kept members are files whose name ends in `.pdf` in any case and has no `../`; none kept exactly when none qualifies |
| Merge.EligiblesAppend | server.py:377-379 | the filter keeps archive order: the kept members of a concatenation are those of each part, in order |
| Merge.EligiblesSingle | server.py:378-379 | a single member is kept exactly when it qualifies |
| Merge.LexLeTotal | server.py:390 | Python's string order is total |
| Merge.LexLeTrans | server.py:390 | Python's string order is transitive |
| Merge.LexLeAntisymmetric | server.py:390 | Python's string order is antisymmetric |
| Merge.LexLeCommonPrefix | server.py:380 | paths in one directory compare as their base names do |
| Merge.SortBy | server.py:390 | `list.sort()`: the result is sorted and is a permutation of the input |
| Merge.Extract | server.py:378-385 | every kept member is written to the scratch directory under its base name, case ignored as the Windows file system does, and listed as spelled, in order; every listed name opens a file in the directory |
| Merge.ExtractSnoc | server.py:378-385 | one more member changes only the file its base name opens and adds its path to the list; an ineligible one changes nothing |
| Merge.ExtractWritesOnlyListed | server.py:380-385 | every file in the scratch directory is one that some listed name opens |
| Merge.ExtractHoldsLast | server.py:380-385 | each file holds the data of the last kept member whose base name opens it, that is, equals its name up to case |
| Merge.ReadBack | server.py:394-395 | the merger reads the current contents of the file each listed path opens, in order |
| Merge.MergeInputsAsWritten | server.py:376-395 | as written, the merge fails exactly when no member qualifies; otherwise its inputs are the directory's contents read back along a sorted permutation of the listed paths, one per kept member |
| Merge.DuplicateNameMergedTwiceAsWritten | server.py:380-385 | as written, two kept members whose base names agree up to case merge the second one's contents twice |
| Merge.DuplicateNamesOccur | client.py:123 | such an archive exists: two files both named `x.pdf` |
| Merge.CaseNamesCollide | server.py:380-390 | for every capital letter, members such as `A.pdf` then `a.pdf` (different names) merge the second one's contents twice |
| Merge.MergeInputs | server.py:376-390 | corrected: fails exactly when no member qualifies; otherwise the inputs are a permutation of the kept members, sorted by base name |
| Merge.DuplicateNameMergedOnce | server.py:379-390 | corrected: two kept members are both merged, each once |
| Client.ExistingPaths | client.py:122-124 | the selected paths that exist: a path is kept exactly when it exists, as many times as it was selected |
| Client.ExistingPathsAppend | client.py:122-124 | the filter keeps selection order: the kept paths of a concatenation are those of each part, in order |
| Client.ExistingPathsSingle | client.py:122-124 | a single path is kept exactly when it names a file |
| Client.Members | client.py:121-123 | one archive member per existing path, under its base name, with its contents |
| Client.Prepare | client.py:114-132 | a merge needs a list of at least two paths (`TooFewPaths` otherwise) and succeeds exactly when at least two of them exist (`TooFewFiles` with the count otherwise); it then announces `merge_input_<n>files.zip` for the n existing files and sends their packed archive; any other action needs one existing file and sends its base name and contents, and fails with `NoInputFile` otherwise |
| Client.MergeUploadNameSplits | client.py:127 | the merge upload name splits at `.zip`, and its stem has only safe characters |
| Client.AngleText | client.py:170 | `str(angle)` is never empty, so the `not angle_str` check cannot fire |
| Client.Required | client.py:164-165 | a text option is sent only when present and non-empty, and is rejected otherwise |
| Client.PasswordOps | client.py:157-159 | as written only a missing password is rejected; the strict check also rejects an empty one |
| Client.OptionOps | client.py:156-183 | the option sends per action; a rejection can only come last; every send is non-empty unless it is an unchecked empty password |
| Client.Streams | client.py:148-153 | one unacknowledged send per chunk, in order |
| Client.UploadOps | client.py:135-183 | name, size field, chunks, then options; only the last step can be a rejection; all sends are non-empty when the name and options are |
| Client.PlansAgree | client.py:157-161 | the client as written and the corrected one send the same plan on every request except an empty password for `encrypt` or `decrypt` |
| Client.PlanFrom | client.py:107-183 | the action is sent first and acknowledged before the files are examined; only the last step can be a rejection |
| Client.PreparedNameNonEmpty | client.py:123-132 | the announced file name is never empty |
| Client.PlanSendsSomething | client.py:156-183 | with the corrected password check, every acknowledged send carries at least one byte |
| Client.Returned | client.py:234-248 | the function returns True only for a saved file or an empty result |
| Client.FailuresReturnFalse | client.py:242-248 | every other ending returns False |
| Client.ErrorSignal | client.py:203 | a zero size with `error_` in the lower-cased name; `Session.SentinelsSignal` proves both server sentinels satisfy it |
| Client.Conclude | client.py:231-240 | the data is saved exactly when the dialog gives a non-empty path, to that path and exactly as received; an empty or missing answer is a cancelled save |
| Client.EmptyPathCancels | client.py:234-240 | the empty answer of a cancelled dialog writes nothing and makes the function return False |
| Client.AfterSize | client.py:202-211 | zero size with `error_` in the lower-cased name: an error block follows; other zero sizes are empty results; a positive size is read; a negative size saves nothing |
| Client.SizeReply | client.py:195-199 | the size reply: nothing read loses the connection, a non-integer is rejected, and an integer is acknowledged and decides what follows; only a negative size can save a file from here, and then an empty one |
| Client.ClientStep | client.py:107-221 | a reply other than the exact token ends the request with nothing more sent; a result is saved only once the whole declared size has arrived; each result read grows the data and stays below the size |
| Server.ProcessingMessage | server.py:737 | the general error message starts with the fixed prefix and ends with at most 200 characters of the detail |
| Server.NotFoundMessage | server.py:727 | the not-found message is the fixed prefix followed by the whole detail |
| Server.Envelope | server.py:735 | an error envelope opens with its sentinel name |
| Server.AfterPayload | server.py:621-651 | after the payload, the option fields of the action are read; an action without options, or unknown action text, runs at once |
| Server.ReplyTo | server.py:654-695 | an output is sent exactly when the action text is known and the action produced a file; otherwise a report with one of the two sentinels and a non-empty message — general for unknown actions and failures, not-found (naming the missing output) for a missing file |
| Server.MakeJob | server.py:559-596 | the job the server runs: action text, file name, payload, option texts and the session names (the sanitised naming; see below) |
| Server.Dispatch | server.py:694-698 | after processing the server sends the suggested name, or the error sentinel |
| Server.PayloadStep | server.py:610-616 | each payload read sends nothing and extends the data, never past the announced size; the loop is left only with exactly `size` bytes, otherwise the connection is dropped |
| Server.OptionStep | server.py:623-651 | the acknowledgement goes out before the emptiness check; an empty read drops the connection; each text is stored in field order |
| Server.SizeStep | server.py:600-603 | an empty read drops the connection; a non-integer field opens the general error envelope; an integer is acknowledged and starts the payload (none when it is not positive) |
| Server.ResultStep | server.py:699-716 | the size goes out only after exactly `ACK_OUT_FILENAME`, the data only after exactly `ACK_OUT_SIZE`; the data sent is exactly the output |
| Server.ServerStep | server.py:544-739 | one server step; network errors send nothing further, except an option's acknowledgement; the error envelope ignores its reads |
| Session.Wire | server.py:725-727 | several sends reach the wire as their non-empty messages, bytes in order |
| Session.Next | client.py:242 | an ended connection stays ended; when both ends are blocked with nothing in flight, both time out |
| Session.Agreed | client.py:185-240 | the agreed outcome: saved exactly when the server produced a non-empty output and a non-empty save path was chosen, with the output's bytes; error envelopes reach the client with their sentinel and the first 4096 bytes of the message |
| Session.Handshake | client.py:107-146 | action, file name and size are each received and acknowledged in turn |
| Session.ClientStreams | client.py:147-153 | the client writes the whole payload without waiting |
| Session.ServerTakesPayload | server.py:606-616 | the server reads the payload one whole chunk per read and stops at the announced size |
| Session.ClientTakesResult | client.py:213-221 | the client reads the result one whole chunk per read and concludes with exactly the bytes sent |
| Session.OptionsAgree | server.py:621-651 | the client's option sends and the server's option table list the same fields with the same acknowledgements, for every action |
| Session.OptionRounds | server.py:621-651 | each option text is received, acknowledged and recorded in order, then the action runs |
| Session.UploadPhase | server.py:544-651 | after the whole upload the server runs the action on exactly the client's action, name, payload and option texts, with nothing left in flight |
| Session.SentinelsSignal | client.py:203 | both sentinel names read as an error signal on the client |
| Session.ResultServed | server.py:697-716 | a produced result ends both sides as agreed |
| Session.ResultReported | server.py:721-739 | an error envelope ends both sides as agreed |
| Session.PlanShape | client.py:107-183 | a plan with no rejection is exactly the request the server expects: name, size, chunks and option texts in field order |
| Session.HonestNamesAgree | server.py:559-596 | for every request the client prepares, the job's names equal the names the server builds as written |
| Session.HonestSession | client.py:107-240 | end to end: every request the client does not reject ends on both sides, the server ran the client's exact job, and the client's outcome is the agreed one |
| Session.HonestSessionAsWritten | client.py:107-240 | the same end-to-end outcome for the client as written, on every request that does not send an empty password |
| Session.EmptyPasswordStallsAsWritten | client.py:157-161 | as written, an empty password is sent as nothing and both ends time out |
| Session.EmptyPasswordRejected | client.py:157-161 | with the corrected check, the client fails with the password error and the server drops the connection after reading the payload |

## Left out

- The Tkinter user interface, dialogs and message boxes. The save dialog is
  reduced to its answer (`Desk.save`).
- Sockets and their timeouts. The connection is two queues of messages,
  one send per message. Every timeout is a single rule: when both ends are
  blocked with nothing in flight, both time out. Refused connections and
  reset connections are not produced. TCP coalescing of two sends into one
  read is not modelled; the protocol relies on it not happening.
- The PDF, image and Office libraries and every conversion (`exec` is an
  abstract function of the job). Floating-point page geometry is left out.
- Zip packing and extraction bytes (`Desk.pack` is abstract; archive members
  are name, directory flag and contents), temporary files, and cleanup in
  `finally` blocks.
- The accept loop. It handles one connection at a time, so one connection is
  modelled.
- Python `int()` is modelled on trimmed, optionally signed ASCII decimal text.
  Underscores and Unicode digits are not accepted. The `ValueError` text of
  `int()` is approximated.
- UTF-8: a character stands for one byte, and `decode()` and `encode()` are
  identities. A multi-byte character split across a read is not modelled.
- An exception raised after `action_success` is set, other than the missing
  output file, is not modelled. Such an exception sends nothing.
- The rotate parser's loop that applies rotations is modelled as a
  per-page rotation list. The unreachable out-of-bounds warning branch is
  covered by the selection having one flag per page.
- The split output file names `split_<i>_<name>.pdf` are not modelled. Their
  numbering is (`Piece.index`).
- Session.HonestSession: requires the announced name to be at most 1024
  bytes, each option text at most 1024 bytes, and payload and output sizes
  below 10^16. Beyond these the source's fixed-size reads split a message
  and the two ends disagree. The model does not describe what happens then.
- Client.ClientStep: the text of the client's error messages is not
  modelled; each outcome carries its cause as data.
- Server.MakeJob: names the job with the corrected naming
  (`Workspace.SessionNames`), not with the naming as written
  (`Workspace.NamesAsWritten`). The two differ only on file names or action
  text with characters outside `A-Z a-z 0-9 _ -`. For example, a merge of
  `a b.zip` is suggested as `merged_a b.pdf` as written, and as
  `merged_a_b.pdf` here. `Session.HonestNamesAgree` proves that every
  request this client prepares is named the same both ways.
- Workspace.BaseName: does not split off a drive prefix as `ntpath.basename`
  does. `C:x.pdf` keeps its `C:`, where `ntpath` gives `x.pdf`. A UNC root
  `\\srv\share` gives `share`, where `ntpath` gives the empty text. The file
  dialog returns absolute paths, which always hold a separator after the drive,
  so the base name is the same for them. The client names archive members by
  their base names; a member named `C:x.pdf` by another zip writer would be
  extracted as `C:x.pdf` in the model.
- Merge.Extract: folds case by ASCII lower-casing. Windows also folds
  non-ASCII letters by its own table, so two names that differ only in a
  non-ASCII letter's case open one file on the server and two in the model.
- Strings.ParseInt: has no contract of its own. What it accepts is stated by
  `Strings.ParseIntAcceptsOnlyNumerals`, and its value on every decimal text
  by `Strings.IntToStringRoundTrip`.
- Transfer.ReceiveExactly: states the receive loop on its own. The sessions
  model the same loop one read at a time (`Server.PayloadStep`,
  `Client.ClientStep`) and do not call it.

## Findings

| source | as written | input that shows it | evidently intended | confidence | as-written member | corrected member |
|---|---|---|---|---|---|---|
| client.py:157-161 | only a missing password is rejected; an empty one goes to `sendall(b"")`, which sends nothing, so both ends wait for each other until they time out | action `encrypt` with password `""` | reject an empty password like the other empty options | not executed | Session.EmptyPasswordStallsAsWritten | Session.EmptyPasswordRejected |
| server.py:589-591 | the merge output stem is cut from the raw file name root, so `../` in the announced name leaves the temporary directory | merge with file name `../../../evil.zip`: the output `merged_../../../evil_<pid>.pdf` lies outside it (with only two `../` it stays inside, because `merged_..` is itself a component) | build every name from sanitised text, as `safe_base` is for the other names | not executed | Workspace.MergeNameEscapesAsWritten | Workspace.SessionNames |
| server.py:380-385 | members are extracted by base name into one directory and each path is listed, so a second member whose base name is the same, or on the Windows server the same up to case, overwrites the first and its contents are merged twice | `send_request_to_server` is given two paths, both named `x.pdf`, in different folders (the shipped file dialog selects from one folder, so it cannot produce this list; another caller can); or an archive with members `A.pdf` and `a.pdf` | merge every member once | not executed | Merge.DuplicateNameMergedTwiceAsWritten | Merge.MergeInputs |

Other behaviour of the code as written, kept in the model:

- `str(None)` is `"None"`. A missing rotate angle is therefore sent as the
  text `None` and fails on the server, not on the client.
- A negative size field skips the receive loop. The client then offers to
  save an empty file.
- A zero-size result whose name contains `error_` is read as an error.
- The server acknowledges an option before checking that it arrived.
- Unrecognised action text goes into the output name unsanitised
  (`Workspace.ActionTextEscapesAsWritten`). That name is never written:
  such a request fails with the invalid-action error before any output
  exists.

=== FILE: actions.dfy ===
/** The action vocabulary and the option table: which extra fields follow the
    payload for each action, in which order, and the acknowledgement each one
    receives (server.py:621-651, client.py:156-183). */
module Actions {
  import opened Results
  import opened Frames

  datatype Action =
    | Convert | Encrypt | Decrypt
    | PdfToJpg | PdfToWord | PdfToPptx
    | Compress | Split | Merge | Rotate | AddNumbers

  /** The action's name on the wire. */
  function Name(a: Action): string {
    match a
    case Convert => "convert"
    case Encrypt => "encrypt"
    case Decrypt => "decrypt"
    case PdfToJpg => "pdf_to_jpg"
    case PdfToWord => "pdf_to_word"
    case PdfToPptx => "pdf_to_pptx"
    case Compress => "compress"
    case Split => "split"
    case Merge => "merge"
    case Rotate => "rotate"
    case AddNumbers => "add_numbers"
  }

  /** The server's string comparisons against the received action text: an
      action is recognised exactly when the text is its name. */
  function ParseAction(s: string): (r: Option<Action>)
    ensures r.Some? ==> Name(r.value) == s
  {
    if s == "convert" then Some(Convert)
    else if s == "encrypt" then Some(Encrypt)
    else if s == "decrypt" then Some(Decrypt)
    else if s == "pdf_to_jpg" then Some(PdfToJpg)
    else if s == "pdf_to_word" then Some(PdfToWord)
    else if s == "pdf_to_pptx" then Some(PdfToPptx)
    else if s == "compress" then Some(Compress)
    else if s == "split" then Some(Split)
    else if s == "merge" then Some(Merge)
    else if s == "rotate" then Some(Rotate)
    else if s == "add_numbers" then Some(AddNumbers)
    else None
  }

  /** Every name is recognised as its own action. */
  lemma ParseName(a: Action)
    ensures ParseAction(Name(a)) == Some(a)
  {
  }

  datatype OptionField = Password | Ranges | Pages | Angle | Position

  /** The acknowledgement that answers each option field. */
  function FieldAck(f: OptionField): Ack {
    match f
    case Password => AckPass
    case Ranges => AckRanges
    case Pages => AckPages
    case Angle => AckAngle
    case Position => AckPosition
  }

  /** The option table: the fields exchanged after the payload, in order.
      Text the server does not recognise as an action has none. */
  function Fields(a: Option<Action>): seq<OptionField> {
    match a
    case Some(Encrypt) => [Password]
    case Some(Decrypt) => [Password]
    case Some(Split) => [Ranges]
    case Some(Rotate) => [Pages, Angle]
    case Some(AddNumbers) => [Position]
    case _ => []
  }
}

=== FILE: client.dfy ===
/** The client side of one request (`send_request_to_server`,
    client.py:92-257): local preparation and validation turn a request into a
    plan of sends, each acknowledged send checked against its exact token;
    then the result envelope is read and the request ends in one outcome.
    The file system, the zip packer and the save dialog are parameters. */
module Client {
  import opened Results
  import opened Strings
  import opened Frames
  import opened Transfer
  import opened Actions
  import opened Workspace

  // ---------------------------------------------------------------- request

  /** What was selected: one path, or several for a merge. */
  datatype Target = One(path: string) | Many(paths: seq<string>)

  /** The options dialog results; `None` is a field the dialog did not set.
      The angle is an integer from a fixed list. */
  datatype Opts = Opts(
    password: Option<string>,
    ranges: Option<string>,
    pages: Option<string>,
    angle: Option<int>,
    position: Option<string>)

  /** The `ValueError`s the client raises itself. */
  datatype Invalid =
    | TooFewPaths
    | TooFewFiles(found: nat)
    | NoInputFile
    | NoPassword
    | NoRanges
    | NoPages
    | NoPosition
    | BadSizeReply(field: string)

  /** The client's view of its surroundings: the readable files by path, the
      zip packer (a list of member name and contents to archive bytes), and
      the save dialog's answer. */
  datatype Desk = Desk(
    files: map<string, string>,
    pack: seq<(string, string)> -> string,
    save: Option<string>)

  /** The selected paths that name existing files, in selection order
      (`os.path.isfile`). */
  function ExistingPaths(ps: seq<string>, files: map<string, string>): (r: seq<string>)
    ensures |r| <= |ps|
    ensures forall p :: p in r <==> p in ps && p in files
    ensures forall p :: multiset(r)[p] == if p in files then multiset(ps)[p] else 0
  {
    if ps == [] then []
    else
      var rest := ExistingPaths(ps[1..], files);
      assert ps == [ps[0]] + ps[1..];
      assert forall p :: p in ps <==> p == ps[0] || p in ps[1..];
      if ps[0] in files then [ps[0]] + rest else rest
  }

  /** The filter keeps selection order: filtering a concatenation filters
      each part. */
  lemma {:induction false} ExistingPathsAppend(a: seq<string>, b: seq<string>, files: map<string, string>)
    ensures ExistingPaths(a + b, files) == ExistingPaths(a, files) + ExistingPaths(b, files)
    decreases |a|
  {
    if a == [] {
      assert a + b == b;
    } else {
      assert (a + b)[0] == a[0] && (a + b)[1..] == a[1..] + b;
      ExistingPathsAppend(a[1..], b, files);
    }
  }

  /** A single path is kept exactly when it names a file. */
  lemma ExistingPathsSingle(p: string, files: map<string, string>)
    ensures ExistingPaths([p], files) == if p in files then [p] else []
  {
    assert [p][1..] == [];
  }

  /** The archive members the client packs: each existing file under its
      base name. */
  function Members(ps: seq<string>, files: map<string, string>): (r: seq<(string, string)>)
    ensures |r| == |ExistingPaths(ps, files)|
    ensures forall i :: 0 <= i < |r| ==>
              r[i] == (BaseName(ExistingPaths(ps, files)[i]), files[ExistingPaths(ps, files)[i]])
  {
    var ex := ExistingPaths(ps, files);
    seq(|ex|, i requires 0 <= i < |ex| => (BaseName(ex[i]), files[ex[i]]))
  }

  /** The name a merge upload is announced under. */
  function MergeUploadName(n: nat): string {
    "merge_input_" + NatToString(n) + "files.zip"
  }

  /** The merge upload name splits at `.zip`, and its stem is made of safe
      characters only, so sanitising it changes nothing. */
  lemma MergeUploadNameSplits(n: nat)
    ensures SplitExt(MergeUploadName(n)) == ("merge_input_" + NatToString(n) + "files", ".zip")
    ensures AllSafe(SplitExt(MergeUploadName(n)).0)
  {
    var a, digits, b := "merge_input_", NatToString(n), "files";
    var stem := a + digits + b;
    assert MergeUploadName(n) == stem + ".zip";
    forall i | 0 <= i < |stem| ensures SafeChar(stem[i]) && stem[i] != '.' && !IsSep(stem[i]) {
      if i < |a| {
        assert stem[i] == a[i];
      } else if i < |a| + |digits| {
        assert stem[i] == digits[i - |a|];
      } else {
        assert stem[i] == b[i - |a| - |digits|];
      }
    }
    SplitExtOf(stem, ".zip");
  }

  /** File preparation (client.py:115-132): a merge needs a list of at least
      two paths of which at least two exist, and uploads their archive; any
      other action needs one existing file and uploads it under its base
      name. Returns the announced name and the bytes to upload. */
  function Prepare(a: Action, t: Target, d: Desk): (r: Result<(string, string), Invalid>)
    ensures a == Merge && t.One? ==> r == Err(TooFewPaths)
    ensures a == Merge && t.Many? && |t.paths| < 2 ==> r == Err(TooFewPaths)
    ensures a == Merge && t.Many? && |t.paths| >= 2 ==>
              (r.Ok? <==> |ExistingPaths(t.paths, d.files)| >= 2)
    ensures a == Merge && t.Many? && |t.paths| >= 2 && |ExistingPaths(t.paths, d.files)| < 2 ==>
              r == Err(TooFewFiles(|ExistingPaths(t.paths, d.files)|))
    ensures a == Merge && r.Ok? ==>
              r.value == (MergeUploadName(|ExistingPaths(t.paths, d.files)|), d.pack(Members(t.paths, d.files)))
    ensures a != Merge ==> (r.Ok? <==> t.One? && t.path in d.files)
    ensures a != Merge && r.Err? ==> r.error == NoInputFile
    ensures a != Merge && r.Ok? ==> r.value == (BaseName(t.path), d.files[t.path])
  {
    if a == Merge then
      match t
      case One(_) => Err(TooFewPaths)
      case Many(ps) =>
        if |ps| < 2 then Err(TooFewPaths)
        else
          var members := Members(ps, d.files);
          if |members| < 2 then Err(TooFewFiles(|members|))
          else Ok((MergeUploadName(|members|), d.pack(members)))
    else
      match t
      case Many(_) => Err(NoInputFile)
      case One(p) => if p in d.files then Ok((BaseName(p), d.files[p])) else Err(NoInputFile)
  }

  // ------------------------------------------------------------------- plan

  /** One element of the upload plan: a send answered by an acknowledgement,
      a bare send (a payload chunk), or a local rejection. */
  datatype ClientOp = Exchange(msg: string, ack: Ack) | Stream(chunk: string) | Reject(why: Invalid)

  /** `str(angle)`: the text of the chosen angle, `None` when unset. */
  function AngleText(angle: Option<int>): (t: string)
    ensures t != []
  {
    match angle
    case None => "None"
    case Some(v) => IntToString(v)
  }

  /** A text option must be present and non-empty (`if not value`). */
  function Required(v: Option<string>, why: Invalid, ack: Ack): (r: seq<ClientOp>)
    ensures |r| == 1
    ensures r[0].Exchange? <==> v.Some? && v.value != []
    ensures r[0].Exchange? ==> r[0] == Exchange(v.value, ack)
    ensures r[0].Reject? ==> r[0].why == why
  {
    if v.None? || v.value == [] then [Reject(why)] else [Exchange(v.value, ack)]
  }

  /** The option sends (client.py:156-183), checked just before each is
      sent. `strictPassword` selects between the check as written (a missing
      password only) and the corrected one (also an empty password). */
  function OptionOps(a: Action, o: Opts, strictPassword: bool): (r: seq<ClientOp>)
    ensures |r| <= 2
    ensures forall i :: 0 <= i < |r| - 1 ==> !r[i].Reject?
    ensures forall i :: 0 <= i < |r| && r[i].Exchange? ==>
              (strictPassword || !(a == Encrypt || a == Decrypt) ==> r[i].msg != [])
  {
    match a
    case Encrypt => PasswordOps(o.password, strictPassword)
    case Decrypt => PasswordOps(o.password, strictPassword)
    case Split => Required(o.ranges, NoRanges, AckRanges)
    case Rotate =>
      if o.pages.None? || o.pages.value == [] then [Reject(NoPages)]
      else [Exchange(o.pages.value, AckPages), Exchange(AngleText(o.angle), AckAngle)]
    case AddNumbers => Required(o.position, NoPosition, AckPosition)
    case _ => []
  }

  function PasswordOps(p: Option<string>, strict: bool): (r: seq<ClientOp>)
    ensures |r| == 1
    ensures r[0].Exchange? <==> p.Some? && (!strict || p.value != [])
    ensures r[0].Exchange? ==> r[0] == Exchange(p.value, AckPass)
  {
    match p
    case None => [Reject(NoPassword)]
    case Some(s) => if strict && s == [] then [Reject(NoPassword)] else [Exchange(s, AckPass)]
  }

  function Streams(cs: seq<string>): (r: seq<ClientOp>)
    ensures |r| == |cs| && forall i :: 0 <= i < |cs| ==> r[i] == Stream(cs[i])
  {
    seq(|cs|, i requires 0 <= i < |cs| => Stream(cs[i]))
  }

  /** The sends after a successful preparation: name, size field, chunks,
      then the options; only the last of them can be a rejection. */
  function UploadOps(name: string, data: string, opts: seq<ClientOp>): (r: seq<ClientOp>)
    requires forall i :: 0 <= i < |opts| - 1 ==> !opts[i].Reject?
    ensures |r| >= 2
    ensures forall i :: 0 <= i < |r| - 1 ==> !r[i].Reject?
    ensures name != [] && (forall i :: 0 <= i < |opts| && opts[i].Exchange? ==> opts[i].msg != []) ==>
              forall i :: 0 <= i < |r| && r[i].Exchange? ==> r[i].msg != []
  {
    var ss := Streams(Chunks(data));
    var r := [Exchange(name, AckFilename), Exchange(EncodeSize(|data|), AckSize)] + ss + opts;
    var sends := name != [] && (forall i :: 0 <= i < |opts| && opts[i].Exchange? ==> opts[i].msg != []);
    forall i | 0 <= i < |r|
      ensures i < |r| - 1 ==> !r[i].Reject?
      ensures sends && r[i].Exchange? ==> r[i].msg != []
    {
      if 2 <= i < 2 + |ss| {
        assert r[i] == ss[i - 2];
      } else if i >= 2 + |ss| {
        assert r[i] == opts[i - 2 - |ss|];
      }
    }
    r
  }

  /** What follows the action: the prepared sends, or the rejection that
      stops the request. */
  function AfterAction(p: Result<(string, string), Invalid>, opts: seq<ClientOp>): (r: seq<ClientOp>)
    requires forall i :: 0 <= i < |opts| - 1 ==> !opts[i].Reject?
    ensures |r| >= 1 && (p.Err? ==> r == [Reject(p.error)])
    ensures forall i :: 0 <= i < |r| - 1 ==> !r[i].Reject?
  {
    match p
    case Err(why) => [Reject(why)]
    case Ok((name, data)) => UploadOps(name, data, opts)
  }

  /** The whole upload plan: the action comes first (its acknowledgement is
      awaited before the files are even looked at), and a local rejection
      ends the plan. */
  function PlanFrom(a: Action, t: Target, o: Opts, d: Desk, strictPassword: bool): (r: seq<ClientOp>)
    ensures |r| >= 2 && r[0] == Exchange(Name(a), AckAction)
    ensures forall i :: 0 <= i < |r| - 1 ==> !r[i].Reject?
  {
    var rest := AfterAction(Prepare(a, t, d), OptionOps(a, o, strictPassword));
    var r := [Exchange(Name(a), AckAction)] + rest;
    assert forall i :: 1 <= i < |r| ==> r[i] == rest[i - 1];
    r
  }

  /** The plan as the client is written. */
  function PlanAsWritten(a: Action, t: Target, o: Opts, d: Desk): seq<ClientOp> {
    PlanFrom(a, t, o, d, false)
  }

  /** The plan with the corrected password check; the rest of the model uses
      this one. */
  function Plan(a: Action, t: Target, o: Opts, d: Desk): seq<ClientOp> {
    PlanFrom(a, t, o, d, true)
  }

  /** The two checks part only on an empty password for `encrypt` or
      `decrypt`: on every other request the client as written sends exactly
      what the corrected one sends. */
  lemma PlansAgree(a: Action, t: Target, o: Opts, d: Desk)
    requires !((a == Encrypt || a == Decrypt) && o.password == Some(""))
    ensures OptionOps(a, o, false) == OptionOps(a, o, true)
    ensures PlanAsWritten(a, t, o, d) == Plan(a, t, o, d)
  {
    assert OptionOps(a, o, false) == OptionOps(a, o, true);
  }

  /** The announced name is never empty, given that every readable file has
      a non-empty base name (which a regular file's path always has). */
  lemma PreparedNameNonEmpty(a: Action, t: Target, d: Desk)
    requires forall p :: p in d.files ==> BaseName(p) != []
    requires Prepare(a, t, d).Ok?
    ensures Prepare(a, t, d).value.0 != []
  {
  }

  /** With the corrected check every acknowledged send carries at least one
      byte, so no step waits for an acknowledgement of a send that put
      nothing on the wire. */
  lemma PlanSendsSomething(a: Action, t: Target, o: Opts, d: Desk)
    requires forall p :: p in d.files ==> BaseName(p) != []
    ensures forall i :: 0 <= i < |Plan(a, t, o, d)| && Plan(a, t, o, d)[i].Exchange? ==>
              Plan(a, t, o, d)[i].msg != []
  {
    var r := PlanFrom(a, t, o, d, true);
    assert r == Plan(a, t, o, d);
    var p := Prepare(a, t, d);
    if p.Ok? {
      PreparedNameNonEmpty(a, t, d);
      var up := UploadOps(p.value.0, p.value.1, OptionOps(a, o, true));
      assert r == [Exchange(Name(a), AckAction)] + up;
      forall i | 0 <= i < |r| && r[i].Exchange? ensures r[i].msg != [] {
        if i > 0 {
          assert r[i] == up[i - 1];
        }
      }
    }
  }

  // --------------------------------------------------------------- outcome

  /** Why the connection was abandoned (`ConnectionAbortedError`). */
  datatype Abort =
    | BadAck(expected: Ack)
    | NoSuggestion
    | NoSizeReply
    | ResultCut(received: nat, size: int)

  /** How a request ends, one per handler of client.py:242-248 plus the
      three normal returns. */
  datatype Outcome =
    | Saved(path: string, data: string)
    | EmptyResult(name: string)
    | SaveDeclined
    | TimedOut
    | Refused
    | ConnectionLost(abort: Abort)
    | InputError(why: Invalid)
    | ServerError(name: string, block: string)

  /** The function's return value: only a saved file and an empty result
      count as success. */
  function Returned(o: Outcome): (ok: bool)
    ensures ok <==> o.Saved? || o.EmptyResult?
  {
    match o
    case Saved(_, _) => true
    case EmptyResult(_) => true
    case _ => false
  }

  /** The server signals an error with an empty result whose suggested name
      contains `error_` in any case. */
  predicate ErrorSignal(name: string, size: int) {
    size == 0 && IsFactor("error_", Lower(name))
  }

  // ------------------------------------------------------------------ steps

  datatype ClientState =
    | Upload(ops: seq<ClientOp>)
    | AwaitAck(wanted: Ack, ops: seq<ClientOp>)
    | AwaitName
    | AwaitSize(name: string)
    | AwaitErrorBlock(name: string)
    | AwaitData(name: string, size: int, data: string)
    | Finished(outcome: Outcome)

  /** The states blocked in a `recv`. */
  predicate Receiving(c: ClientState) {
    c.AwaitAck? || c.AwaitName? || c.AwaitSize? || c.AwaitErrorBlock? || (c.AwaitData? && |c.data| < c.size)
  }

  /** One move of the client: its next state, what is left of the incoming
      queue, and what it sent (empty for nothing). */
  datatype ClientMove = ClientMove(next: ClientState, down: Queue, sent: string)

  /** The save dialog gave a path: `if save_path:` reads an empty answer,
      which is what a cancelled dialog returns, as no path. */
  predicate PathChosen(save: Option<string>) {
    save.Some? && save.value != []
  }

  /** The end of the result loop: the data is written only if the save
      dialog gives a non-empty path; otherwise the save is cancelled. */
  function Conclude(data: string, save: Option<string>): (c: ClientState)
    ensures c.Finished? && (c.outcome.Saved? || c.outcome.SaveDeclined?)
    ensures c.outcome.Saved? <==> save.Some? && save.value != []
    ensures c.outcome.Saved? ==> c.outcome == Saved(save.value, data)
  {
    if PathChosen(save) then Finished(Saved(save.value, data)) else Finished(SaveDeclined)
  }

  /** A cancelled dialog answers with the empty path: nothing is written
      and the request ends as a declined save. */
  lemma EmptyPathCancels(data: string)
    ensures Conclude(data, Some("")) == Finished(SaveDeclined)
    ensures !Returned(Conclude(data, Some("")).outcome)
  {
  }

  /** The step after the size field is decoded (client.py:196-211): the
      reply is acknowledged; a zero size is an error signal or an empty
      result; otherwise the data follows (a negative size leaves the loop
      at once). */
  function AfterSize(name: string, n: int, save: Option<string>): (c: ClientState)
    ensures ErrorSignal(name, n) ==> c == AwaitErrorBlock(name)
    ensures n == 0 && !ErrorSignal(name, n) ==> c == Finished(EmptyResult(name))
    ensures n > 0 ==> c == AwaitData(name, n, [])
    ensures n < 0 ==> c == Conclude([], save)
  {
    if ErrorSignal(name, n) then AwaitErrorBlock(name)
    else if n == 0 then Finished(EmptyResult(name))
    else if n < 0 then Conclude([], save)
    else AwaitData(name, n, [])
  }

  /** The size reply (client.py:195-199): nothing read loses the
      connection, text that is not an integer is an input error, and any
      integer is acknowledged and decides what follows. */
  function SizeReply(name: string, down: Queue, save: Option<string>): (m: ClientMove)
    ensures m.down == Take(down, SizeFieldWidth).1
    ensures Take(down, SizeFieldWidth).0 == [] ==> m.next == Finished(ConnectionLost(NoSizeReply)) && m.sent == []
    ensures Take(down, SizeFieldWidth).0 != [] && DecodeSize(Take(down, SizeFieldWidth).0).None? ==>
              m.next == Finished(InputError(BadSizeReply(Take(down, SizeFieldWidth).0))) && m.sent == []
    ensures Take(down, SizeFieldWidth).0 != [] && DecodeSize(Take(down, SizeFieldWidth).0).Some? ==>
              m.next == AfterSize(name, DecodeSize(Take(down, SizeFieldWidth).0).value, save) && m.sent == Token(AckOutSize)
    ensures m.next.Finished? && m.next.outcome.Saved? ==> save == Some(m.next.outcome.path) && m.next.outcome.data == []
  {
    var (field, rest) := Take(down, SizeFieldWidth);
    if field == [] then ClientMove(Finished(ConnectionLost(NoSizeReply)), rest, [])
    else
      match DecodeSize(field)
      case None => ClientMove(Finished(InputError(BadSizeReply(field))), rest, [])
      case Some(n) => ClientMove(AfterSize(name, n, save), rest, Token(AckOutSize))
  }

  /** One step of `send_request_to_server`. A reply other than the exact
      expected token ends the request with nothing more sent; the result is
      saved only once the declared size has arrived and a path was chosen. */
  function ClientStep(c: ClientState, down: Queue, save: Option<string>): (m: ClientMove)
    ensures c.Finished? ==> m == ClientMove(c, down, [])
    ensures c.AwaitAck? ==> (m.next == Upload(c.ops) <==> Take(down, 1024).0 == Token(c.wanted))
    ensures c.AwaitAck? && m.next != Upload(c.ops) ==>
              m.next == Finished(ConnectionLost(BadAck(c.wanted))) && m.sent == []
    ensures c.AwaitAck? ==> m.sent == []
    ensures !c.Finished? && m.next.Finished? && m.next.outcome.Saved? ==>
              save == Some(m.next.outcome.path) &&
              ((c.AwaitData? && |m.next.outcome.data| >= c.size) || (c.AwaitSize? && m.next.outcome.data == []))
    ensures c.AwaitData? && |c.data| < c.size && m.next.AwaitData? ==>
              m.next.size == c.size && |c.data| < |m.next.data| < c.size && m.next.data[..|c.data|] == c.data
  {
    match c
    case Finished(_) => ClientMove(c, down, [])
    case Upload(ops) =>
      if ops == [] then ClientMove(AwaitName, down, [])
      else
        (match ops[0]
         case Exchange(msg, ack) => ClientMove(AwaitAck(ack, ops[1..]), down, msg)
         case Stream(chunk) => ClientMove(Upload(ops[1..]), down, chunk)
         case Reject(why) => ClientMove(Finished(InputError(why)), down, []))
    case AwaitAck(wanted, ops) =>
      var (reply, rest) := Take(down, 1024);
      if reply == Token(wanted) then ClientMove(Upload(ops), rest, [])
      else ClientMove(Finished(ConnectionLost(BadAck(wanted))), rest, [])
    case AwaitName =>
      var (name, rest) := Take(down, 1024);
      if name == [] then ClientMove(Finished(ConnectionLost(NoSuggestion)), rest, [])
      else ClientMove(AwaitSize(name), rest, Token(AckOutFilename))
    case AwaitSize(name) => SizeReply(name, down, save)
    case AwaitErrorBlock(name) =>
      var (block, rest) := Take(down, 4096);
      ClientMove(Finished(ServerError(name, block)), rest, [])
    case AwaitData(name, size, data) =>
      if |data| >= size then ClientMove(Conclude(data, save), down, [])
      else
        var (chunk, rest) := Take(down, Min(ChunkSize, size - |data|));
        if chunk == [] then ClientMove(Finished(ConnectionLost(ResultCut(|data|, size))), rest, [])
        else
          var got := data + chunk;
          if |got| >= size then ClientMove(Conclude(got, save), rest, [])
          else ClientMove(AwaitData(name, size, got), rest, [])
  }

  /** Every way a request can end other than a saved file or an empty result
      returns failure (client.py:242-248). */
  lemma FailuresReturnFalse(o: Outcome)
    requires !o.Saved? && !o.EmptyResult?
    ensures !Returned(o)
  {
  }
}

=== FILE: frames.dfy ===
/** The primitive wire elements: acknowledgement tokens and the fixed-width
    size field (`str(n).encode().ljust(16)` on the sending side,
    `int(field.decode().strip())` on the receiving side). */
module Frames {
  import opened Results
  import opened Strings

  /** Every acknowledgement the protocol uses, as a closed enumeration. */
  datatype Ack =
    | AckAction | AckFilename | AckSize
    | AckPass | AckRanges | AckPages | AckAngle | AckPosition
    | AckOutFilename | AckOutSize

  /** The literal bytes of each acknowledgement; each fits in one 1024-byte
      read and starts with `ACK_`. */
  function Token(a: Ack): (t: string)
    ensures 8 <= |t| <= 16 && t[..4] == "ACK_"
  {
    match a
    case AckAction => "ACK_ACTION"
    case AckFilename => "ACK_FILENAME"
    case AckSize => "ACK_SIZE"
    case AckPass => "ACK_PASS"
    case AckRanges => "ACK_RANGES"
    case AckPages => "ACK_PAGES"
    case AckAngle => "ACK_ANGLE"
    case AckPosition => "ACK_POSITION"
    case AckOutFilename => "ACK_OUT_FILENAME"
    case AckOutSize => "ACK_OUT_SIZE"
  }

  /** Distinct acknowledgements have distinct tokens, so a reply identifies
      the step it acknowledges. */
  lemma TokenInjective(a: Ack, b: Ack)
    requires Token(a) == Token(b)
    ensures a == b
  {
  }

  const SizeFieldWidth: nat := 16

  /** 10^16: the sizes whose decimal text fits the field are those below it. */
  const SizeFieldLimit: nat := 10_000_000_000_000_000

  lemma FieldLimitIsPower()
    ensures Pow10(SizeFieldWidth) == SizeFieldLimit
  {
    assert Pow10(4) == 10_000;
    assert Pow10(8) == 10_000 * Pow10(4) by { Pow10Add(4, 4); }
    assert Pow10(16) == Pow10(8) * Pow10(8) by { Pow10Add(8, 8); }
  }

  function Spaces(k: nat): (r: string)
    ensures |r| == k && forall i :: 0 <= i < k ==> r[i] == ' '
  {
    seq(k, _ => ' ')
  }

  /** `bytes.ljust(width)`: pad on the right with spaces up to `width`;
      longer text is left as it is. */
  function LeftJustify(s: string, width: nat): (r: string)
    ensures |r| == if |s| >= width then |s| else width
    ensures r[..|s|] == s
    ensures forall i :: |s| <= i < |r| ==> r[i] == ' '
  {
    if |s| >= width then s else s + Spaces(width - |s|)
  }

  /** The size field the sender writes. It is exactly the field width
      precisely when the size is below 10^16; a larger size spills over. */
  function EncodeSize(n: nat): (f: string)
    ensures |f| == SizeFieldWidth <==> n < SizeFieldLimit
    ensures |f| >= SizeFieldWidth
  {
    NatToStringLength(n, SizeFieldWidth);
    FieldLimitIsPower();
    LeftJustify(NatToString(n), SizeFieldWidth)
  }

  /** The size field the receiver reads: strip, then `int()`. A field that is
      not a numeral once trimmed is the `ValueError` case (`None`). */
  function DecodeSize(f: string): (r: Option<int>)
    ensures r.Some? <==> IsIntText(Strip(Strip(f)))
  {
    ParseIntAcceptsOnlyNumerals(Strip(f));
    ParseInt(Strip(f))
  }

  /** Decimal digits followed by padding spaces strip back to the digits. */
  lemma StripPadded(t: string, k: nat)
    requires IsNumeral(t)
    ensures Strip(t + Spaces(k)) == t
  {
    var s := t + Spaces(k);
    forall i | |t| <= i < |s| ensures IsSpace(s[i]) {
      assert s[i] == ' ';
    }
    assert s[0] == t[0];
    assert s[|t| - 1] == t[|t| - 1];
    StripAt(s, 0, |t|);
    assert s[0..|t|] == t;
  }

  /** The size codec round-trips for every size below 10^16: the receiver's
      strip-then-parse recovers exactly the number the sender encoded. */
  lemma SizeFieldRoundTrip(n: nat)
    requires n < SizeFieldLimit
    ensures |EncodeSize(n)| == SizeFieldWidth
    ensures DecodeSize(EncodeSize(n)) == Some(n)
  {
    var t := NatToString(n);
    var f := EncodeSize(n);
    assert f == LeftJustify(t, SizeFieldWidth);
    StripPadded(t, SizeFieldWidth - |t|);
    assert Strip(f) == t;
    ParseNumeral(t);
  }

  lemma ParseNumeral(t: string)
    requires IsNumeral(t)
    ensures ParseInt(t) == Some(NumeralValue(t) as int)
  {
    NoSpaceNumeral(t);
    assert Strip(t) == t;
    assert !(t[0] == '-' || t[0] == '+');
  }

  /** A field whose trimmed text is not a numeral is rejected. */
  lemma NonNumericSizeRejected(f: string)
    requires !IsIntText(Strip(Strip(f)))
    ensures DecodeSize(f) == None
  {
  }
}

=== FILE: merge.dfy ===
/** The merge input selection (server.py:367-390): which members of the
    uploaded archive are extracted, under which name, and in which order they
    are handed to the PDF merger. The merger itself, and its skipping of
    files it cannot read, are not modelled; the result is the sequence of
    file contents appended, in order. */
module Merge {
  import opened Results
  import opened Strings
  import opened Workspace

  /** One entry of the uploaded archive. */
  datatype Member = Member(name: string, isDir: bool, data: string)

  datatype MergeError = NoPdfFiles

  /** The filter of the extraction loop: a file (not a directory) whose name
      ends in `.pdf` in any case and does not contain `../`. */
  predicate Eligible(m: Member) {
    !m.isDir && EndsWith(Lower(m.name), ".pdf") && !IsFactor("../", m.name)
  }

  /** The eligible members, in archive order. */
  function Eligibles(ms: seq<Member>): (r: seq<Member>)
    ensures forall i :: 0 <= i < |r| ==> Eligible(r[i])
    ensures |r| <= |ms|
    ensures r == [] <==> forall i :: 0 <= i < |ms| ==> !Eligible(ms[i])
  {
    if ms == [] then []
    else
      var rest := Eligibles(ms[..|ms| - 1]);
      assert forall i :: 0 <= i < |ms| - 1 ==> ms[..|ms| - 1][i] == ms[i];
      if Eligible(ms[|ms| - 1]) then rest + [ms[|ms| - 1]] else rest
  }

  /** The filter keeps archive order: filtering a concatenation filters
      each part. */
  lemma {:induction false} EligiblesAppend(a: seq<Member>, b: seq<Member>)
    ensures Eligibles(a + b) == Eligibles(a) + Eligibles(b)
    decreases |b|
  {
    if b == [] {
      assert a + b == a;
    } else {
      var c := a + b;
      var init, x := b[..|b| - 1], b[|b| - 1];
      var tail := if Eligible(x) then [x] else [];
      assert c[..|c| - 1] == a + init;
      assert c[|c| - 1] == x;
      assert Eligibles(c) == Eligibles(a + init) + tail;
      assert Eligibles(b) == Eligibles(init) + tail;
      EligiblesAppend(a, init);
      assert Eligibles(a) + Eligibles(init) + tail == Eligibles(a) + (Eligibles(init) + tail);
    }
  }

  /** A single member is kept exactly when it passes the filter. */
  lemma EligiblesSingle(m: Member)
    ensures Eligibles([m]) == if Eligible(m) then [m] else []
  {
    assert [m][..0] == [];
  }

  // ------------------------------------------------------------------ order

  /** Python's ordering of strings: code point by code point, a proper
      prefix first. */
  predicate LexLe(a: string, b: string)
    decreases |a|
  {
    a == [] || (b != [] && (a[0] < b[0] || (a[0] == b[0] && LexLe(a[1..], b[1..]))))
  }

  lemma {:induction false} LexLeTotal(a: string, b: string)
    ensures LexLe(a, b) || LexLe(b, a)
    decreases |a|
  {
    if a != [] && b != [] && a[0] == b[0] {
      LexLeTotal(a[1..], b[1..]);
    }
  }

  lemma {:induction false} LexLeTrans(a: string, b: string, c: string)
    requires LexLe(a, b) && LexLe(b, c)
    ensures LexLe(a, c)
    decreases |a|
  {
    if a != [] && a[0] == b[0] && b[0] == c[0] {
      LexLeTrans(a[1..], b[1..], c[1..]);
    }
  }

  lemma {:induction false} LexLeAntisymmetric(a: string, b: string)
    requires LexLe(a, b) && LexLe(b, a)
    ensures a == b
    decreases |a|
  {
    if a != [] {
      LexLeAntisymmetric(a[1..], b[1..]);
      assert a == [a[0]] + a[1..] && b == [b[0]] + b[1..];
    }
  }

  /** Paths in one directory compare as their base names do, so sorting the
      extracted paths orders them by base name. */
  lemma {:induction false} LexLeCommonPrefix(p: string, a: string, b: string)
    ensures LexLe(p + a, p + b) <==> LexLe(a, b)
    decreases |p|
  {
    if p != [] {
      assert (p + a)[1..] == p[1..] + a;
      assert (p + b)[1..] == p[1..] + b;
      LexLeCommonPrefix(p[1..], a, b);
    } else {
      assert p + a == a && p + b == b;
    }
  }

  predicate SortedBy<T>(key: T -> string, s: seq<T>) {
    forall i, j :: 0 <= i < j < |s| ==> LexLe(key(s[i]), key(s[j]))
  }

  /** Insert `x` into a sorted sequence after every element not above it. */
  function Insert<T>(key: T -> string, x: T, s: seq<T>): (r: seq<T>)
    requires SortedBy(key, s)
    ensures SortedBy(key, r)
    ensures multiset(r) == multiset(s) + multiset{x}
  {
    if s == [] then [x]
    else if LexLe(key(x), key(s[0])) then
      var r := [x] + s;
      assert forall j :: 0 < j < |r| ==> LexLe(key(x), key(r[j])) by {
        forall j | 0 < j < |r| ensures LexLe(key(x), key(r[j])) {
          if j > 1 { LexLeTrans(key(x), key(s[0]), key(s[j - 1])); }
        }
      }
      r
    else
      LexLeTotal(key(x), key(s[0]));
      var tail := Insert(key, x, s[1..]);
      assert s == [s[0]] + s[1..];
      var r := [s[0]] + tail;
      assert forall j :: 0 <= j < |tail| ==> LexLe(key(s[0]), key(tail[j])) by {
        forall j | 0 <= j < |tail| ensures LexLe(key(s[0]), key(tail[j])) {
          assert tail[j] in multiset(tail);
          if tail[j] != x {
            assert tail[j] in multiset(s[1..]);
            var k :| 0 <= k < |s[1..]| && s[1..][k] == tail[j];
            assert s[k + 1] == tail[j];
          }
        }
      }
      r
  }

  /** Insertion sort: a sorted permutation of its input. */
  function SortBy<T>(key: T -> string, s: seq<T>): (r: seq<T>)
    ensures SortedBy(key, r)
    ensures multiset(r) == multiset(s)
    ensures |r| == |s|
  {
    if s == [] then []
    else
      assert s == [s[0]] + s[1..];
      Insert(key, s[0], SortBy(key, s[1..]))
  }

  /** Sort keys: a listed path is its own key; a member sorts by the name it
      is extracted under. */
  function PathKey(p: string): string { p }

  function NameKey(m: Member): string { BaseName(m.name) }

  // -------------------------------------------------------------- as written

  /** The server runs on Windows, whose file system ignores case when it
      opens a file: `A.pdf` and `a.pdf` name one file in the scratch
      directory. The directory is keyed by the case-folded name. */
  function FileKey(n: string): string { Lower(n) }

  /** The extraction loop as written: each eligible member is written to the
      scratch directory under its base name, a later member overwriting an
      earlier one whose base name differs at most in case, and the written
      path is listed once per member, spelled as that member spells it.
      Returns the directory contents and the list. */
  function Extract(ms: seq<Member>): (r: (map<string, string>, seq<string>))
    ensures forall n :: n in r.1 ==> FileKey(n) in r.0
    ensures |r.1| == |Eligibles(ms)|
    ensures forall i :: 0 <= i < |r.1| ==> r.1[i] == BaseName(Eligibles(ms)[i].name)
  {
    if ms == [] then (map[], [])
    else
      var m := ms[|ms| - 1];
      var prev := Extract(ms[..|ms| - 1]);
      if Eligible(m) then
        var b := BaseName(m.name);
        (prev.0[FileKey(b) := m.data], prev.1 + [b])
      else prev
  }

  /** Extraction goes member by member: one more member changes only what
      that member writes and lists. */
  lemma ExtractSnoc(ms: seq<Member>, m: Member)
    ensures Extract(ms + [m]) ==
      if Eligible(m) then (Extract(ms).0[FileKey(BaseName(m.name)) := m.data], Extract(ms).1 + [BaseName(m.name)])
      else Extract(ms)
  {
    assert (ms + [m])[..|ms|] == ms;
  }

  /** Nothing is written to the scratch directory but the files the listed
      names open. */
  lemma {:induction false} ExtractWritesOnlyListed(ms: seq<Member>)
    ensures forall n :: n in Extract(ms).0 ==> exists l :: l in Extract(ms).1 && FileKey(l) == n
    decreases |ms|
  {
    if ms != [] {
      var init, m := ms[..|ms| - 1], ms[|ms| - 1];
      ExtractWritesOnlyListed(init);
      var prev := Extract(init);
      if Eligible(m) {
        var b := BaseName(m.name);
        assert Extract(ms) == (prev.0[FileKey(b) := m.data], prev.1 + [b]);
        forall n | n in Extract(ms).0
          ensures exists l :: l in Extract(ms).1 && FileKey(l) == n
        {
          if n == FileKey(b) {
            assert b in Extract(ms).1;
          } else {
            var l :| l in prev.1 && FileKey(l) == n;
            assert l in Extract(ms).1;
          }
        }
      }
    }
  }

  /** The scratch directory holds, under each file, the data of the last
      eligible member whose base name opens that file. */
  lemma {:induction false} ExtractHoldsLast(ms: seq<Member>, j: nat)
    requires j < |Eligibles(ms)|
    requires forall k :: j < k < |Eligibles(ms)| ==>
      FileKey(BaseName(Eligibles(ms)[k].name)) != FileKey(BaseName(Eligibles(ms)[j].name))
    ensures FileKey(BaseName(Eligibles(ms)[j].name)) in Extract(ms).0
    ensures Extract(ms).0[FileKey(BaseName(Eligibles(ms)[j].name))] == Eligibles(ms)[j].data
    decreases |ms|
  {
    var init, m := ms[..|ms| - 1], ms[|ms| - 1];
    assert ms == init + [m];
    var ei := Eligibles(init);
    var tail := if Eligible(m) then [m] else [];
    EligiblesSnoc(init, m);
    if j < |ei| {
      LastInPrefix(ei, tail, j);
      ExtractHoldsLast(init, j);
      WriteKeepsOthers(init, m, FileKey(BaseName(ei[j].name)), ei[j].data);
    } else {
      ExtractLastWrite(init, m);
    }
  }

  /** Filtering one more member appends it if it is eligible. */
  lemma EligiblesSnoc(init: seq<Member>, m: Member)
    ensures Eligibles(init + [m]) == Eligibles(init) + if Eligible(m) then [m] else []
  {
    assert (init + [m])[..|init|] == init;
  }

  /** The last member of its file in a list is also the last one in any
      prefix, and no member after the prefix shares its file. */
  lemma LastInPrefix(ei: seq<Member>, tail: seq<Member>, j: nat)
    requires j < |ei|
    requires forall k :: j < k < |ei + tail| ==>
      FileKey(BaseName((ei + tail)[k].name)) != FileKey(BaseName((ei + tail)[j].name))
    ensures forall k :: j < k < |ei| ==> FileKey(BaseName(ei[k].name)) != FileKey(BaseName(ei[j].name))
    ensures forall k :: 0 <= k < |tail| ==> FileKey(BaseName(tail[k].name)) != FileKey(BaseName(ei[j].name))
  {
    var e := ei + tail;
    assert forall k :: 0 <= k < |ei| ==> e[k] == ei[k];
    assert forall k :: 0 <= k < |tail| ==> e[|ei| + k] == tail[k];
  }

  /** An eligible member's data is what its file holds right after it is
      written. */
  lemma ExtractLastWrite(init: seq<Member>, m: Member)
    requires Eligible(m)
    ensures Extract(init + [m]).1 == Extract(init).1 + [BaseName(m.name)]
    ensures FileKey(BaseName(m.name)) in Extract(init + [m]).0
    ensures Extract(init + [m]).0[FileKey(BaseName(m.name))] == m.data
  {
    ExtractSnoc(init, m);
  }

  /** A member written under another file leaves a file's data as it was. */
  lemma WriteKeepsOthers(init: seq<Member>, m: Member, key: string, d: string)
    requires key in Extract(init).0 && Extract(init).0[key] == d
    requires Eligible(m) ==> FileKey(BaseName(m.name)) != key
    ensures key in Extract(init + [m]).0 && Extract(init + [m]).0[key] == d
  {
    ExtractSnoc(init, m);
  }

  /** Reading each listed path back from the scratch directory, in order. */
  function ReadBack(dir: map<string, string>, order: seq<string>): (r: seq<string>)
    requires forall i :: 0 <= i < |order| ==> FileKey(order[i]) in dir
    ensures |r| == |order| && forall i :: 0 <= i < |order| ==> r[i] == dir[FileKey(order[i])]
  {
    seq(|order|, i requires 0 <= i < |order| => dir[FileKey(order[i])])
  }

  /** Reordering a list of names that open files keeps them opening files. */
  lemma PermutedListOpens(dir: map<string, string>, list: seq<string>, order: seq<string>)
    requires forall n :: n in list ==> FileKey(n) in dir
    requires multiset(order) == multiset(list)
    ensures forall i :: 0 <= i < |order| ==> FileKey(order[i]) in dir
  {
    forall i | 0 <= i < |order| ensures FileKey(order[i]) in dir {
      assert order[i] in multiset(list);
    }
  }

  /** `merge_pdfs` up to the merger, as written: the listed paths sorted,
      each read back from the scratch directory. */
  function MergeInputsAsWritten(ms: seq<Member>): (r: Result<seq<string>, MergeError>)
    ensures r.Ok? <==> exists i :: 0 <= i < |ms| && Eligible(ms[i])
    ensures r.Ok? ==> |r.value| == |Eligibles(ms)|
    ensures r.Ok? ==> exists order: seq<string> ::
      SortedBy(PathKey, order) && multiset(order) == multiset(Extract(ms).1) &&
      (forall i :: 0 <= i < |order| ==> FileKey(order[i]) in Extract(ms).0) &&
      r.value == ReadBack(Extract(ms).0, order)
  {
    var ex := Extract(ms);
    if ex.1 == [] then Err(NoPdfFiles)
    else
      var order := SortBy(PathKey, ex.1);
      PermutedListOpens(ex.0, ex.1, order);
      var r := ReadBack(ex.0, order);
      assert SortedBy(PathKey, order) && multiset(order) == multiset(ex.1);
      Ok(r)
  }

  // --------------------------------------------------------------- corrected

  /** The merge inputs with every eligible member kept as its own file: a
      request with no eligible member is rejected; otherwise the members are
      ordered by base name and each is appended exactly once. */
  function MergeInputs(ms: seq<Member>): (r: Result<seq<Member>, MergeError>)
    ensures r.Ok? <==> exists i :: 0 <= i < |ms| && Eligible(ms[i])
    ensures r.Ok? ==> multiset(r.value) == multiset(Eligibles(ms))
    ensures r.Ok? ==> SortedBy(NameKey, r.value)
    ensures r.Ok? ==> forall i :: 0 <= i < |r.value| ==> Eligible(r.value[i])
  {
    var kept := Eligibles(ms);
    if kept == [] then Err(NoPdfFiles)
    else
      var r := SortBy(NameKey, kept);
      assert forall i :: 0 <= i < |r| ==> r[i] in multiset(kept);
      Ok(r)
  }

  /** A plain `x.pdf` member is extracted under its own name. */
  lemma PlainPdfEligible(d: string)
    ensures Eligible(Member("x.pdf", false, d))
    ensures BaseName("x.pdf") == "x.pdf"
  {
    LetterPdfEligible("x.pdf", d);
  }

  /** Extracting two eligible members after any others. */
  lemma ExtractPair(init: seq<Member>, a: Member, b: Member)
    requires Eligible(a) && Eligible(b)
    ensures Extract(init + [a] + [b]).1 == Extract(init).1 + [BaseName(a.name), BaseName(b.name)]
    ensures Extract(init + [a] + [b]).0[FileKey(BaseName(b.name))] == b.data
  {
    ExtractLastWrite(init, a);
    ExtractLastWrite(init + [a], b);
  }

  /** Extracting two eligible members in order. */
  lemma ExtractTwo(a: Member, b: Member)
    requires Eligible(a) && Eligible(b)
    ensures Extract([a, b]).1 == [BaseName(a.name), BaseName(b.name)]
    ensures Extract([a, b]).0[FileKey(BaseName(b.name))] == b.data
  {
    var none: seq<Member> := [];
    ExtractPair(none, a, b);
    assert none + [a] + [b] == [a, b];
  }

  /** Two names that open the same file still open it after sorting. */
  lemma SortTwoSameFile(n1: string, n2: string)
    requires FileKey(n1) == FileKey(n2)
    ensures |SortBy(PathKey, [n1, n2])| == 2
    ensures forall i :: 0 <= i < 2 ==> FileKey(SortBy(PathKey, [n1, n2])[i]) == FileKey(n1)
  {
    var sorted := SortBy(PathKey, [n1, n2]);
    assert multiset(sorted) == multiset{n1, n2};
    assert sorted[0] in multiset(sorted) && sorted[1] in multiset(sorted);
  }

  /** Two eligible archive members whose base names differ at most in case
      (the client names each member by the base name of the selected file,
      so two selected files `x.pdf` from different folders collide): as
      written, the later one is merged twice and the earlier not at all. */
  lemma DuplicateNameMergedTwiceAsWritten(a: Member, b: Member)
    requires Eligible(a) && Eligible(b) && FileKey(BaseName(a.name)) == FileKey(BaseName(b.name))
    ensures MergeInputsAsWritten([a, b]) == Ok([b.data, b.data])
  {
    ExtractTwo(a, b);
    ListedTwice([a, b], BaseName(a.name), BaseName(b.name), b.data);
  }

  /** Whatever the archive, a list of two names that open one file holding
      `d` makes the merger append `d` twice. */
  lemma ListedTwice(ms: seq<Member>, n1: string, n2: string, d: string)
    requires Extract(ms).1 == [n1, n2] && FileKey(n1) == FileKey(n2)
    requires FileKey(n2) in Extract(ms).0 && Extract(ms).0[FileKey(n2)] == d
    ensures MergeInputsAsWritten(ms) == Ok([d, d])
  {
    var e := Extract(ms);
    var order := SortBy(PathKey, e.1);
    SortTwoSameFile(n1, n2);
    ReadBackOneFile(e.0, order, FileKey(n2), d);
  }

  /** Two paths that open one file read back its data twice. */
  lemma ReadBackOneFile(dir: map<string, string>, order: seq<string>, k: string, d: string)
    requires |order| == 2 && forall i :: 0 <= i < 2 ==> FileKey(order[i]) == k
    requires k in dir && dir[k] == d
    ensures ReadBack(dir, order) == [d, d]
  {
  }

  /** Kept as separate files, both members are merged, each once. */
  lemma DuplicateNameMergedOnce(a: Member, b: Member)
    requires Eligible(a) && Eligible(b)
    ensures MergeInputs([a, b]).Ok?
    ensures multiset(MergeInputs([a, b]).value) == multiset{a, b}
  {
    assert [a, b][..1] == [a];
    assert Eligibles([a]) == [a];
    assert Eligibles([a, b]) == [a, b];
  }

  /** Such a pair exists: two members both named `x.pdf`. */
  lemma DuplicateNamesOccur()
    ensures Eligible(Member("x.pdf", false, "A")) && Eligible(Member("x.pdf", false, "B"))
    ensures MergeInputsAsWritten([Member("x.pdf", false, "A"), Member("x.pdf", false, "B")]) == Ok(["B", "B"])
  {
    PlainPdfEligible("A");
    PlainPdfEligible("B");
    DuplicateNameMergedTwiceAsWritten(Member("x.pdf", false, "A"), Member("x.pdf", false, "B"));
  }

  /** A `.pdf` name of one character before the dot is eligible and is its
      own base name, unless that character is a separator. */
  lemma LetterPdfEligible(n: string, d: string)
    requires |n| == 5 && !IsSep(n[0])
    requires n[1] == '.' && n[2] == 'p' && n[3] == 'd' && n[4] == 'f'
    ensures Eligible(Member(n, false, d))
    ensures BaseName(n) == n
  {
    var l := Lower(n);
    assert l[1..] == ".pdf";
    assert !IsFactor("../", n) by {
      forall i | 0 <= i <= |n| - 3 ensures !IsFactorAt("../", n, i) {
        assert n[i + 2] != '/';
      }
    }
    assert forall k :: 0 <= k < |n| ==> !IsSep(n[k]);
  }

  /** A name with a capital letter in front opens the same file as the name
      with that letter in lower case there and the same rest. */
  lemma CapitalOpensLower(n1: string, n2: string)
    requires |n1| == |n2| && 0 < |n1| && 'A' <= n1[0] <= 'Z' && n2[0] == LowerChar(n1[0]) && n1[1..] == n2[1..]
    ensures FileKey(n1) == FileKey(n2)
  {
    var l1, l2 := Lower(n1), Lower(n2);
    forall i | 0 <= i < |n1| ensures l1[i] == l2[i] {
      if 0 < i {
        assert n1[i] == n1[1..][i - 1] == n2[1..][i - 1] == n2[i];
      }
    }
  }

  /** The two spellings of a one-letter `.pdf` name, capital and small:
      both eligible, different, and opening one file. */
  lemma CapitalPdfNames(c: char, x: string, y: string)
    requires 'A' <= c <= 'Z'
    ensures Eligible(Member([c] + ".pdf", false, x)) && Eligible(Member([LowerChar(c)] + ".pdf", false, y))
    ensures [c] + ".pdf" != [LowerChar(c)] + ".pdf"
    ensures FileKey(BaseName([c] + ".pdf")) == FileKey(BaseName([LowerChar(c)] + ".pdf"))
  {
    var up, low := [c] + ".pdf", [LowerChar(c)] + ".pdf";
    assert up[0] != low[0];
    LetterPdfEligible(up, x);
    LetterPdfEligible(low, y);
    CapitalOpensLower(up, low);
  }

  /** On the Windows server names that differ only in case collide too:
      for any capital letter, say `A`, the members `A.pdf` then `a.pdf`
      merge the second one's data twice. */
  lemma CaseNamesCollide(c: char, x: string, y: string)
    requires 'A' <= c <= 'Z'
    ensures [c] + ".pdf" != [LowerChar(c)] + ".pdf"
    ensures MergeInputsAsWritten([Member([c] + ".pdf", false, x), Member([LowerChar(c)] + ".pdf", false, y)]) == Ok([y, y])
  {
    CapitalPdfNames(c, x, y);
    DuplicateNameMergedTwiceAsWritten(Member([c] + ".pdf", false, x), Member([LowerChar(c)] + ".pdf", false, y));
  }
}

=== FILE: pageranges.dfy ===
/** The page specifications the server parses itself before handing pages to
    the PDF library: the split ranges (server.py:317-364) and the rotation
    selection and angle (server.py:414-463). A document is seen only through
    its page count (and, for rotation, each page's current rotation); the
    library calls are not modelled. Both use the grammar `N | A-B | A- | -B`
    over comma-separated parts, where an empty `A` means 1 and an empty `B`
    means the last page. */
module PageRanges {
  import opened Results
  import opened Strings

  /** The 1-based bounds a part names, before any bounds check. `None` is the
      `ValueError` of `int()`. A part without `-` names one page as a range of
      one; in a range, a missing first page is page 1 and a missing last page
      is the document's last. */
  function PartBounds(part: string, numPages: nat): Option<(int, int)> {
    if '-' in part then
      var (a, b) := SplitOnce(part, '-');
      var first := if a == [] then Some(1) else ParseInt(a);
      var last := if b == [] then Some(numPages) else ParseInt(b);
      if first.Some? && last.Some? then Some((first.value, last.value)) else None
    else
      match ParseInt(part)
      case Some(n) => Some((n, n))
      case None => None
  }

  /** What a part's bounds are: a part without `-` is accepted exactly when
      it is an integer and names one page; a range is accepted exactly when
      each bound it gives is an integer, a missing first page is page 1 and a
      missing last page is the document's last. */
  lemma PartBoundsMeaning(part: string, numPages: nat)
    ensures var r := PartBounds(part, numPages);
            && ('-' !in part ==> (r.Some? <==> IsIntText(Strip(part))))
            && (r.Some? && '-' !in part ==> r.value.0 == r.value.1)
            && ('-' in part ==> var (a, b) := SplitOnce(part, '-');
                  (r.Some? <==> (a == [] || IsIntText(Strip(a))) && (b == [] || IsIntText(Strip(b)))))
            && (r.Some? && '-' in part && SplitOnce(part, '-').0 == [] ==> r.value.0 == 1)
            && (r.Some? && '-' in part && SplitOnce(part, '-').1 == [] ==> r.value.1 == numPages)
  {
    if '-' in part {
      RangePartBounds(part, numPages);
    } else {
      SinglePartBounds(part, numPages);
    }
  }

  lemma SinglePartBounds(part: string, numPages: nat)
    requires '-' !in part
    ensures var r := PartBounds(part, numPages);
            (r.Some? <==> IsIntText(Strip(part))) && (r.Some? ==> r.value.0 == r.value.1)
  {
    ParseIntAcceptsOnlyNumerals(part);
  }

  lemma RangePartBounds(part: string, numPages: nat)
    requires '-' in part
    ensures var r := PartBounds(part, numPages);
            var (a, b) := SplitOnce(part, '-');
            && (r.Some? <==> (a == [] || IsIntText(Strip(a))) && (b == [] || IsIntText(Strip(b))))
            && (r.Some? && a == [] ==> r.value.0 == 1)
            && (r.Some? && b == [] ==> r.value.1 == numPages)
  {
    var (a, b) := SplitOnce(part, '-');
    ParseIntAcceptsOnlyNumerals(a);
    ParseIntAcceptsOnlyNumerals(b);
  }

  /** A part is usable when it parses and `1 <= first <= last <= numPages`
      (a single page `n` as the range `n-n`). */
  predicate ValidPart(part: string, numPages: nat) {
    var b := PartBounds(part, numPages);
    b.Some? && 1 <= b.value.0 <= b.value.1 <= numPages
  }

  /** The pages `first..last`, in order. */
  function PageRun(first: nat, last: nat): (r: seq<nat>)
    ensures |r| == if first <= last then last - first + 1 else 0
    ensures forall i :: 0 <= i < |r| ==> r[i] == first + i
    decreases last - first + 1
  {
    if first > last then [] else [first] + PageRun(first + 1, last)
  }

  /** The bounds of one comma-separated part after trimming, when it is
      non-blank and usable; `None` for a blank or an unusable part. */
  function Usable(part: string, numPages: nat): (r: Option<(nat, nat)>)
    ensures r.Some? <==> Strip(part) != [] && ValidPart(Strip(part), numPages)
    ensures r.Some? ==> 1 <= r.value.0 <= r.value.1 <= numPages
  {
    var p := Strip(part);
    if p != [] && ValidPart(p, numPages) then
      var b := PartBounds(p, numPages).value;
      Some((b.0 as nat, b.1 as nat))
    else None
  }

  /** The grammar of a part, on numerals as `str()` writes them: `A-B` names
      pages A to B, `A-` pages A to the last, `-B` pages 1 to B, and `N` page
      N alone; each is usable exactly when it lies within the document. */
  lemma UsableRange(a: nat, b: nat, numPages: nat)
    ensures Usable(NatToString(a) + "-" + NatToString(b), numPages) ==
              if 1 <= a <= b <= numPages then Some((a, b)) else None
  {
    var x, y := NatToString(a), NatToString(b);
    NumeralsAreBare(x, y);
    RangeBounds(x, y, numPages);
    ParseNat(a);
    ParseNat(b);
    UsableFromBounds(x + "-" + y, numPages, a, b);
  }

  lemma UsableFrom(a: nat, numPages: nat)
    ensures Usable(NatToString(a) + "-", numPages) ==
              if 1 <= a <= numPages then Some((a, numPages)) else None
  {
    var x := NatToString(a);
    NumeralsAreBare(x, []);
    RangeBounds(x, [], numPages);
    assert x + "-" + [] == x + "-";
    ParseNat(a);
    UsableFromBounds(x + "-", numPages, a, numPages);
  }

  lemma UsableUpTo(b: nat, numPages: nat)
    ensures Usable("-" + NatToString(b), numPages) ==
              if 1 <= b <= numPages then Some((1, b)) else None
  {
    var y := NatToString(b);
    NumeralsAreBare([], y);
    RangeBounds([], y, numPages);
    EmptyDash(y);
    ParseNat(b);
    UsableFromBounds("-" + y, numPages, 1, b);
  }

  lemma UsablePage(a: nat, numPages: nat)
    ensures Usable(NatToString(a), numPages) ==
              if 1 <= a <= numPages then Some((a, a)) else None
  {
    var t := NatToString(a);
    NoSpaceNumeral(t);
    assert '-' !in t by {
      forall i | 0 <= i < |t| ensures t[i] != '-' {
        assert IsDigit(t[i]);
      }
    }
    ParseNat(a);
    assert PartBounds(t, numPages) == Some((a, a));
    UsableFromBounds(t, numPages, a, a);
  }

  /** `int(str(n))` is `n`. */
  lemma ParseNat(n: nat)
    ensures ParseInt(NatToString(n)) == Some(n)
  {
    IntToStringRoundTrip(n);
  }

  lemma EmptyDash(y: string)
    ensures [] + "-" + y == "-" + y
  {
  }

  /** A range part splits at its first dash. */
  lemma RangeBounds(x: string, y: string, numPages: nat)
    requires '-' !in x
    ensures PartBounds(x + "-" + y, numPages) ==
              var first := if x == [] then Some(1) else ParseInt(x);
              var last := if y == [] then Some(numPages) else ParseInt(y);
              if first.Some? && last.Some? then Some((first.value, last.value)) else None
  {
    assert x + "-" + y == x + ['-'] + y;
    SplitOnceCons(x, '-', y);
  }

  /** A part without whitespace is usable exactly when its bounds lie within
      the document. */
  lemma UsableFromBounds(part: string, numPages: nat, first: int, last: int)
    requires NoSpace(part) && part != [] && PartBounds(part, numPages) == Some((first, last))
    ensures Usable(part, numPages) == if 1 <= first <= last <= numPages then Some((first, last)) else None
  {
    assert Strip(part) == part;
  }

  /** Numerals around a dash hold no whitespace and no other dash. */
  lemma NumeralsAreBare(x: string, y: string)
    requires x == [] || IsNumeral(x)
    requires y == [] || IsNumeral(y)
    ensures NoSpace(x + "-" + y) && '-' !in x
  {
    var s := x + "-" + y;
    forall i | 0 <= i < |s| ensures !IsSpace(s[i]) {
      if i < |x| {
        assert s[i] == x[i];
      } else if i > |x| {
        assert s[i] == y[i - |x| - 1];
      }
    }
    assert forall i :: 0 <= i < |x| ==> IsDigit(x[i]);
  }

  // ------------------------------------------------------------------ split

  /** One output file of a split: `split_<index>_<name>.pdf` holding `pages`. */
  datatype Piece = Piece(index: nat, pages: seq<nat>)

  datatype SplitError = NoPages | NoValidRanges

  /** The reference reading of a split request: the bounds of the usable
      parts, in the order written; blank and unusable parts are dropped. */
  function UsableSpans(parts: seq<string>, numPages: nat): seq<(nat, nat)> {
    if parts == [] then []
    else
      match Usable(parts[0], numPages)
      case Some(b) => [b] + UsableSpans(parts[1..], numPages)
      case None => UsableSpans(parts[1..], numPages)
  }

  /** Every span starts at page 1 or later and ends by the last page, first
      page not after the last. */
  predicate WithinDocument(spans: seq<(nat, nat)>, numPages: nat) {
    forall i :: 0 <= i < |spans| ==> 1 <= spans[i].0 <= spans[i].1 <= numPages
  }

  /** Every usable part's bounds lie within the document. */
  lemma {:induction false} SpansWithinDocument(parts: seq<string>, numPages: nat)
    ensures WithinDocument(UsableSpans(parts, numPages), numPages)
  {
    if parts != [] {
      var tail := UsableSpans(parts[1..], numPages);
      SpansWithinDocument(parts[1..], numPages);
      match Usable(parts[0], numPages)
      case Some(b) =>
        assert UsableSpans(parts, numPages) == [b] + tail;
        WithinCons(b, tail, numPages);
      case None =>
    }
  }

  lemma WithinCons(b: (nat, nat), spans: seq<(nat, nat)>, numPages: nat)
    requires 1 <= b.0 <= b.1 <= numPages && WithinDocument(spans, numPages)
    ensures WithinDocument([b] + spans, numPages)
  {
    assert forall i :: 1 <= i < |[b] + spans| ==> ([b] + spans)[i] == spans[i - 1];
  }

  /** The split loop: one output per usable part, numbered consecutively from
      `next`, holding that part's pages in order (`PiecesFollowSpans`). */
  function Pieces(parts: seq<string>, numPages: nat, next: nat): (r: seq<Piece>)
    ensures |r| == |UsableSpans(parts, numPages)|
  {
    if parts == [] then []
    else
      match Usable(parts[0], numPages)
      case Some(b) => [Piece(next, PageRun(b.0, b.1))] + Pieces(parts[1..], numPages, next + 1)
      case None => Pieces(parts[1..], numPages, next)
  }

  /** Output `i` is numbered `next + i` and holds the pages of span `i`. */
  predicate NumberedRuns(r: seq<Piece>, spans: seq<(nat, nat)>, next: nat) {
    |r| == |spans| &&
    forall i :: 0 <= i < |r| ==> r[i].index == next + i && r[i].pages == PageRun(spans[i].0, spans[i].1)
  }

  /** Output `i` is numbered `next + i` and holds the pages of the `i`-th
      usable part. */
  lemma {:induction false} PiecesFollowSpans(parts: seq<string>, numPages: nat, next: nat)
    ensures NumberedRuns(Pieces(parts, numPages, next), UsableSpans(parts, numPages), next)
  {
    if parts != [] {
      match Usable(parts[0], numPages)
      case Some(b) =>
        PiecesFollowSpans(parts[1..], numPages, next + 1);
        NumberedCons(b, Pieces(parts[1..], numPages, next + 1), UsableSpans(parts[1..], numPages), next);
      case None =>
        PiecesFollowSpans(parts[1..], numPages, next);
    }
  }

  lemma NumberedCons(b: (nat, nat), rest: seq<Piece>, spans: seq<(nat, nat)>, next: nat)
    requires NumberedRuns(rest, spans, next + 1)
    ensures NumberedRuns([Piece(next, PageRun(b.0, b.1))] + rest, [b] + spans, next)
  {
    var r := [Piece(next, PageRun(b.0, b.1))] + rest;
    forall i | 1 <= i < |r| ensures r[i] == rest[i - 1] && ([b] + spans)[i] == spans[i - 1] { }
  }

  /** `split_pdf` up to the library calls: an empty document is rejected;
      otherwise each usable comma-separated part becomes one output, numbered
      from 1, and a request with no usable part is rejected. */
  function SplitPlan(ranges: string, numPages: nat): (r: Result<seq<Piece>, SplitError>)
    ensures numPages == 0 ==> r == Err(NoPages)
    ensures numPages > 0 ==> (r.Ok? <==> UsableSpans(Split(ranges, ','), numPages) != [])
    ensures r.Ok? ==> forall i :: 0 <= i < |r.value| ==>
              r.value[i].index == i + 1 && r.value[i].pages != [] &&
              (forall k :: 0 <= k < |r.value[i].pages| ==> 1 <= r.value[i].pages[k] <= numPages)
    ensures r.Ok? ==> r.value == Pieces(Split(ranges, ','), numPages, 1)
    ensures r.Ok? ==> (|r.value| == |UsableSpans(Split(ranges, ','), numPages)| &&
              forall i :: 0 <= i < |r.value| ==>
                r.value[i].pages == PageRun(UsableSpans(Split(ranges, ','), numPages)[i].0,
                                            UsableSpans(Split(ranges, ','), numPages)[i].1))
  {
    if numPages == 0 then Err(NoPages)
    else
      var parts := Split(ranges, ',');
      var pieces := Pieces(parts, numPages, 1);
      PiecesFollowSpans(parts, numPages, 1);
      SpansWithinDocument(parts, numPages);
      if pieces == [] then Err(NoValidRanges) else Ok(pieces)
  }

  /** The ranges `1-3,5,7-` of a ten-page document give three files: pages
      1 to 3, page 5, and pages 7 to 10. */
  lemma SplitExample(ranges: string)
    requires ranges == "1-3,5,7-"
    ensures SplitPlan(ranges, 10) == Ok([Piece(1, PageRun(1, 3)), Piece(2, PageRun(5, 5)), Piece(3, PageRun(7, 10))])
  {
    var a, b, c := "1-3", "5", "7-";
    ExampleParts(ranges, a, b, c);
    ExampleUsable(a, b, c);
    SplitThree(ranges, 10, a, b, c, (1, 3), (5, 5), (7, 10));
  }

  /** Three usable parts give three outputs, numbered from 1. */
  lemma SplitThree(ranges: string, numPages: nat, a: string, b: string, c: string, ba: (nat, nat), bb: (nat, nat), bc: (nat, nat))
    requires numPages > 0 && Split(ranges, ',') == [a, b, c]
    requires Usable(a, numPages) == Some(ba) && Usable(b, numPages) == Some(bb) && Usable(c, numPages) == Some(bc)
    ensures SplitPlan(ranges, numPages) ==
              Ok([Piece(1, PageRun(ba.0, ba.1)), Piece(2, PageRun(bb.0, bb.1)), Piece(3, PageRun(bc.0, bc.1))])
  {
    PiecesThree(numPages, a, b, c, ba, bb, bc);
    SplitPlanOk(ranges, numPages);
  }

  lemma SplitPlanOk(ranges: string, numPages: nat)
    requires numPages > 0 && Pieces(Split(ranges, ','), numPages, 1) != []
    ensures SplitPlan(ranges, numPages) == Ok(Pieces(Split(ranges, ','), numPages, 1))
  {
  }

  lemma PiecesThree(numPages: nat, a: string, b: string, c: string, ba: (nat, nat), bb: (nat, nat), bc: (nat, nat))
    requires Usable(a, numPages) == Some(ba) && Usable(b, numPages) == Some(bb) && Usable(c, numPages) == Some(bc)
    ensures Pieces([a, b, c], numPages, 1) ==
              [Piece(1, PageRun(ba.0, ba.1)), Piece(2, PageRun(bb.0, bb.1)), Piece(3, PageRun(bc.0, bc.1))]
  {
    var ps := [a, b, c];
    assert ps[1..] == [b, c] && ps[1..][1..] == [c] && [c][1..] == [];
    PiecesStep(ps, numPages, 1, ba);
    PiecesStep([b, c], numPages, 2, bb);
    PiecesStep([c], numPages, 3, bc);
    assert Pieces([], numPages, 4) == [];
    Cons3(Piece(1, PageRun(ba.0, ba.1)), Piece(2, PageRun(bb.0, bb.1)), Piece(3, PageRun(bc.0, bc.1)));
  }

  lemma Cons3<T>(x: T, y: T, z: T)
    ensures [x] + ([y] + ([z] + [])) == [x, y, z]
  {
  }

  lemma PiecesStep(parts: seq<string>, numPages: nat, next: nat, b: (nat, nat))
    requires parts != [] && Usable(parts[0], numPages) == Some(b)
    ensures Pieces(parts, numPages, next) == [Piece(next, PageRun(b.0, b.1))] + Pieces(parts[1..], numPages, next + 1)
  {
  }

  lemma ExampleParts(ranges: string, a: string, b: string, c: string)
    requires ranges == "1-3,5,7-" && a == "1-3" && b == "5" && c == "7-"
    ensures Split(ranges, ',') == [a, b, c]
  {
    assert ranges == a + [','] + (b + [','] + c);
    SplitThreeParts(a, b, c, ',');
  }

  lemma SplitThreeParts(a: string, b: string, c: string, sep: char)
    requires sep !in a && sep !in b && sep !in c
    ensures Split(a + [sep] + (b + [sep] + c), sep) == [a, b, c]
  {
    SplitCons(a, sep, b + [sep] + c);
    SplitCons(b, sep, c);
  }

  lemma ExampleUsable(a: string, b: string, c: string)
    requires a == "1-3" && b == "5" && c == "7-"
    ensures Usable(a, 10) == Some((1, 3))
    ensures Usable(b, 10) == Some((5, 5))
    ensures Usable(c, 10) == Some((7, 10))
  {
    var one, three, five, seven := NatToString(1), NatToString(3), NatToString(5), NatToString(7);
    assert one == "1" && three == "3" && five == "5" && seven == "7";
    assert a == one + "-" + three && b == five && c == seven + "-";
    UsableRange(1, 3, 10);
    UsablePage(5, 10);
    UsableFrom(7, 10);
  }

  /** A request yields no output exactly when every part is blank or
      unusable. */
  lemma {:induction false} UsableSpansExact(parts: seq<string>, numPages: nat)
    ensures UsableSpans(parts, numPages) == [] <==>
              forall i :: 0 <= i < |parts| ==> Usable(parts[i], numPages).None?
  {
    if parts != [] {
      var tail := parts[1..];
      UsableSpansExact(tail, numPages);
      if Usable(parts[0], numPages).None? {
        assert UsableSpans(parts, numPages) == UsableSpans(tail, numPages);
        assert (forall i :: 0 <= i < |parts| ==> Usable(parts[i], numPages).None?) <==>
               (forall i :: 0 <= i < |tail| ==> Usable(tail[i], numPages).None?) by {
          assert forall i :: 1 <= i < |parts| ==> parts[i] == tail[i - 1];
        }
      }
    }
  }

  // ----------------------------------------------------------------- rotate

  datatype RotateError = AngleNotInteger | AngleNotQuarterTurn | EmptyDocument | BadSpec(part: string)

  /** `int(angle)` followed by the multiple-of-90 check. Python's `%` floors
      and Dafny's is Euclidean; both are zero for the same angles. */
  function ParseAngle(angle: string): (r: Result<int, RotateError>)
    ensures r.Ok? <==> ParseInt(angle).Some? && ParseInt(angle).value % 90 == 0
    ensures r.Ok? ==> r.value == ParseInt(angle).value
    ensures ParseInt(angle).None? ==> r == Err(AngleNotInteger)
    ensures ParseInt(angle).Some? && ParseInt(angle).value % 90 != 0 ==> r == Err(AngleNotQuarterTurn)
  {
    match ParseInt(angle)
    case None => Err(AngleNotInteger)
    case Some(a) => if a % 90 != 0 then Err(AngleNotQuarterTurn) else Ok(a)
  }

  /** A page selection as one flag per page, first page first. */
  type Selection = seq<bool>

  /** The pages `first..last` (1-based) of an `n`-page document. */
  function Span(n: nat, first: nat, last: nat): (r: Selection)
    ensures |r| == n && forall i :: 0 <= i < n ==> (r[i] <==> first <= i + 1 <= last)
  {
    seq(n, i requires 0 <= i < n => first <= i + 1 <= last)
  }

  function Union(a: Selection, b: Selection): (r: Selection)
    requires |a| == |b|
    ensures |r| == |a| && forall i :: 0 <= i < |a| ==> (r[i] <==> a[i] || b[i])
  {
    seq(|a|, i requires 0 <= i < |a| => a[i] || b[i])
  }

  /** Page `i` (0-based) is named by `part` when the part is usable and its
      bounds include it. */
  predicate Names(part: string, numPages: nat, i: nat) {
    var u := Usable(part, numPages);
    u.Some? && u.value.0 <= i + 1 <= u.value.1
  }

  /** The rotate selection over comma-separated parts: blank parts are
      skipped, any other part must be usable or the whole request fails
      (`SelectPartsExact` gives the selected pages). */
  function SelectParts(parts: seq<string>, numPages: nat): (r: Result<Selection, RotateError>)
    ensures r.Ok? ==> |r.value| == numPages
  {
    if parts == [] then Ok(seq(numPages, _ => false))
    else
      var p := Strip(parts[0]);
      var rest := SelectParts(parts[1..], numPages);
      if p == [] then
        rest
      else
        match Usable(parts[0], numPages)
        case None => Err(BadSpec(p))
        case Some(b) =>
          match rest
          case Err(e) => Err(e)
          case Ok(s) => Ok(Union(Span(numPages, b.0, b.1), s))
  }

  /** A part the rotate selection accepts: blank, or usable. */
  predicate Acceptable(part: string, numPages: nat) {
    Strip(part) == [] || Usable(part, numPages).Some?
  }

  /** The selection succeeds exactly when every non-blank part is usable. */
  lemma {:induction false} SelectPartsOk(parts: seq<string>, numPages: nat)
    ensures SelectParts(parts, numPages).Ok? <==> forall j :: 0 <= j < |parts| ==> Acceptable(parts[j], numPages)
  {
    if parts != [] {
      SelectPartsOk(parts[1..], numPages);
      SelectPartsHead(parts, numPages);
      AllAcceptableSplit(parts, numPages);
    }
  }

  lemma AllAcceptableSplit(parts: seq<string>, numPages: nat)
    requires parts != []
    ensures (forall j :: 0 <= j < |parts| ==> Acceptable(parts[j], numPages)) <==>
            Acceptable(parts[0], numPages) && (forall j :: 0 <= j < |parts[1..]| ==> Acceptable(parts[1..][j], numPages))
  {
    assert forall j :: 1 <= j < |parts| ==> parts[j] == parts[1..][j - 1];
  }

  lemma SelectPartsHead(parts: seq<string>, numPages: nat)
    requires parts != []
    ensures SelectParts(parts, numPages).Ok? <==> Acceptable(parts[0], numPages) && SelectParts(parts[1..], numPages).Ok?
  {
  }

  /** A successful selection holds exactly the pages some part names. */
  lemma {:induction false} SelectPartsExact(parts: seq<string>, numPages: nat)
    requires SelectParts(parts, numPages).Ok?
    ensures forall i :: 0 <= i < numPages ==>
              (SelectParts(parts, numPages).value[i] <==>
                 exists j :: 0 <= j < |parts| && Names(parts[j], numPages, i))
  {
    if parts != [] {
      var tail := parts[1..];
      var r := SelectParts(parts, numPages).value;
      var rest := SelectParts(tail, numPages);
      assert rest.Ok?;
      SelectPartsExact(tail, numPages);
      var head := if Strip(parts[0]) == [] then None else Usable(parts[0], numPages);
      assert head.None? ==> r == rest.value && forall i :: !Names(parts[0], numPages, i);
      assert head.Some? ==> r == Union(Span(numPages, head.value.0, head.value.1), rest.value);
      forall i | 0 <= i < numPages
        ensures r[i] <==> exists j :: 0 <= j < |parts| && Names(parts[j], numPages, i)
      {
        if rest.value[i] {
          var j :| 0 <= j < |tail| && Names(tail[j], numPages, i);
          assert Names(parts[j + 1], numPages, i);
        }
        if exists j :: 0 <= j < |parts| && Names(parts[j], numPages, i) {
          var j :| 0 <= j < |parts| && Names(parts[j], numPages, i);
          if j > 0 {
            assert Names(tail[j - 1], numPages, i);
          }
        }
      }
    }
  }

  /** The rotate selection: the whole trimmed, lower-cased text `all` selects
      every page, blank text selects none, anything else goes part by part. */
  function SelectPages(pages: string, numPages: nat): (r: Result<Selection, RotateError>)
    ensures r.Ok? ==> |r.value| == numPages
    ensures Lower(Strip(pages)) == "all" ==> r.Ok? && forall i :: 0 <= i < numPages ==> r.value[i]
    ensures Lower(Strip(pages)) == [] ==> r.Ok? && forall i :: 0 <= i < numPages ==> !r.value[i]
  {
    var t := Lower(Strip(pages));
    if t == "all" then Ok(seq(numPages, _ => true))
    else if t == [] then Ok(seq(numPages, _ => false))
    else SelectParts(Split(t, ','), numPages)
  }

  /** `rotate_pdf` on the page rotations: a bad angle fails before the
      document is looked at; an empty document fails; otherwise every selected
      page turns by the angle once and every other page is unchanged. */
  function Rotate(rotations: seq<int>, pages: string, angle: string): (r: Result<seq<int>, RotateError>)
    ensures ParseAngle(angle).Err? ==> r == Err(ParseAngle(angle).error)
    ensures ParseAngle(angle).Ok? && |rotations| == 0 ==> r == Err(EmptyDocument)
    ensures r.Ok? ==> |r.value| == |rotations| && forall i :: 0 <= i < |rotations| ==>
              r.value[i] == rotations[i] || r.value[i] == rotations[i] + ParseAngle(angle).value
    ensures r.Ok? && SelectPages(pages, |rotations|).Ok? ==> forall i :: 0 <= i < |rotations| ==>
              r.value[i] == rotations[i] + (if SelectPages(pages, |rotations|).value[i] then ParseAngle(angle).value else 0)
  {
    match ParseAngle(angle)
    case Err(e) => Err(e)
    case Ok(a) =>
      if |rotations| == 0 then Err(EmptyDocument)
      else
        match SelectPages(pages, |rotations|)
        case Err(e) => Err(e)
        case Ok(sel) => Ok(Turn(rotations, sel, a))
  }

  /** Each selected page turned by `a`, every other page as it was. */
  function Turn(rotations: seq<int>, sel: Selection, a: int): (r: seq<int>)
    requires |sel| == |rotations|
    ensures |r| == |rotations|
    ensures forall i :: 0 <= i < |r| ==> r[i] == rotations[i] + (if sel[i] then a else 0)
  {
    seq(|rotations|, i requires 0 <= i < |rotations| => rotations[i] + (if sel[i] then a else 0))
  }

  /** Rotating with `all` turns every page of a non-empty document once. */
  lemma RotateAll(rotations: seq<int>, pages: string, angle: string)
    requires Lower(Strip(pages)) == "all"
    requires ParseAngle(angle).Ok? && |rotations| > 0
    ensures Rotate(rotations, pages, angle).Ok?
    ensures forall i :: 0 <= i < |rotations| ==>
              Rotate(rotations, pages, angle).value[i] == rotations[i] + ParseAngle(angle).value
  {
  }
}

=== FILE: results.dfy ===
/** Failure-carrying values used throughout the model: an optional value and a
    value-or-error result, standing for the source's `None` and its raised exceptions. */
module Results {

  datatype Option<+T> = None | Some(value: T)

  datatype Result<+T, +E> = Ok(value: T) | Err(error: E)
}

=== FILE: server.dfy ===
/** The server side of one connection (the session body of
    `server_program`, server.py:536-739): receive action, file name, size and
    payload, the action's options, run the action, then send the result
    envelope or an error envelope. The PDF and Office work is a parameter
    (`exec`); only its outcome matters here. */
module Server {
  import opened Results
  import opened Strings
  import opened Frames
  import opened Transfer
  import opened Actions
  import opened Workspace

  /** What running an action left behind: the output file's bytes, no
      output file at all, or an exception (a `FileNotFoundError` is reported
      differently from every other one). */
  datatype Raised = NotFound(detail: string) | Failed(detail: string)
  datatype Processed = Produced(out: string) | Missing | Raise(error: Raised)

  /** Everything an action runs on: the stripped action text, the client's
      file name, the payload, the option texts in order and the session's
      file names. */
  datatype Job = Job(action: string, filename: string, input: string, options: seq<string>, names: Names)

  /** The server's surroundings: the action runner, the process id and the
      system temporary directory. */
  datatype Host = Host(exec: Job -> Processed, pid: nat, tempDir: string)

  /** How a connection ended: the result was sent, an error envelope was
      sent, or a network error (including a timeout) dropped it. */
  datatype ServerEnd = Served | Reported(sentinel: string) | Dropped

  datatype ServerState =
    | RecvAction
    | RecvFilename(action: string)
    | RecvSize(action: string, filename: string)
    | RecvPayload(action: string, filename: string, size: int, data: string)
    | RecvOptions(action: string, filename: string, data: string, pending: seq<OptionField>, got: seq<string>)
    | Processing(job: Job)
    | AwaitNameAck(out: string)
    | AwaitSizeAck(out: string)
    | ErrAwaitNameAck(sentinel: string, message: string)
    | ErrAwaitSizeAck(sentinel: string, message: string)
    | Closed(end: ServerEnd)

  /** The states blocked in a `recv`. */
  predicate Receiving(s: ServerState) {
    s.RecvAction? || s.RecvFilename? || s.RecvSize? || (s.RecvPayload? && |s.data| < s.size) ||
    (s.RecvOptions? && s.pending != []) || s.AwaitNameAck? || s.AwaitSizeAck? ||
    s.ErrAwaitNameAck? || s.ErrAwaitSizeAck?
  }

  // ---------------------------------------------------------------- envelope

  const ProcessingSentinel: string := "error_processing.bin"
  const NotFoundSentinel: string := "error_file_not_found.bin"
  const DetailLimit: nat := 200

  /** The general error message, with the exception text cut to 200
      characters (server.py:737). */
  function ProcessingMessage(action: string, detail: string): (m: string)
    ensures |m| <= 67 + |action| + DetailLimit
    ensures |m| >= 36 && m[..36] == "ERROR: Server failed during action '"
    ensures EndsWith(m, detail[..Min(DetailLimit, |detail|)])
  {
    "ERROR: Server failed during action '" + action + "'. Check server logs. Details: " + detail[..Min(DetailLimit, |detail|)]
  }

  /** The message for a missing file (server.py:727). */
  function NotFoundMessage(detail: string): (m: string)
    ensures |m| == 33 + |detail| && m[33..] == detail
  {
    "ERROR: File not found on server. " + detail
  }

  /** The text of `int()`'s `ValueError` for a malformed size field. */
  function IntErrorDetail(text: string): string {
    "invalid literal for int() with base 10: '" + text + "'"
  }

  /** `os.path.join(temp_dir, name)`. */
  function TempPath(h: Host, name: string): string {
    h.tempDir + "\\" + name
  }

  /** One move of the server: its next state, what is left of the incoming
      queue, and the messages it sent, in order. */
  datatype ServerMove = ServerMove(next: ServerState, up: Queue, sent: seq<string>)

  /** Start an error envelope: its sentinel name goes first. */
  function Envelope(sentinel: string, message: string, up: Queue): (m: ServerMove)
    ensures m.sent == [sentinel] && m.next == ErrAwaitNameAck(sentinel, message) && m.up == up
  {
    ServerMove(ErrAwaitNameAck(sentinel, message), up, [sentinel])
  }

  // ------------------------------------------------------------------- steps

  function MakeJob(h: Host, action: string, filename: string, data: string, options: seq<string>): Job {
    Job(action, filename, data, options, SessionNames(action, filename, h.pid))
  }

  /** After the payload: the option fields of the action, if any, are read
      next; otherwise the action runs. */
  function AfterPayload(h: Host, action: string, filename: string, data: string): (s: ServerState)
    ensures Fields(ParseAction(action)) == [] ==> s == Processing(MakeJob(h, action, filename, data, []))
    ensures Fields(ParseAction(action)) != [] ==> s == RecvOptions(action, filename, data, Fields(ParseAction(action)), [])
  {
    var fs := Fields(ParseAction(action));
    if fs == [] then Processing(MakeJob(h, action, filename, data, []))
    else RecvOptions(action, filename, data, fs, [])
  }

  /** What the server answers with: the output file's bytes, or an error
      envelope's sentinel name and message. */
  datatype Reply = Output(out: string) | Report(sentinel: string, message: string)

  /** Running the action (server.py:654-695 and the handlers at 721-739):
      text that is not an action name and any exception raised by the action
      become the general error envelope, with the detail cut to 200
      characters; a `FileNotFoundError`, and an output file the action did
      not create, become the not-found envelope with the detail in full. */
  function ReplyTo(h: Host, job: Job): (r: Reply)
    ensures r.Output? <==> ParseAction(job.action).Some? && h.exec(job).Produced?
    ensures r.Output? ==> r.out == h.exec(job).out
    ensures r.Report? ==> (r.sentinel == ProcessingSentinel || r.sentinel == NotFoundSentinel) && r.message != []
    ensures ParseAction(job.action).None? ==>
              r == Report(ProcessingSentinel, ProcessingMessage(job.action, "Invalid action received from client: " + job.action))
    ensures ParseAction(job.action).Some? && h.exec(job).Raise? && h.exec(job).error.Failed? ==>
              r == Report(ProcessingSentinel, ProcessingMessage(job.action, h.exec(job).error.detail))
    ensures ParseAction(job.action).Some? && h.exec(job).Raise? && h.exec(job).error.NotFound? ==>
              r == Report(NotFoundSentinel, NotFoundMessage(h.exec(job).error.detail))
    ensures ParseAction(job.action).Some? && h.exec(job).Missing? ==>
              r.Report? && r.sentinel == NotFoundSentinel && IsFactor(job.names.output, r.message)
  {
    if ParseAction(job.action).None? then
      Report(ProcessingSentinel, ProcessingMessage(job.action, "Invalid action received from client: " + job.action))
    else
      match h.exec(job)
      case Produced(out) => Output(out)
      case Missing =>
        var detail := "Output file was not created by action '" + job.action + "': " + TempPath(h, job.names.output);
        var m := NotFoundMessage(detail);
        assert IsFactorAt(job.names.output, m, |m| - |job.names.output|);
        Report(NotFoundSentinel, m)
      case Raise(NotFound(d)) => Report(NotFoundSentinel, NotFoundMessage(d))
      case Raise(Failed(d)) => Report(ProcessingSentinel, ProcessingMessage(job.action, d))
  }

  /** The first send after processing: the suggested name of the output, or
      the sentinel name that opens an error envelope. */
  function Dispatch(h: Host, job: Job, up: Queue): (m: ServerMove)
    ensures m.up == up
    ensures ReplyTo(h, job).Output? ==> m == ServerMove(AwaitNameAck(ReplyTo(h, job).out), up, [job.names.suggestion])
    ensures ReplyTo(h, job).Report? ==> m == Envelope(ReplyTo(h, job).sentinel, ReplyTo(h, job).message, up)
    ensures m.next.AwaitNameAck? || m.next.ErrAwaitNameAck?
  {
    match ReplyTo(h, job)
    case Output(out) => ServerMove(AwaitNameAck(out), up, [job.names.suggestion])
    case Report(sentinel, message) => Envelope(sentinel, message, up)
  }

  /** The payload phase entered once the size is known: no read at all for
      a size that is not positive. */
  function PayloadStart(h: Host, action: string, filename: string, n: int): ServerState {
    if n <= 0 then AfterPayload(h, action, filename, []) else RecvPayload(action, filename, n, [])
  }

  /** One read of the payload loop (server.py:610-616): never asks for more
      than is still missing, and leaves the loop only with exactly the
      announced number of bytes. */
  function PayloadStep(h: Host, action: string, filename: string, size: int, data: string, up: Queue): (m: ServerMove)
    requires |data| < size
    ensures m.sent == []
    ensures m.next.RecvPayload? ==>
              m.next.size == size && |data| < |m.next.data| < size && m.next.data[..|data|] == data
    ensures m.next.RecvOptions? ==> |m.next.data| == size && m.next.data[..|data|] == data
    ensures m.next.Processing? ==> |m.next.job.input| == size && m.next.job.input[..|data|] == data
    ensures m.next.RecvPayload? || m.next.RecvOptions? || m.next.Processing? || m.next == Closed(Dropped)
  {
    var (chunk, rest) := Take(up, Min(ChunkSize, size - |data|));
    if chunk == [] then ServerMove(Closed(Dropped), rest, [])
    else
      var got := data + chunk;
      assert got[..|data|] == data;
      if |got| >= size then ServerMove(AfterPayload(h, action, filename, got), rest, [])
      else ServerMove(RecvPayload(action, filename, size, got), rest, [])
  }

  /** One option read (server.py:623-651): the acknowledgement goes out
      before the emptiness check, so a closed connection is acknowledged
      too. */
  function OptionStep(h: Host, action: string, filename: string, data: string, pending: seq<OptionField>, got: seq<string>, up: Queue): (m: ServerMove)
    requires pending != []
    ensures m.sent == [Token(FieldAck(pending[0]))]
    ensures m.up == Take(up, 1024).1
    ensures Take(up, 1024).0 == [] <==> m.next == Closed(Dropped)
    ensures m.next.RecvOptions? ==> m.next.pending == pending[1..] && m.next.got == got + [Take(up, 1024).0]
    ensures m.next.Processing? ==> |pending| == 1 && m.next.job.options == got + [Take(up, 1024).0]
  {
    var (msg, rest) := Take(up, 1024);
    var ack := [Token(FieldAck(pending[0]))];
    if msg == [] then ServerMove(Closed(Dropped), rest, ack)
    else if |pending| == 1 then ServerMove(Processing(MakeJob(h, action, filename, data, got + [msg])), rest, ack)
    else ServerMove(RecvOptions(action, filename, data, pending[1..], got + [msg]), rest, ack)
  }

  /** The size field (server.py:600-603): text that is not an integer is
      reported through the general error envelope; any integer is
      acknowledged, and one that is not positive skips the payload. */
  function SizeStep(h: Host, action: string, filename: string, up: Queue): (m: ServerMove)
    ensures Take(up, SizeFieldWidth).0 == [] ==> m == ServerMove(Closed(Dropped), Take(up, SizeFieldWidth).1, [])
    ensures Take(up, SizeFieldWidth).0 != [] && DecodeSize(Take(up, SizeFieldWidth).0).Some? ==>
              m.sent == [Token(AckSize)] &&
              var n := DecodeSize(Take(up, SizeFieldWidth).0).value;
              (n <= 0 ==> m.next == AfterPayload(h, action, filename, [])) &&
              (n > 0 ==> m.next == RecvPayload(action, filename, n, [])) &&
              m == ServerMove(PayloadStart(h, action, filename, n), Take(up, SizeFieldWidth).1, [Token(AckSize)])
    ensures Take(up, SizeFieldWidth).0 != [] && DecodeSize(Take(up, SizeFieldWidth).0).None? ==>
              m.sent == [ProcessingSentinel] && m.next.ErrAwaitNameAck?
    ensures m.next == Closed(Dropped) ==> m.sent == []
  {
    var (field, rest) := Take(up, SizeFieldWidth);
    if field == [] then ServerMove(Closed(Dropped), rest, [])
    else
      match DecodeSize(field)
      case None => Envelope(ProcessingSentinel, ProcessingMessage(action, IntErrorDetail(Strip(field))), rest)
      case Some(n) => ServerMove(PayloadStart(h, action, filename, n), rest, [Token(AckSize)])
  }

  /** The result hand-off (server.py:697-716): the size goes out only after
      exactly `ACK_OUT_FILENAME`, the data only after exactly
      `ACK_OUT_SIZE`; anything else drops the connection. */
  function ResultStep(s: ServerState, up: Queue): (m: ServerMove)
    requires s.AwaitNameAck? || s.AwaitSizeAck?
    ensures m.up == Take(up, 1024).1
    ensures s.AwaitNameAck? ==>
              (Take(up, 1024).0 == Token(AckOutFilename) <==> m.next == AwaitSizeAck(s.out)) &&
              (m.next == AwaitSizeAck(s.out) ==> m.sent == [EncodeSize(|s.out|)])
    ensures s.AwaitSizeAck? ==>
              (Take(up, 1024).0 == Token(AckOutSize) <==> m.next == Closed(Served)) &&
              (m.next == Closed(Served) ==> m.sent == Chunks(s.out))
    ensures m.next == Closed(Dropped) ==> m.sent == []
  {
    var (ack, rest) := Take(up, 1024);
    if s.AwaitNameAck? then
      if ack != Token(AckOutFilename) then ServerMove(Closed(Dropped), rest, [])
      else ServerMove(AwaitSizeAck(s.out), rest, [EncodeSize(|s.out|)])
    else
      if ack != Token(AckOutSize) then ServerMove(Closed(Dropped), rest, [])
      else ServerMove(Closed(Served), rest, Chunks(s.out))
  }

  /** One step of the session body. A network error (an empty read or a
      wrong acknowledgement) sends nothing further, except that an option's
      acknowledgement is sent before its emptiness is checked; the error
      envelope ignores what its reads return. */
  function ServerStep(h: Host, s: ServerState, up: Queue): (m: ServerMove)
    ensures s.Closed? ==> m == ServerMove(s, up, [])
    ensures m.next == Closed(Dropped) && !s.RecvOptions? ==> m.sent == []
    ensures s.RecvOptions? && s.pending != [] ==> m.sent == [Token(FieldAck(s.pending[0]))]
    ensures s.ErrAwaitNameAck? ==> m.next == ErrAwaitSizeAck(s.sentinel, s.message) && m.sent == [EncodeSize(0)]
    ensures s.ErrAwaitSizeAck? ==> m.next == Closed(Reported(s.sentinel)) && m.sent == [s.message]
  {
    match s
    case Closed(_) => ServerMove(s, up, [])
    case RecvAction =>
      var (msg, rest) := Take(up, 1024);
      if msg == [] then ServerMove(Closed(Dropped), rest, [])
      else ServerMove(RecvFilename(Strip(msg)), rest, [Token(AckAction)])
    case RecvFilename(action) =>
      var (msg, rest) := Take(up, 1024);
      if msg == [] then ServerMove(Closed(Dropped), rest, [])
      else ServerMove(RecvSize(action, msg), rest, [Token(AckFilename)])
    case RecvSize(action, filename) => SizeStep(h, action, filename, up)
    case RecvPayload(action, filename, size, data) =>
      if |data| >= size then ServerMove(AfterPayload(h, action, filename, data), up, [])
      else PayloadStep(h, action, filename, size, data, up)
    case RecvOptions(action, filename, data, pending, got) =>
      if pending == [] then ServerMove(Processing(MakeJob(h, action, filename, data, got)), up, [])
      else OptionStep(h, action, filename, data, pending, got, up)
    case Processing(job) => Dispatch(h, job, up)
    case AwaitNameAck(_) => ResultStep(s, up)
    case AwaitSizeAck(_) => ResultStep(s, up)
    case ErrAwaitNameAck(sentinel, message) =>
      var (_, rest) := Take(up, 1024);
      ServerMove(ErrAwaitSizeAck(sentinel, message), rest, [EncodeSize(0)])
    case ErrAwaitSizeAck(sentinel, message) =>
      var (_, rest) := Take(up, 1024);
      ServerMove(Closed(Reported(sentinel)), rest, [message])
  }
}

=== FILE: session.dfy ===
/** One connection with both ends running: the client's request and the
    server's session body interleaved over the two directions of the socket.
    A party moves when it is not blocked in a `recv`, or when what it waits
    for has arrived or its peer has closed. When both are blocked with
    nothing in flight, the socket timeouts end the connection on both sides
    (client.py:242, server.py:719). */
module Session {
  import opened Results
  import opened Strings
  import opened Frames
  import opened Transfer
  import opened Actions
  import opened Workspace
  import Client
  import Server

  /** Both ends and the two directions: `up` is client to server, `down`
      server to client. */
  datatype Sys = Sys(client: Client.ClientState, server: Server.ServerState, up: Queue, down: Queue)

  /** What neither end controls: the server's host and the client's save
      dialog answer. */
  datatype World = World(host: Server.Host, save: Option<string>)

  /** A fresh connection for a client plan: nothing sent yet, the server
      waiting for the action. */
  function Start(plan: seq<Client.ClientOp>): Sys {
    Sys(Client.Upload(plan), Server.RecvAction, [], [])
  }

  /** Several `sendall`s in a row: the non-empty ones reach the wire. */
  function Wire(ms: seq<string>): (q: Queue)
    ensures WellFormed(q)
    ensures Flatten(q) == Flatten(ms)
    ensures WellFormed(ms) ==> q == ms
    decreases |ms|
  {
    if ms == [] then []
    else
      var rest := Wire(ms[1..]);
      if ms[0] == [] then rest
      else
        var q := [ms[0]] + rest;
        assert q[1..] == rest;
        q
  }

  predicate ClientReady(s: Sys) {
    !s.client.Finished? && (!Client.Receiving(s.client) || s.down != [] || s.server.Closed?)
  }

  predicate ServerReady(s: Sys) {
    !s.server.Closed? && (!Server.Receiving(s.server) || s.up != [] || s.client.Finished?)
  }

  predicate Ended(s: Sys) {
    s.client.Finished? && s.server.Closed?
  }

  /** One move of the connection: the client if it can move, otherwise the
      server; an ended connection stays as it is, and two blocked ends both
      time out. */
  function Next(s: Sys, w: World): (t: Sys)
    ensures Ended(s) ==> t == s
    ensures ClientReady(s) ==> t.server == s.server
    ensures !ClientReady(s) ==> t.client == s.client || t.client == Client.Finished(Client.TimedOut)
    ensures !ClientReady(s) && !ServerReady(s) && !Ended(s) ==>
              t.client == Client.Finished(Client.TimedOut) && t.server == Server.Closed(Server.Dropped)
    ensures Ended(t) || ClientReady(t) || ServerReady(t) || (Client.Receiving(t.client) && Server.Receiving(t.server))
  {
    if ClientReady(s) then
      var m := Client.ClientStep(s.client, s.down, w.save);
      Sys(m.next, s.server, Enqueue(s.up, m.sent), m.down)
    else if ServerReady(s) then
      var m := Server.ServerStep(w.host, s.server, s.up);
      Sys(s.client, m.next, m.up, s.down + Wire(m.sent))
    else if Ended(s) then s
    else Sys(Client.Finished(Client.TimedOut), Server.Closed(Server.Dropped), s.up, s.down)
  }

  /** `k` applications of one move. */
  function Iterate(s: Sys, f: Sys -> Sys, k: nat): Sys
    decreases k
  {
    if k == 0 then s else Iterate(f(s), f, k - 1)
  }

  lemma {:induction false} IterateAdd(s: Sys, f: Sys -> Sys, j: nat, k: nat)
    ensures Iterate(s, f, j + k) == Iterate(Iterate(s, f, j), f, k)
    decreases j
  {
    if j > 0 {
      IterateAdd(f(s), f, j - 1, k);
    }
  }

  function Mover(w: World): Sys -> Sys {
    t => Next(t, w)
  }

  /** `k` moves of the connection. */
  function Run(s: Sys, w: World, k: nat): Sys {
    Iterate(s, Mover(w), k)
  }

  lemma RunAdd(s: Sys, w: World, j: nat, k: nat)
    ensures Run(s, w, j + k) == Run(Run(s, w, j), w, k)
  {
    IterateAdd(s, Mover(w), j, k);
  }

  lemma RunNext(s: Sys, w: World, k: nat)
    requires k > 0
    ensures Run(s, w, k) == Run(Next(s, w), w, k - 1)
  {
  }

  /** An ended connection never changes again. */
  lemma {:induction false} EndedStays(s: Sys, w: World, k: nat)
    requires Ended(s)
    ensures Run(s, w, k) == s
    decreases k
  {
    if k > 0 {
      RunNext(s, w, k);
      EndedStays(Next(s, w), w, k - 1);
    }
  }

  // ------------------------------------------------------------ agreement

  /** The cut the client makes when it reads an error block with
      `recv(4096)`. */
  function ErrorBlock(message: string): string {
    message[..Min(4096, |message|)]
  }

  /** How a session that nobody disturbs ends on both sides, given what the
      server's action produced: the client saves exactly the server's output
      (or declines to), an empty output is an empty result (read as an error
      when its name contains `error_`), and an error envelope reaches the
      client with its sentinel name and the first 4096 bytes of its
      message. */
  function Agreed(w: World, job: Server.Job): (r: (Client.Outcome, Server.ServerEnd))
    ensures r.0.Saved? <==> Server.ReplyTo(w.host, job).Output? && Server.ReplyTo(w.host, job).out != [] && w.save.Some? && w.save.value != []
    ensures r.0.Saved? ==> r.0.data == w.host.exec(job).out && r.0.path == w.save.value
    ensures Client.Returned(r.0) <==>
              Server.ReplyTo(w.host, job).Output? &&
              (Server.ReplyTo(w.host, job).out != [] ==> w.save.Some? && w.save.value != []) &&
              (Server.ReplyTo(w.host, job).out == [] ==> !Client.ErrorSignal(job.names.suggestion, 0))
    ensures r.1 == Server.Served <==> Server.ReplyTo(w.host, job).Output?
    ensures Server.ReplyTo(w.host, job).Report? ==>
              r == (Client.ServerError(Server.ReplyTo(w.host, job).sentinel, ErrorBlock(Server.ReplyTo(w.host, job).message)),
                    Server.Reported(Server.ReplyTo(w.host, job).sentinel))
  {
    match Server.ReplyTo(w.host, job)
    case Output(out) =>
      var sug := job.names.suggestion;
      if out == [] then
        (if Client.ErrorSignal(sug, 0) then Client.ServerError(sug, []) else Client.EmptyResult(sug), Server.Served)
      else (Client.Conclude(out, w.save).outcome, Server.Served)
    case Report(sentinel, message) =>
      (Client.ServerError(sentinel, ErrorBlock(message)), Server.Reported(sentinel))
  }

  // ----------------------------------------------------------------- moves

  /** A run that visits the given states one move at a time ends in the
      last of them. */
  lemma {:induction false} Path(s: Sys, f: Sys -> Sys, path: seq<Sys>) returns (k: nat)
    requires path != []
    requires f(s) == path[0]
    requires forall i :: 0 < i < |path| ==> f(path[i - 1]) == path[i]
    ensures Iterate(s, f, k) == path[|path| - 1]
    decreases |path|
  {
    if |path| == 1 {
      k := 1;
    } else {
      var j := Path(path[0], f, path[1..]);
      k := j + 1;
    }
    assert Iterate(s, f, k) == Iterate(f(s), f, k - 1);
  }

  lemma ClientMoves(s: Sys, w: World)
    requires ClientReady(s)
    ensures var m := Client.ClientStep(s.client, s.down, w.save);
            Next(s, w) == Sys(m.next, s.server, Enqueue(s.up, m.sent), m.down)
  {
  }

  lemma ServerMoves(s: Sys, w: World)
    requires !ClientReady(s) && ServerReady(s)
    ensures var m := Server.ServerStep(w.host, s.server, s.up);
            Next(s, w) == Sys(s.client, m.next, m.up, s.down + Wire(m.sent))
  {
  }

  /** The client sends the next message of its plan and waits for its
      acknowledgement. */
  lemma Send(s: Sys, w: World)
    requires s.client.Upload? && s.client.ops != [] && s.client.ops[0].Exchange? && s.client.ops[0].msg != []
    ensures Next(s, w) ==
              s.(client := Client.AwaitAck(s.client.ops[0].ack, s.client.ops[1..]), up := s.up + [s.client.ops[0].msg])
  {
  }

  /** The server takes the one message in flight and answers with the token
      the client waits for; the client reads it and carries on with its
      plan. */
  lemma Answer(s: Sys, w: World, after: Server.ServerState) returns (k: nat)
    requires s.client.AwaitAck? && s.down == [] && |s.up| == 1 && Server.Receiving(s.server)
    requires Server.ServerStep(w.host, s.server, s.up) == Server.ServerMove(after, [], [Token(s.client.wanted)])
    ensures Run(s, w, k) == s.(client := Client.Upload(s.client.ops), server := after, up := [])
  {
    var s1 := s.(server := after, up := [], down := [Token(s.client.wanted)]);
    ServerAnswers(s, w, after);
    var k1 := Step(s, w, s1);
    var s2 := s1.(client := Client.Upload(s.client.ops), down := []);
    ClientReadsAck(s1, w);
    var k2 := Step(s1, w, s2);
    k := Chain2(s, s1, s2, Mover(w), k1, k2);
  }

  lemma ServerAnswers(s: Sys, w: World, after: Server.ServerState)
    requires s.client.AwaitAck? && s.down == [] && |s.up| == 1 && Server.Receiving(s.server)
    requires Server.ServerStep(w.host, s.server, s.up) == Server.ServerMove(after, [], [Token(s.client.wanted)])
    ensures Next(s, w) == s.(server := after, up := [], down := [Token(s.client.wanted)])
  {
    ServerMoves(s, w);
    assert Wire([Token(s.client.wanted)]) == [Token(s.client.wanted)];
  }

  lemma ClientReadsAck(s: Sys, w: World)
    requires s.client.AwaitAck? && s.down == [Token(s.client.wanted)]
    ensures Next(s, w) == s.(client := Client.Upload(s.client.ops), down := [])
  {
    ClientMoves(s, w);
    TakeHead(s.down, 1024);
  }

  /** An acknowledged send: the client sends, the server answers, the
      client reads the answer. */
  lemma Round(s: Sys, w: World, msg: string, ack: Ack, ops: seq<Client.ClientOp>, after: Server.ServerState) returns (k: nat)
    requires s.client == Client.Upload([Client.Exchange(msg, ack)] + ops) && msg != []
    requires s.up == [] && s.down == [] && Server.Receiving(s.server)
    requires Server.ServerStep(w.host, s.server, [msg]) == Server.ServerMove(after, [], [Token(ack)])
    ensures Run(s, w, k) == s.(client := Client.Upload(ops), server := after)
  {
    var s1 := s.(client := Client.AwaitAck(ack, ops), up := [msg]);
    Sends(s, w, msg, ack, ops);
    var k1 := Step(s, w, s1);
    var k2 := Answer(s1, w, after);
    k := Chain2(s, s1, s.(client := Client.Upload(ops), server := after), Mover(w), k1, k2);
  }

  lemma Sends(s: Sys, w: World, msg: string, ack: Ack, ops: seq<Client.ClientOp>)
    requires s.client == Client.Upload([Client.Exchange(msg, ack)] + ops) && msg != [] && s.up == []
    ensures Next(s, w) == s.(client := Client.AwaitAck(ack, ops), up := [msg])
  {
    assert ([Client.Exchange(msg, ack)] + ops)[1..] == ops;
    Send(s, w);
  }

  // -------------------------------------------------------------- handshake

  lemma StripUnpadded(s: string)
    requires |s| > 0 && !IsSpace(s[0]) && !IsSpace(s[|s| - 1])
    ensures Strip(s) == s
  {
    StripAt(s, 0, |s|);
    assert s[0..|s|] == s;
  }

  /** The server's `strip()` leaves every action name as it is. */
  lemma NamePlain(a: Action)
    ensures 0 < |Name(a)| <= 1024 && Strip(Name(a)) == Name(a)
  {
    var n := Name(a);
    assert 'a' <= n[0] <= 'z' && 'a' <= n[|n| - 1] <= 'z';
    StripUnpadded(n);
  }

  lemma ServerTakesAction(h: Server.Host, a: Action)
    ensures Server.ServerStep(h, Server.RecvAction, [Name(a)]) ==
              Server.ServerMove(Server.RecvFilename(Name(a)), [], [Token(AckAction)])
  {
    NamePlain(a);
    assert Take([Name(a)], 1024) == (Name(a), []);
  }

  lemma ServerTakesFilename(h: Server.Host, an: string, name: string)
    requires 0 < |name| <= 1024
    ensures Server.ServerStep(h, Server.RecvFilename(an), [name]) ==
              Server.ServerMove(Server.RecvSize(an, name), [], [Token(AckFilename)])
  {
    assert Take([name], 1024) == (name, []);
  }

  lemma ServerTakesSize(h: Server.Host, an: string, name: string, n: nat)
    requires n < SizeFieldLimit
    ensures Server.ServerStep(h, Server.RecvSize(an, name), [EncodeSize(n)]) ==
              Server.ServerMove(Server.PayloadStart(h, an, name, n), [], [Token(AckSize)])
  {
    SizeFieldRoundTrip(n);
    ServerTakesField(h, an, name, EncodeSize(n), n);
  }

  lemma ServerTakesField(h: Server.Host, an: string, name: string, f: string, n: int)
    requires |f| == SizeFieldWidth && DecodeSize(f) == Some(n)
    ensures Server.ServerStep(h, Server.RecvSize(an, name), [f]) ==
              Server.ServerMove(Server.PayloadStart(h, an, name, n), [], [Token(AckSize)])
  {
    FieldSizeStep(h, an, name, f, n);
    SizeDispatch(h, an, name, [f]);
  }

  lemma SizeDispatch(h: Server.Host, an: string, name: string, up: Queue)
    ensures Server.ServerStep(h, Server.RecvSize(an, name), up) == Server.SizeStep(h, an, name, up)
  {
  }

  lemma FieldSizeStep(h: Server.Host, an: string, name: string, f: string, n: int)
    requires |f| == SizeFieldWidth && DecodeSize(f) == Some(n)
    ensures Server.SizeStep(h, an, name, [f]) ==
              Server.ServerMove(Server.PayloadStart(h, an, name, n), [], [Token(AckSize)])
  {
    TakeHead([f], SizeFieldWidth);
  }

  /** Action, file name and size field, each acknowledged. The server then
      waits for the payload, or goes straight on when it is empty. */
  lemma Handshake(w: World, a: Action, name: string, data: string, rest: seq<Client.ClientOp>) returns (k: nat)
    requires 0 < |name| <= 1024 && |data| < SizeFieldLimit
    ensures Run(Start([Client.Exchange(Name(a), AckAction), Client.Exchange(name, AckFilename),
                       Client.Exchange(EncodeSize(|data|), AckSize)] + rest), w, k) ==
            Sys(Client.Upload(rest), Server.PayloadStart(w.host, Name(a), name, |data|), [], [])
  {
    var h := w.host;
    var an := Name(a);
    var after := Server.PayloadStart(h, an, name, |data|);
    var ops2 := [Client.Exchange(EncodeSize(|data|), AckSize)] + rest;
    var ops1 := [Client.Exchange(name, AckFilename)] + ops2;
    var ops0 := [Client.Exchange(an, AckAction)] + ops1;
    NamePlain(a);
    ServerTakesAction(h, a);
    var s0 := Start(ops0);
    var k1 := Round(s0, w, an, AckAction, ops1, Server.RecvFilename(an));
    var s1 := Sys(Client.Upload(ops1), Server.RecvFilename(an), [], []);
    ServerTakesFilename(h, an, name);
    var k2 := Round(s1, w, name, AckFilename, ops2, Server.RecvSize(an, name));
    var s2 := Sys(Client.Upload(ops2), Server.RecvSize(an, name), [], []);
    ServerTakesSize(h, an, name, |data|);
    SizeFieldRoundTrip(|data|);
    var k3 := Round(s2, w, EncodeSize(|data|), AckSize, rest, after);
    k := Chain3(s0, s1, s2, Sys(Client.Upload(rest), after, [], []), Mover(w), k1, k2, k3);
    Nest3(Client.Exchange(an, AckAction), Client.Exchange(name, AckFilename), Client.Exchange(EncodeSize(|data|), AckSize), rest);
  }

  /** Three runs one after the other are one run. */
  lemma Chain3(s0: Sys, s1: Sys, s2: Sys, s3: Sys, f: Sys -> Sys, k1: nat, k2: nat, k3: nat) returns (k: nat)
    requires Iterate(s0, f, k1) == s1 && Iterate(s1, f, k2) == s2 && Iterate(s2, f, k3) == s3
    ensures Iterate(s0, f, k) == s3
  {
    IterateAdd(s1, f, k2, k3);
    IterateAdd(s0, f, k1, k2 + k3);
    k := k1 + (k2 + k3);
  }

  lemma Nest3<T>(x1: T, x2: T, x3: T, rest: seq<T>)
    ensures [x1, x2, x3] + rest == [x1] + ([x2] + ([x3] + rest))
  {
  }

  // ---------------------------------------------------------------- payload

  /** The client writes the payload chunk after chunk without waiting. */
  lemma {:induction false} ClientStreams(s: Sys, w: World, cs: Queue, rest: seq<Client.ClientOp>) returns (k: nat)
    requires WellFormed(cs)
    requires s.client == Client.Upload(Client.Streams(cs) + rest)
    ensures Run(s, w, k) == s.(client := Client.Upload(rest), up := s.up + cs)
    decreases |cs|
  {
    if cs == [] {
      assert Client.Streams(cs) + rest == rest;
      assert s.up + cs == s.up;
      k := 0;
    } else {
      var ops := Client.Streams(cs) + rest;
      assert ops[0] == Client.Stream(cs[0]);
      assert ops[1..] == Client.Streams(cs[1..]) + rest;
      var s1 := s.(client := Client.Upload(ops[1..]), up := s.up + [cs[0]]);
      assert Next(s, w) == s1;
      var k1 := Step(s, w, s1);
      var k2 := ClientStreams(s1, w, cs[1..], rest);
      assert s.up + [cs[0]] + cs[1..] == s.up + cs;
      k := Chain2(s, s1, s.(client := Client.Upload(rest), up := s.up + cs), Mover(w), k1, k2);
    }
  }

  /** While the client waits (or has gone), the server reads the payload one
      whole chunk per move, never past the announced size. */
  lemma {:induction false} ServerTakesPayload(s: Sys, w: World, an: string, name: string, data: string, rest: string, more: Queue)
    returns (k: nat)
    requires |rest| > 0
    requires s.server == Server.RecvPayload(an, name, |data| + |rest|, data)
    requires s.up == Chunks(rest) + more && WellFormed(more)
    requires !ClientReady(s)
    ensures Run(s, w, k) == s.(server := Server.AfterPayload(w.host, an, name, data + rest), up := more)
    decreases |rest|
  {
    var c := Min(ChunkSize, |rest|);
    var data' := data + rest[..c];
    var rest' := rest[c..];
    var final := s.(server := Server.AfterPayload(w.host, an, name, data + rest), up := more);
    if |rest| > ChunkSize {
      PayloadParts(data, rest, more);
      var k1 := PayloadStepRun(s, w, an, name, |data| + |rest|, data, rest[..c], Chunks(rest') + more);
      var t := s.(server := Server.RecvPayload(an, name, |data| + |rest|, data'), up := Chunks(rest') + more);
      var k2 := ServerTakesPayload(t, w, an, name, data', rest', more);
      k := Chain2(s, t, final, Mover(w), k1, k2);
    } else {
      k := PayloadLast(s, w, an, name, data, rest, more);
    }
  }

  /** The last chunk of the payload completes it. */
  lemma PayloadLast(s: Sys, w: World, an: string, name: string, data: string, rest: string, more: Queue)
    returns (k: nat)
    requires 0 < |rest| <= ChunkSize
    requires s.server == Server.RecvPayload(an, name, |data| + |rest|, data)
    requires s.up == Chunks(rest) + more
    requires !ClientReady(s)
    ensures Run(s, w, k) == s.(server := Server.AfterPayload(w.host, an, name, data + rest), up := more)
  {
    PayloadParts(data, rest, more);
    k := PayloadStepRun(s, w, an, name, |data| + |rest|, data, rest, more);
  }

  /** How the payload splits at its first chunk: the queue, the bytes read so
      far, and the last chunk. */
  lemma PayloadParts(data: string, rest: string, more: Queue)
    requires |rest| > 0
    ensures var c := Min(ChunkSize, |rest|);
            && Chunks(rest) + more == [rest[..c]] + (Chunks(rest[c..]) + more)
            && (data + rest[..c]) + rest[c..] == data + rest
            && (|rest| <= ChunkSize ==> rest[..c] == rest && Chunks(rest[c..]) + more == more)
  {
    ChunkSplit(rest, more);
    SplitAt(data, rest, Min(ChunkSize, |rest|));
    if |rest| <= ChunkSize {
      LastChunk(rest, more);
    }
  }

  lemma SplitAt<T>(data: seq<T>, rest: seq<T>, c: nat)
    requires c <= |rest|
    ensures (data + rest[..c]) + rest[c..] == data + rest
  {
    assert rest[..c] + rest[c..] == rest;
  }

  lemma LastChunk(rest: string, more: Queue)
    ensures rest[..|rest|] == rest && Chunks(rest[|rest|..]) + more == more
  {
    assert rest[|rest|..] == [];
  }

  /** The chunks of `d` followed by `more`: the first chunk, then the chunks
      of the rest. */
  lemma ChunkSplit(d: string, more: Queue)
    requires |d| > 0
    ensures Chunks(d) + more == [d[..Min(ChunkSize, |d|)]] + (Chunks(d[Min(ChunkSize, |d|)..]) + more)
  {
    ChunksHead(d);
    ConsAppend(Chunks(d), more);
  }

  lemma ConsAppend<T>(xs: seq<T>, more: seq<T>)
    requires xs != []
    ensures xs + more == [xs[0]] + (xs[1..] + more)
  {
  }

  /** `PayloadMove` as a run of its own. */
  lemma PayloadStepRun(s: Sys, w: World, an: string, name: string, size: int, data: string, chunk: string, tail: Queue)
    returns (k: nat)
    requires |data| < size && 0 < |chunk| <= Min(ChunkSize, size - |data|)
    requires s.server == Server.RecvPayload(an, name, size, data) && s.up == [chunk] + tail
    requires !ClientReady(s)
    ensures Run(s, w, k) ==
              s.(server := if |data| + |chunk| >= size then Server.AfterPayload(w.host, an, name, data + chunk)
                           else Server.RecvPayload(an, name, size, data + chunk), up := tail)
  {
    PayloadMove(s, w, an, name, size, data, chunk, tail);
    k := Step(s, w, s.(server := if |data| + |chunk| >= size then Server.AfterPayload(w.host, an, name, data + chunk)
                                 else Server.RecvPayload(an, name, size, data + chunk), up := tail));
  }

  /** One read of the payload while the client waits: the server takes the
      whole chunk at the head of the queue. */
  lemma PayloadMove(s: Sys, w: World, an: string, name: string, size: int, data: string, chunk: string, tail: Queue)
    requires |data| < size && 0 < |chunk| <= Min(ChunkSize, size - |data|)
    requires s.server == Server.RecvPayload(an, name, size, data) && s.up == [chunk] + tail
    requires !ClientReady(s)
    ensures Next(s, w) ==
              s.(server := if |data| + |chunk| >= size then Server.AfterPayload(w.host, an, name, data + chunk)
                           else Server.RecvPayload(an, name, size, data + chunk), up := tail)
  {
    ChunkRead(w.host, an, name, size, data, chunk, tail);
    ServerMoves(s, w);
    assert Wire([]) == [];
  }

  /** One read of the payload loop when a whole chunk is in flight. */
  lemma ChunkRead(h: Server.Host, an: string, name: string, size: int, data: string, chunk: string, tail: Queue)
    requires |data| < size && 0 < |chunk| <= Min(ChunkSize, size - |data|)
    ensures Server.ServerStep(h, Server.RecvPayload(an, name, size, data), [chunk] + tail) ==
              Server.ServerMove(if |data| + |chunk| >= size then Server.AfterPayload(h, an, name, data + chunk)
                                else Server.RecvPayload(an, name, size, data + chunk), tail, [])
  {
    TakeHead([chunk] + tail, Min(ChunkSize, size - |data|));
    assert ([chunk] + tail)[1..] == tail;
  }

  /** The client reads the result one whole chunk per move and concludes
      with exactly the bytes the server sent. */
  lemma {:induction false} ClientTakesResult(s: Sys, w: World, name: string, data: string, rest: string) returns (k: nat)
    requires |rest| > 0
    requires s.client == Client.AwaitData(name, |data| + |rest|, data)
    requires s.down == Chunks(rest) && s.server.Closed?
    ensures Run(s, w, k) == s.(client := Client.Conclude(data + rest, w.save), down := [])
    decreases |rest|
  {
    var c := Min(ChunkSize, |rest|);
    var data' := data + rest[..c];
    var rest' := rest[c..];
    var final := s.(client := Client.Conclude(data + rest, w.save), down := []);
    if |rest| > ChunkSize {
      ResultParts(data, rest);
      var k1 := ResultStepRun(s, w, name, |data| + |rest|, data, rest[..c], Chunks(rest'));
      var t := s.(client := Client.AwaitData(name, |data| + |rest|, data'), down := Chunks(rest'));
      var k2 := ClientTakesResult(t, w, name, data', rest');
      k := Chain2(s, t, final, Mover(w), k1, k2);
    } else {
      k := ResultLast(s, w, name, data, rest);
    }
  }

  /** The last chunk of the result completes it. */
  lemma ResultLast(s: Sys, w: World, name: string, data: string, rest: string) returns (k: nat)
    requires 0 < |rest| <= ChunkSize
    requires s.client == Client.AwaitData(name, |data| + |rest|, data)
    requires s.down == Chunks(rest) && s.server.Closed?
    ensures Run(s, w, k) == s.(client := Client.Conclude(data + rest, w.save), down := [])
  {
    ResultParts(data, rest);
    k := ResultStepRun(s, w, name, |data| + |rest|, data, rest, []);
  }

  /** `PayloadParts` for the result, which nothing follows on the queue. */
  lemma ResultParts(data: string, rest: string)
    requires |rest| > 0
    ensures var c := Min(ChunkSize, |rest|);
            && Chunks(rest) == [rest[..c]] + Chunks(rest[c..])
            && (data + rest[..c]) + rest[c..] == data + rest
            && (|rest| <= ChunkSize ==> rest[..c] == rest && Chunks(rest) == [rest])
  {
    var c := Min(ChunkSize, |rest|);
    PayloadParts(data, rest, []);
    assert Chunks(rest) + [] == Chunks(rest);
    assert Chunks(rest[c..]) + [] == Chunks(rest[c..]);
  }

  /** `ResultMove` as a run of its own. */
  lemma ResultStepRun(s: Sys, w: World, name: string, size: int, data: string, chunk: string, tail: Queue) returns (k: nat)
    requires |data| < size && 0 < |chunk| <= Min(ChunkSize, size - |data|)
    requires s.client == Client.AwaitData(name, size, data) && s.down == [chunk] + tail && s.server.Closed?
    ensures Run(s, w, k) ==
              s.(client := if |data| + |chunk| >= size then Client.Conclude(data + chunk, w.save)
                           else Client.AwaitData(name, size, data + chunk), down := tail)
  {
    ResultMove(s, w, name, size, data, chunk, tail);
    k := Step(s, w, s.(client := if |data| + |chunk| >= size then Client.Conclude(data + chunk, w.save)
                                 else Client.AwaitData(name, size, data + chunk), down := tail));
  }

  /** One read of the result after the server has finished: the client takes
      the whole chunk at the head of the queue. */
  lemma ResultMove(s: Sys, w: World, name: string, size: int, data: string, chunk: string, tail: Queue)
    requires |data| < size && 0 < |chunk| <= Min(ChunkSize, size - |data|)
    requires s.client == Client.AwaitData(name, size, data) && s.down == [chunk] + tail && s.server.Closed?
    ensures Next(s, w) ==
              s.(client := if |data| + |chunk| >= size then Client.Conclude(data + chunk, w.save)
                           else Client.AwaitData(name, size, data + chunk), down := tail)
  {
    ResultChunkRead(name, size, data, chunk, tail, w.save);
    ClientMoves(s, w);
    assert Enqueue(s.up, []) == s.up;
  }

  /** One read of the result loop when a whole chunk is in flight. */
  lemma ResultChunkRead(name: string, size: int, data: string, chunk: string, tail: Queue, save: Option<string>)
    requires |data| < size && 0 < |chunk| <= Min(ChunkSize, size - |data|)
    ensures Client.ClientStep(Client.AwaitData(name, size, data), [chunk] + tail, save) ==
              Client.ClientMove(if |data| + |chunk| >= size then Client.Conclude(data + chunk, save)
                                else Client.AwaitData(name, size, data + chunk), tail, [])
  {
    TakeHead([chunk] + tail, Min(ChunkSize, size - |data|));
    assert ([chunk] + tail)[1..] == tail;
  }

  /** One move to a known state. */
  lemma Step(s: Sys, w: World, t: Sys) returns (k: nat)
    requires Next(s, w) == t
    ensures Run(s, w, k) == t
  {
    assert Mover(w)(s) == t;
    k := Path(s, Mover(w), [t]);
  }

  /** Two runs one after the other are one run. */
  lemma Chain2(s0: Sys, s1: Sys, s2: Sys, f: Sys -> Sys, k1: nat, k2: nat) returns (k: nat)
    requires Iterate(s0, f, k1) == s1 && Iterate(s1, f, k2) == s2
    ensures Iterate(s0, f, k) == s2
  {
    IterateAdd(s0, f, k1, k2);
    k := k1 + k2;
  }

  // ---------------------------------------------------------------- options

  /** The option sends for a list of texts and the fields they answer. */
  function Exchanges(texts: seq<string>, fields: seq<OptionField>): (r: seq<Client.ClientOp>)
    requires |texts| == |fields|
    ensures |r| == |texts|
    ensures forall i :: 0 <= i < |r| ==> r[i] == Client.Exchange(texts[i], FieldAck(fields[i]))
  {
    seq(|texts|, i requires 0 <= i < |texts| => Client.Exchange(texts[i], FieldAck(fields[i])))
  }

  /** The texts a list of sends puts on the wire. */
  function Texts(ops: seq<Client.ClientOp>): (r: seq<string>)
    ensures |r| == |ops|
    ensures forall i :: 0 <= i < |ops| && ops[i].Exchange? ==> r[i] == ops[i].msg
  {
    seq(|ops|, i requires 0 <= i < |ops| =>
      match ops[i]
      case Exchange(m, _) => m
      case Stream(c) => c
      case Reject(_) => [])
  }

  /** The two ends agree on the option table: when the client rejects
      nothing, it sends one text per field the server reads for the action,
      in the server's order, each expecting the token the server answers
      that field with. */
  lemma OptionsAgree(a: Action, o: Client.Opts, strict: bool)
    requires forall i :: 0 <= i < |Client.OptionOps(a, o, strict)| ==> Client.OptionOps(a, o, strict)[i].Exchange?
    ensures |Client.OptionOps(a, o, strict)| == |Fields(Some(a))|
    ensures Client.OptionOps(a, o, strict) == Exchanges(Texts(Client.OptionOps(a, o, strict)), Fields(Some(a)))
  {
    var ops := Client.OptionOps(a, o, strict);
    if a == Rotate {
      assert !ops[0].Reject?;
    } else if a in {Encrypt, Decrypt, Split, AddNumbers} {
      assert |ops| == 1 && ops[0].Exchange?;
    }
  }

  lemma ServerTakesOption(h: Server.Host, an: string, name: string, data: string, fields: seq<OptionField>, got: seq<string>, text: string)
    requires fields != [] && 0 < |text| <= 1024
    ensures Server.ServerStep(h, Server.RecvOptions(an, name, data, fields, got), [text]) ==
              Server.ServerMove(
                if |fields| == 1 then Server.Processing(Server.MakeJob(h, an, name, data, got + [text]))
                else Server.RecvOptions(an, name, data, fields[1..], got + [text]),
                [], [Token(FieldAck(fields[0]))])
  {
    assert Take([text], 1024) == (text, []);
  }

  /** The option rounds, from the first option in flight: each is read,
      acknowledged and answered by the next, and after the last one the
      server runs the action with the texts in order while the client waits
      for the result. */
  lemma {:induction false} OptionRounds(s: Sys, w: World, an: string, name: string, data: string,
                                        texts: seq<string>, fields: seq<OptionField>, got: seq<string>) returns (k: nat)
    requires |texts| == |fields| > 0
    requires forall i :: 0 <= i < |texts| ==> 0 < |texts[i]| <= 1024
    requires s == Sys(Client.AwaitAck(FieldAck(fields[0]), Exchanges(texts[1..], fields[1..])),
                      Server.RecvOptions(an, name, data, fields, got), [texts[0]], [])
    ensures Run(s, w, k) == Sys(Client.AwaitName, Server.Processing(Server.MakeJob(w.host, an, name, data, got + texts)), [], [])
    decreases |fields|
  {
    if |fields| == 1 {
      k := LastOption(s, w, an, name, data, texts, fields, got);
    } else {
      var k1 := NextOption(s, w, an, name, data, texts, fields, got);
      var s2 := Sys(Client.AwaitAck(FieldAck(fields[1]), Exchanges(texts[2..], fields[2..])),
                    Server.RecvOptions(an, name, data, fields[1..], got + [texts[0]]), [texts[1]], []);
      Shift(texts, fields, got);
      var k2 := OptionRounds(s2, w, an, name, data, texts[1..], fields[1..], got + [texts[0]]);
      k := Chain2(s, s2, Sys(Client.AwaitName, Server.Processing(Server.MakeJob(w.host, an, name, data, got + texts)), [], []),
                  Mover(w), k1, k2);
    }
  }

  lemma Shift<T, U>(xs: seq<T>, ys: seq<U>, got: seq<T>)
    requires |xs| > 1 && |ys| > 1
    ensures xs[1..][1..] == xs[2..] && ys[1..][1..] == ys[2..]
    ensures got + [xs[0]] + xs[1..] == got + xs
  {
    assert [xs[0]] + xs[1..] == xs;
  }

  /** The last option: the server reads it and runs the action; the client
      reads the acknowledgement and waits for the result. */
  lemma LastOption(s: Sys, w: World, an: string, name: string, data: string,
                   texts: seq<string>, fields: seq<OptionField>, got: seq<string>) returns (k: nat)
    requires |texts| == |fields| == 1 && 0 < |texts[0]| <= 1024
    requires s == Sys(Client.AwaitAck(FieldAck(fields[0]), Exchanges(texts[1..], fields[1..])),
                      Server.RecvOptions(an, name, data, fields, got), [texts[0]], [])
    ensures Run(s, w, k) == Sys(Client.AwaitName, Server.Processing(Server.MakeJob(w.host, an, name, data, got + texts)), [], [])
  {
    var after := Server.Processing(Server.MakeJob(w.host, an, name, data, got + [texts[0]]));
    ServerTakesOption(w.host, an, name, data, fields, got, texts[0]);
    var k1 := Answer(s, w, after);
    assert Exchanges(texts[1..], fields[1..]) == [];
    var s1 := Sys(Client.Upload([]), after, [], []);
    var k2 := AwaitsResult(s1, w);
    assert texts == [texts[0]];
    k := Chain2(s, s1, s1.(client := Client.AwaitName), Mover(w), k1, k2);
  }

  /** An option that is not the last: the server reads it, and the client
      reads the acknowledgement and sends the next one. */
  lemma NextOption(s: Sys, w: World, an: string, name: string, data: string,
                   texts: seq<string>, fields: seq<OptionField>, got: seq<string>) returns (k: nat)
    requires |texts| == |fields| > 1 && 0 < |texts[0]| <= 1024 && texts[1] != []
    requires s == Sys(Client.AwaitAck(FieldAck(fields[0]), Exchanges(texts[1..], fields[1..])),
                      Server.RecvOptions(an, name, data, fields, got), [texts[0]], [])
    ensures Run(s, w, k) == Sys(Client.AwaitAck(FieldAck(fields[1]), Exchanges(texts[2..], fields[2..])),
                                Server.RecvOptions(an, name, data, fields[1..], got + [texts[0]]), [texts[1]], [])
  {
    var after := Server.RecvOptions(an, name, data, fields[1..], got + [texts[0]]);
    ServerTakesOption(w.host, an, name, data, fields, got, texts[0]);
    var k1 := Answer(s, w, after);
    var ops := Exchanges(texts[1..], fields[1..]);
    assert ops[0] == Client.Exchange(texts[1], FieldAck(fields[1]));
    assert ops[1..] == Exchanges(texts[2..], fields[2..]);
    var s1 := Sys(Client.Upload(ops), after, [], []);
    var k2 := SendRun(s1, w);
    k := Chain2(s, s1, Sys(Client.AwaitAck(FieldAck(fields[1]), Exchanges(texts[2..], fields[2..])), after, [texts[1]], []),
                Mover(w), k1, k2);
  }

  /** The client sends the next message of its plan, as a run. */
  lemma SendRun(s: Sys, w: World) returns (k: nat)
    requires s.client.Upload? && s.client.ops != [] && s.client.ops[0].Exchange? && s.client.ops[0].msg != []
    ensures Run(s, w, k) ==
              s.(client := Client.AwaitAck(s.client.ops[0].ack, s.client.ops[1..]), up := s.up + [s.client.ops[0].msg])
  {
    Send(s, w);
    k := Step(s, w, s.(client := Client.AwaitAck(s.client.ops[0].ack, s.client.ops[1..]), up := s.up + [s.client.ops[0].msg]));
  }

  /** With its plan done, the client turns to wait for the result. */
  lemma AwaitsResult(s: Sys, w: World) returns (k: nat)
    requires s.client == Client.Upload([])
    ensures Run(s, w, k) == s.(client := Client.AwaitName)
  {
    ClientMoves(s, w);
    assert Enqueue(s.up, []) == s.up;
    k := Step(s, w, s.(client := Client.AwaitName));
  }

  // ----------------------------------------------------------------- upload

  /** The plan of a request that rejects nothing: action, name, size, the
      payload's chunks, then one text per option field. */
  function Request(a: Action, name: string, data: string, texts: seq<string>): seq<Client.ClientOp>
    requires |texts| == |Fields(Some(a))|
  {
    [Client.Exchange(Name(a), AckAction), Client.Exchange(name, AckFilename), Client.Exchange(EncodeSize(|data|), AckSize)] +
    (Client.Streams(Chunks(data)) + Exchanges(texts, Fields(Some(a))))
  }

  /** The client after its payload: the first option goes out, or it turns
      to wait for the result. */
  function AfterUpload(texts: seq<string>, fields: seq<OptionField>): Client.ClientState
    requires |texts| == |fields|
  {
    if texts == [] then Client.AwaitName
    else Client.AwaitAck(FieldAck(fields[0]), Exchanges(texts[1..], fields[1..]))
  }

  function FirstOption(texts: seq<string>): Queue {
    if texts == [] then [] else [texts[0]]
  }

  lemma LeaveUpload(s: Sys, w: World, texts: seq<string>, fields: seq<OptionField>) returns (k: nat)
    requires |texts| == |fields|
    requires forall i :: 0 <= i < |texts| ==> texts[i] != []
    requires s.client == Client.Upload(Exchanges(texts, fields))
    ensures Run(s, w, k) == s.(client := AfterUpload(texts, fields), up := s.up + FirstOption(texts))
  {
    var opts := Exchanges(texts, fields);
    if texts == [] {
      assert s.up + FirstOption(texts) == s.up;
      ClientMoves(s, w);
    } else {
      assert opts[0] == Client.Exchange(texts[0], FieldAck(fields[0]));
      assert opts[1..] == Exchanges(texts[1..], fields[1..]);
      Send(s, w);
    }
    k := Step(s, w, s.(client := AfterUpload(texts, fields), up := s.up + FirstOption(texts)));
  }

  /** After the payload has been written: the client moves on, then the
      server reads the payload. */
  lemma AfterStreams(w: World, a: Action, name: string, data: string, texts: seq<string>) returns (k: nat)
    requires |texts| == |Fields(Some(a))|
    requires forall i :: 0 <= i < |texts| ==> 0 < |texts[i]| <= 1024
    requires 0 < |data| < SizeFieldLimit
    ensures var fields := Fields(Some(a));
            var s := Sys(Client.Upload(Exchanges(texts, fields)), Server.RecvPayload(Name(a), name, |data|, []), Chunks(data), []);
            Run(s, w, k) == Sys(AfterUpload(texts, fields), Server.AfterPayload(w.host, Name(a), name, data), FirstOption(texts), [])
  {
    var fields := Fields(Some(a));
    var cs := Chunks(data);
    var s := Sys(Client.Upload(Exchanges(texts, fields)), Server.RecvPayload(Name(a), name, |data|, []), cs, []);
    var more := FirstOption(texts);
    var k1 := LeaveUpload(s, w, texts, fields);
    var s1 := Sys(AfterUpload(texts, fields), Server.RecvPayload(Name(a), name, |data|, []), cs + more, []);
    assert [] + data == data;
    var k2 := ServerTakesPayload(s1, w, Name(a), name, [], data, more);
    k := Chain2(s, s1, s1.(server := Server.AfterPayload(w.host, Name(a), name, data), up := more), Mover(w), k1, k2);
  }

  /** The whole upload of a request that rejects nothing: the server ends up
      running the action on exactly the client's action, name, payload and
      option texts, and the client waits for the result. */
  lemma UploadPhase(w: World, a: Action, name: string, data: string, texts: seq<string>) returns (k: nat)
    requires 0 < |name| <= 1024 && |data| < SizeFieldLimit
    requires |texts| == |Fields(Some(a))|
    requires forall i :: 0 <= i < |texts| ==> 0 < |texts[i]| <= 1024
    ensures Run(Start(Request(a, name, data, texts)), w, k) ==
            Sys(Client.AwaitName, Server.Processing(Server.MakeJob(w.host, Name(a), name, data, texts)), [], [])
  {
    var h := w.host;
    var an := Name(a);
    var paid := Sys(AfterUpload(texts, Fields(Some(a))), Server.AfterPayload(h, an, name, data), FirstOption(texts), []);
    var k1 := UploadThroughPayload(w, a, name, data, texts);
    var last := Sys(Client.AwaitName, Server.Processing(Server.MakeJob(h, an, name, data, texts)), [], []);
    ParseName(a);
    if texts == [] {
      assert paid == last;
      k := k1;
    } else {
      var k2 := OptionRounds(paid, w, an, name, data, texts, Fields(Some(a)), []);
      assert [] + texts == texts;
      k := Chain2(Start(Request(a, name, data, texts)), paid, last, Mover(w), k1, k2);
    }
  }

  /** The upload up to the end of the payload: the server has the whole
      payload and the client is about to send the first option. */
  lemma UploadThroughPayload(w: World, a: Action, name: string, data: string, texts: seq<string>) returns (k: nat)
    requires 0 < |name| <= 1024 && |data| < SizeFieldLimit
    requires |texts| == |Fields(Some(a))|
    requires forall i :: 0 <= i < |texts| ==> 0 < |texts[i]| <= 1024
    ensures Run(Start(Request(a, name, data, texts)), w, k) ==
            Sys(AfterUpload(texts, Fields(Some(a))), Server.AfterPayload(w.host, Name(a), name, data), FirstOption(texts), [])
  {
    var h := w.host;
    var an := Name(a);
    var fields := Fields(Some(a));
    var opts := Exchanges(texts, fields);
    var cs := Chunks(data);
    var k1 := Handshake(w, a, name, data, Client.Streams(cs) + opts);
    var start := Sys(Client.Upload(Client.Streams(cs) + opts), Server.PayloadStart(h, an, name, |data|), [], []);
    var ks := ClientStreams(start, w, cs, opts);
    assert [] + cs == cs;
    var streamed := Sys(Client.Upload(opts), Server.PayloadStart(h, an, name, |data|), cs, []);
    var k2 := Chain2(Start(Request(a, name, data, texts)), start, streamed, Mover(w), k1, ks);
    var paid := Sys(AfterUpload(texts, fields), Server.AfterPayload(h, an, name, data), FirstOption(texts), []);
    var k3: nat;
    if |data| > 0 {
      k3 := AfterStreams(w, a, name, data, texts);
    } else {
      assert cs == [] && data == [];
      k3 := LeaveUpload(streamed, w, texts, fields);
      assert [] + FirstOption(texts) == FirstOption(texts);
    }
    k := Chain2(Start(Request(a, name, data, texts)), streamed, paid, Mover(w), k2, k3);
  }

  // ----------------------------------------------------------------- result

  /** Both sentinel names read as an error signal on the client and fit one
      read. */
  lemma SentinelsSignal(sentinel: string)
    requires sentinel == Server.ProcessingSentinel || sentinel == Server.NotFoundSentinel
    ensures Client.ErrorSignal(sentinel, 0) && 0 < |sentinel| <= 1024
  {
    var low := Lower(sentinel);
    assert low[..6] == "error_" by {
      forall i | 0 <= i < 6 ensures low[i] == "error_"[i] {
        assert sentinel[i] == "error_"[i];
      }
    }
    assert IsFactorAt("error_", low, 0);
  }

  /** The name and size of a result, each acknowledged, after which the
      server has sent the data and closed. */
  lemma ResultHead(s: Sys, w: World, job: Server.Job) returns (k: nat)
    requires s == Sys(Client.AwaitName, Server.Processing(job), [], [])
    requires Server.ReplyTo(w.host, job).Output?
    requires 0 < |job.names.suggestion| <= 1024
    requires |Server.ReplyTo(w.host, job).out| < SizeFieldLimit
    ensures var out := Server.ReplyTo(w.host, job).out;
            Run(s, w, k) == Sys(Client.AfterSize(job.names.suggestion, |out|, w.save), Server.Closed(Server.Served), [], Chunks(out))
  {
    var out := Server.ReplyTo(w.host, job).out;
    var sug := job.names.suggestion;
    var s1 := Sys(Client.AwaitName, Server.AwaitNameAck(out), [], [sug]);
    var k1 := SendsName(s, w, job);
    var s2 := Sys(Client.AwaitSize(sug), Server.AwaitNameAck(out), [Token(AckOutFilename)], []);
    var k2 := ReadsName(s1, w, sug);
    var s3 := Sys(Client.AwaitSize(sug), Server.AwaitSizeAck(out), [], [EncodeSize(|out|)]);
    var k3 := SendsSize(s2, w, sug, out);
    var c := Client.AfterSize(sug, |out|, w.save);
    var s4 := Sys(c, Server.AwaitSizeAck(out), [Token(AckOutSize)], []);
    var k4 := ReadsSize(s3, w, sug, |out|);
    var s5 := Sys(c, Server.Closed(Server.Served), [], Chunks(out));
    var k5 := SendsData(s4, w, out);
    var j1 := Chain3(s, s1, s2, s3, Mover(w), k1, k2, k3);
    k := Chain3(s, s3, s4, s5, Mover(w), j1, k4, k5);
  }

  lemma SendsName(s: Sys, w: World, job: Server.Job) returns (k: nat)
    requires s == Sys(Client.AwaitName, Server.Processing(job), [], [])
    requires Server.ReplyTo(w.host, job).Output? && job.names.suggestion != []
    ensures Run(s, w, k) == Sys(Client.AwaitName, Server.AwaitNameAck(Server.ReplyTo(w.host, job).out), [], [job.names.suggestion])
  {
    ServerMoves(s, w);
    assert Wire([job.names.suggestion]) == [job.names.suggestion];
    k := Step(s, w, Sys(Client.AwaitName, Server.AwaitNameAck(Server.ReplyTo(w.host, job).out), [], [job.names.suggestion]));
  }

  /** The client reads the suggested name (or sentinel) and acknowledges it. */
  lemma ReadsName(s: Sys, w: World, name: string) returns (k: nat)
    requires s.client == Client.AwaitName && s.down == [name] && s.up == [] && 0 < |name| <= 1024
    ensures Run(s, w, k) == s.(client := Client.AwaitSize(name), up := [Token(AckOutFilename)], down := [])
  {
    ClientMoves(s, w);
    assert Take([name], 1024) == (name, []);
    k := Step(s, w, s.(client := Client.AwaitSize(name), up := [Token(AckOutFilename)], down := []));
  }

  lemma SendsSize(s: Sys, w: World, sug: string, out: string) returns (k: nat)
    requires s == Sys(Client.AwaitSize(sug), Server.AwaitNameAck(out), [Token(AckOutFilename)], [])
    ensures Run(s, w, k) == Sys(Client.AwaitSize(sug), Server.AwaitSizeAck(out), [], [EncodeSize(|out|)])
  {
    ServerMoves(s, w);
    assert Take([Token(AckOutFilename)], 1024) == (Token(AckOutFilename), []);
    assert Wire([EncodeSize(|out|)]) == [EncodeSize(|out|)];
    k := Step(s, w, Sys(Client.AwaitSize(sug), Server.AwaitSizeAck(out), [], [EncodeSize(|out|)]));
  }

  /** The client reads a size field sent whole and acknowledges it. */
  lemma ReadsSize(s: Sys, w: World, name: string, n: nat) returns (k: nat)
    requires s.client == Client.AwaitSize(name) && s.down == [EncodeSize(n)] && s.up == [] && n < SizeFieldLimit
    ensures Run(s, w, k) == s.(client := Client.AfterSize(name, n, w.save), up := [Token(AckOutSize)], down := [])
  {
    ClientMoves(s, w);
    SizeRead(name, n, w.save);
    k := Step(s, w, s.(client := Client.AfterSize(name, n, w.save), up := [Token(AckOutSize)], down := []));
  }

  lemma SizeRead(name: string, n: nat, save: Option<string>)
    requires n < SizeFieldLimit
    ensures Client.ClientStep(Client.AwaitSize(name), [EncodeSize(n)], save) ==
              Client.ClientMove(Client.AfterSize(name, n, save), [], Token(AckOutSize))
  {
    SizeFieldRoundTrip(n);
    ClientTakesField(name, EncodeSize(n), n, save);
  }

  lemma ClientTakesField(name: string, f: string, n: int, save: Option<string>)
    requires |f| == SizeFieldWidth && DecodeSize(f) == Some(n)
    ensures Client.ClientStep(Client.AwaitSize(name), [f], save) ==
              Client.ClientMove(Client.AfterSize(name, n, save), [], Token(AckOutSize))
  {
    FieldSizeReply(name, f, n, save);
    SizeReplyDispatch(name, [f], save);
  }

  lemma FieldSizeReply(name: string, f: string, n: int, save: Option<string>)
    requires |f| == SizeFieldWidth && DecodeSize(f) == Some(n)
    ensures Client.SizeReply(name, [f], save) == Client.ClientMove(Client.AfterSize(name, n, save), [], Token(AckOutSize))
  {
    TakeHead([f], SizeFieldWidth);
  }

  lemma SizeReplyDispatch(name: string, down: Queue, save: Option<string>)
    ensures Client.ClientStep(Client.AwaitSize(name), down, save) == Client.SizeReply(name, down, save)
  {
  }

  lemma SendsData(s: Sys, w: World, out: string) returns (k: nat)
    requires s.server == Server.AwaitSizeAck(out) && s.up == [Token(AckOutSize)] && s.down == []
    requires s.client.Finished? || Client.Receiving(s.client)
    ensures Run(s, w, k) == s.(server := Server.Closed(Server.Served), up := [], down := Chunks(out))
  {
    ServerMoves(s, w);
    assert Take([Token(AckOutSize)], 1024) == (Token(AckOutSize), []);
    k := Step(s, w, s.(server := Server.Closed(Server.Served), up := [], down := Chunks(out)));
  }

  /** A produced result: the client ends as the agreed outcome says, with
      the server done. */
  lemma ResultServed(s: Sys, w: World, job: Server.Job) returns (k: nat)
    requires s == Sys(Client.AwaitName, Server.Processing(job), [], [])
    requires Server.ReplyTo(w.host, job).Output?
    requires 0 < |job.names.suggestion| <= 1024
    requires |Server.ReplyTo(w.host, job).out| < SizeFieldLimit
    ensures Run(s, w, k).client == Client.Finished(Agreed(w, job).0)
    ensures Run(s, w, k).server == Server.Closed(Agreed(w, job).1)
  {
    var out := Server.ReplyTo(w.host, job).out;
    var sug := job.names.suggestion;
    var k1 := ResultHead(s, w, job);
    var c := Client.AfterSize(sug, |out|, w.save);
    var s5 := Sys(c, Server.Closed(Server.Served), [], Chunks(out));
    if out != [] {
      assert [] + out == out;
      var k2 := ClientTakesResult(s5, w, sug, [], out);
      k := Chain2(s, s5, s5.(client := Client.Conclude(out, w.save), down := []), Mover(w), k1, k2);
    } else if Client.ErrorSignal(sug, 0) {
      var s6 := s5.(client := Client.Finished(Client.ServerError(sug, [])));
      var k2 := ReadsBlock(s5, w, sug);
      k := Chain2(s, s5, s6, Mover(w), k1, k2);
    } else {
      k := k1;
    }
  }

  /** The client reads an error block once the server has closed: up to
      4096 bytes of whatever is left. */
  lemma ReadsBlock(s: Sys, w: World, name: string) returns (k: nat)
    requires s.client == Client.AwaitErrorBlock(name) && s.server.Closed?
    ensures Run(s, w, k) == s.(client := Client.Finished(Client.ServerError(name, Take(s.down, 4096).0)), down := Take(s.down, 4096).1)
  {
    ClientMoves(s, w);
    k := Step(s, w, s.(client := Client.Finished(Client.ServerError(name, Take(s.down, 4096).0)), down := Take(s.down, 4096).1));
  }

  /** An error envelope: the client reports the server's error with the
      start of its message. */
  lemma ResultReported(s: Sys, w: World, job: Server.Job) returns (k: nat)
    requires s == Sys(Client.AwaitName, Server.Processing(job), [], [])
    requires Server.ReplyTo(w.host, job).Report?
    ensures Run(s, w, k).client == Client.Finished(Agreed(w, job).0)
    ensures Run(s, w, k).server == Server.Closed(Agreed(w, job).1)
  {
    var r := Server.ReplyTo(w.host, job);
    var sen := r.sentinel;
    var msg := r.message;
    SentinelsSignal(sen);
    var s1 := Sys(Client.AwaitName, Server.ErrAwaitNameAck(sen, msg), [], [sen]);
    var k1 := SendsSentinel(s, w, job);
    var s2 := Sys(Client.AwaitSize(sen), Server.ErrAwaitNameAck(sen, msg), [Token(AckOutFilename)], []);
    var k2 := ReadsName(s1, w, sen);
    var s3 := Sys(Client.AwaitSize(sen), Server.ErrAwaitSizeAck(sen, msg), [], [EncodeSize(0)]);
    var k3 := SendsZero(s2, w, sen, msg);
    var s4 := Sys(Client.AwaitErrorBlock(sen), Server.ErrAwaitSizeAck(sen, msg), [Token(AckOutSize)], []);
    var k4 := ReadsSize(s3, w, sen, 0);
    var s5 := Sys(Client.AwaitErrorBlock(sen), Server.Closed(Server.Reported(sen)), [], [msg]);
    var k5 := SendsMessage(s4, w, sen, msg);
    var s6 := s5.(client := Client.Finished(Client.ServerError(sen, Take([msg], 4096).0)), down := Take([msg], 4096).1);
    var k6 := ReadsBlock(s5, w, sen);
    assert Take([msg], 4096).0 == ErrorBlock(msg);
    var j1 := Chain3(s, s1, s2, s3, Mover(w), k1, k2, k3);
    var j2 := Chain3(s3, s4, s5, s6, Mover(w), k4, k5, k6);
    k := Chain2(s, s3, s6, Mover(w), j1, j2);
  }

  lemma SendsSentinel(s: Sys, w: World, job: Server.Job) returns (k: nat)
    requires s == Sys(Client.AwaitName, Server.Processing(job), [], [])
    requires Server.ReplyTo(w.host, job).Report?
    ensures var r := Server.ReplyTo(w.host, job);
            Run(s, w, k) == Sys(Client.AwaitName, Server.ErrAwaitNameAck(r.sentinel, r.message), [], [r.sentinel])
  {
    var r := Server.ReplyTo(w.host, job);
    ServerMoves(s, w);
    assert Wire([r.sentinel]) == [r.sentinel];
    k := Step(s, w, Sys(Client.AwaitName, Server.ErrAwaitNameAck(r.sentinel, r.message), [], [r.sentinel]));
  }

  lemma SendsZero(s: Sys, w: World, sen: string, msg: string) returns (k: nat)
    requires s == Sys(Client.AwaitSize(sen), Server.ErrAwaitNameAck(sen, msg), [Token(AckOutFilename)], [])
    ensures Run(s, w, k) == Sys(Client.AwaitSize(sen), Server.ErrAwaitSizeAck(sen, msg), [], [EncodeSize(0)])
  {
    ServerMoves(s, w);
    assert Wire([EncodeSize(0)]) == [EncodeSize(0)];
    k := Step(s, w, Sys(Client.AwaitSize(sen), Server.ErrAwaitSizeAck(sen, msg), [], [EncodeSize(0)]));
  }

  lemma SendsMessage(s: Sys, w: World, sen: string, msg: string) returns (k: nat)
    requires s == Sys(Client.AwaitErrorBlock(sen), Server.ErrAwaitSizeAck(sen, msg), [Token(AckOutSize)], [])
    requires msg != []
    ensures Run(s, w, k) == Sys(Client.AwaitErrorBlock(sen), Server.Closed(Server.Reported(sen)), [], [msg])
  {
    ServerMoves(s, w);
    assert Wire([msg]) == [msg];
    k := Step(s, w, Sys(Client.AwaitErrorBlock(sen), Server.Closed(Server.Reported(sen)), [], [msg]));
  }

  // ---------------------------------------------------------------- session

  /** A plan whose preparation succeeded: the three acknowledged sends, the
      payload's chunks, then the option sends. */
  lemma PlanPrefix(a: Action, t: Client.Target, o: Client.Opts, d: Client.Desk, strict: bool)
    requires Client.Prepare(a, t, d).Ok?
    ensures var (name, data) := Client.Prepare(a, t, d).value;
            Client.PlanFrom(a, t, o, d, strict) ==
              [Client.Exchange(Name(a), AckAction), Client.Exchange(name, AckFilename), Client.Exchange(EncodeSize(|data|), AckSize)] +
              (Client.Streams(Chunks(data)) + Client.OptionOps(a, o, strict))
  {
    var (name, data) := Client.Prepare(a, t, d).value;
    PlanFromPrepared(a, t, o, d, strict);
    UploadLayout(Client.Exchange(Name(a), AckAction), name, data, Client.OptionOps(a, o, strict));
  }

  lemma PlanFromPrepared(a: Action, t: Client.Target, o: Client.Opts, d: Client.Desk, strict: bool)
    requires Client.Prepare(a, t, d).Ok?
    ensures Client.PlanFrom(a, t, o, d, strict) ==
              [Client.Exchange(Name(a), AckAction)] +
              Client.UploadOps(Client.Prepare(a, t, d).value.0, Client.Prepare(a, t, d).value.1, Client.OptionOps(a, o, strict))
  {
  }

  lemma UploadLayout(first: Client.ClientOp, name: string, data: string, opts: seq<Client.ClientOp>)
    requires forall i :: 0 <= i < |opts| - 1 ==> !opts[i].Reject?
    ensures [first] + Client.UploadOps(name, data, opts) ==
              [first, Client.Exchange(name, AckFilename), Client.Exchange(EncodeSize(|data|), AckSize)] +
              (Client.Streams(Chunks(data)) + opts)
  {
    var head := [Client.Exchange(name, AckFilename), Client.Exchange(EncodeSize(|data|), AckSize)];
    var ss := Client.Streams(Chunks(data));
    assert Client.UploadOps(name, data, opts) == head + ss + opts;
    Regroup(first, head[0], head[1], ss, opts);
  }

  lemma Regroup<T>(x1: T, x2: T, x3: T, ss: seq<T>, more: seq<T>)
    ensures [x1] + ([x2, x3] + ss + more) == [x1, x2, x3] + (ss + more)
  {
  }

  /** A plan that rejects nothing is the request above: the prepared name and
      payload, then the option texts in field order. */
  lemma PlanShape(a: Action, t: Client.Target, o: Client.Opts, d: Client.Desk, strict: bool)
    requires Client.Prepare(a, t, d).Ok?
    requires forall i :: 0 <= i < |Client.OptionOps(a, o, strict)| ==> Client.OptionOps(a, o, strict)[i].Exchange?
    ensures |Texts(Client.OptionOps(a, o, strict))| == |Fields(Some(a))|
    ensures Client.PlanFrom(a, t, o, d, strict) ==
              Request(a, Client.Prepare(a, t, d).value.0, Client.Prepare(a, t, d).value.1, Texts(Client.OptionOps(a, o, strict)))
  {
    OptionsAgree(a, o, strict);
    PlanPrefix(a, t, o, d, strict);
  }

  /** The job the server runs for a request: the action's name, the announced
      name, the payload and the option texts, as the client prepared them. */
  function Intended(h: Server.Host, a: Action, t: Client.Target, o: Client.Opts, d: Client.Desk): Server.Job
    requires Client.Prepare(a, t, d).Ok?
  {
    var (name, data) := Client.Prepare(a, t, d).value;
    Server.MakeJob(h, Name(a), name, data, Texts(Client.OptionOps(a, o, true)))
  }

  /** For every request the client prepares, the server as written and the
      sanitised naming agree: an action name is made of safe characters,
      and so is the stem of the merge upload name. The two namings differ
      only on requests no client of this protocol sends. */
  lemma HonestNamesAgree(h: Server.Host, a: Action, t: Client.Target, o: Client.Opts, d: Client.Desk)
    requires Client.Prepare(a, t, d).Ok?
    ensures Intended(h, a, t, o, d).names == NamesAsWritten(Name(a), Client.Prepare(a, t, d).value.0, h.pid)
  {
    var name := Client.Prepare(a, t, d).value.0;
    NameSafe(a);
    if a == Merge {
      Client.MergeUploadNameSplits(|Client.ExistingPaths(t.paths, d.files)|);
    } else {
      assert Name(a) != "merge" by { NameMerge(a); }
    }
    SanitisingKeepsHonestNames(Name(a), name, h.pid);
  }

  /** Action names use lower-case letters and `_` only. */
  lemma NameSafe(a: Action)
    ensures AllSafe(Name(a))
  {
    var n := Name(a);
    forall i | 0 <= i < |n| ensures SafeChar(n[i]) {
      assert 'a' <= n[i] <= 'z' || n[i] == '_';
    }
  }

  lemma NameMerge(a: Action)
    ensures Name(a) == "merge" <==> a == Merge
  {
  }

  /** Every action name is short. */
  lemma NameShort(a: Action)
    ensures |Name(a)| <= 16
  {
  }

  /** The protocol's end-to-end promise. A request the client does not reject
      locally, whose announced name, payload, option texts and result fit the
      protocol's frames, ends on both sides: the server has run the action on
      exactly what the client prepared, and the client's outcome is the one
      that result calls for — the output saved byte for byte, an empty
      result, or the server's error envelope. */
  lemma HonestSession(a: Action, t: Client.Target, o: Client.Opts, d: Client.Desk, h: Server.Host) returns (k: nat)
    requires Client.Prepare(a, t, d).Ok?
    requires 0 < |Client.Prepare(a, t, d).value.0| <= 1024 && |Client.Prepare(a, t, d).value.1| < SizeFieldLimit
    requires forall i :: 0 <= i < |Client.OptionOps(a, o, true)| ==>
               Client.OptionOps(a, o, true)[i].Exchange? && |Client.OptionOps(a, o, true)[i].msg| <= 1024
    requires Server.ReplyTo(h, Intended(h, a, t, o, d)).Output? ==> |Server.ReplyTo(h, Intended(h, a, t, o, d)).out| < SizeFieldLimit
    ensures Ended(Run(Start(Client.Plan(a, t, o, d)), World(h, d.save), k))
    ensures Run(Start(Client.Plan(a, t, o, d)), World(h, d.save), k).client ==
              Client.Finished(Agreed(World(h, d.save), Intended(h, a, t, o, d)).0)
    ensures Run(Start(Client.Plan(a, t, o, d)), World(h, d.save), k).server ==
              Server.Closed(Agreed(World(h, d.save), Intended(h, a, t, o, d)).1)
  {
    var w := World(h, d.save);
    var (name, data) := Client.Prepare(a, t, d).value;
    var opts := Client.OptionOps(a, o, true);
    var texts := Texts(opts);
    PlanShape(a, t, o, d, true);
    assert Client.Plan(a, t, o, d) == Request(a, name, data, texts);
    forall i | 0 <= i < |texts| ensures 0 < |texts[i]| <= 1024 {
      assert opts[i].Exchange?;
    }
    var k1 := UploadPhase(w, a, name, data, texts);
    var job := Intended(h, a, t, o, d);
    assert job == Server.MakeJob(h, Name(a), name, data, texts);
    var mid := Sys(Client.AwaitName, Server.Processing(job), [], []);
    var k2: nat;
    if Server.ReplyTo(h, job).Output? {
      SuggestionLength(Name(a), name, h.pid);
      NameShort(a);
      k2 := ResultServed(mid, w, job);
    } else {
      k2 := ResultReported(mid, w, job);
    }
    RunAdd(Start(Client.Plan(a, t, o, d)), w, k1, k2);
    k := k1 + k2;
  }

  /** The same session for the client as written, on every request that
      does not send an empty password: both ends finish as agreed. */
  lemma HonestSessionAsWritten(a: Action, t: Client.Target, o: Client.Opts, d: Client.Desk, h: Server.Host) returns (k: nat)
    requires !((a == Encrypt || a == Decrypt) && o.password == Some(""))
    requires Client.Prepare(a, t, d).Ok?
    requires 0 < |Client.Prepare(a, t, d).value.0| <= 1024 && |Client.Prepare(a, t, d).value.1| < SizeFieldLimit
    requires forall i :: 0 <= i < |Client.OptionOps(a, o, false)| ==>
               Client.OptionOps(a, o, false)[i].Exchange? && |Client.OptionOps(a, o, false)[i].msg| <= 1024
    requires Server.ReplyTo(h, Intended(h, a, t, o, d)).Output? ==> |Server.ReplyTo(h, Intended(h, a, t, o, d)).out| < SizeFieldLimit
    ensures Ended(Run(Start(Client.PlanAsWritten(a, t, o, d)), World(h, d.save), k))
    ensures Run(Start(Client.PlanAsWritten(a, t, o, d)), World(h, d.save), k).client ==
              Client.Finished(Agreed(World(h, d.save), Intended(h, a, t, o, d)).0)
    ensures Run(Start(Client.PlanAsWritten(a, t, o, d)), World(h, d.save), k).server ==
              Server.Closed(Agreed(World(h, d.save), Intended(h, a, t, o, d)).1)
  {
    Client.PlansAgree(a, t, o, d);
    k := HonestSession(a, t, o, d, h);
  }

  // ------------------------------------------------------- empty password

  /** With the client waiting (or gone), the server reads the whole payload
      and turns to the option fields. */
  lemma PayloadRead(w: World, c: Client.ClientState, an: string, name: string, data: string) returns (k: nat)
    requires c.Finished? || Client.Receiving(c)
    requires |data| < SizeFieldLimit
    ensures Run(Sys(c, Server.PayloadStart(w.host, an, name, |data|), Chunks(data), []), w, k) ==
            Sys(c, Server.AfterPayload(w.host, an, name, data), [], [])
  {
    var s := Sys(c, Server.PayloadStart(w.host, an, name, |data|), Chunks(data), []);
    if |data| > 0 {
      assert Chunks(data) + [] == Chunks(data);
      assert [] + data == data;
      k := ServerTakesPayload(s, w, an, name, [], data, []);
    } else {
      assert data == [];
      k := 0;
    }
  }

  /** The plan up to its last send: action, name, size and the payload's
      chunks have gone out, and the server is at its first option field. */
  lemma UpToOption(a: Action, t: Client.Target, o: Client.Opts, d: Client.Desk, strict: bool, h: Server.Host) returns (k: nat)
    requires a == Encrypt || a == Decrypt
    requires Client.Prepare(a, t, d).Ok?
    requires 0 < |Client.Prepare(a, t, d).value.0| <= 1024 && |Client.Prepare(a, t, d).value.1| < SizeFieldLimit
    ensures var (name, data) := Client.Prepare(a, t, d).value;
            Run(Start(Client.PlanFrom(a, t, o, d, strict)), World(h, d.save), k) ==
            Sys(Client.Upload(Client.OptionOps(a, o, strict)), Server.PayloadStart(h, Name(a), name, |data|), Chunks(data), [])
  {
    var w := World(h, d.save);
    var (name, data) := Client.Prepare(a, t, d).value;
    var opts := Client.OptionOps(a, o, strict);
    var cs := Chunks(data);
    PlanPrefix(a, t, o, d, strict);
    var k1 := Handshake(w, a, name, data, Client.Streams(cs) + opts);
    var s1 := Sys(Client.Upload(Client.Streams(cs) + opts), Server.PayloadStart(h, Name(a), name, |data|), [], []);
    var ks := ClientStreams(s1, w, cs, opts);
    assert [] + cs == cs;
    k := Chain2(Start(Client.PlanFrom(a, t, o, d, strict)), s1, s1.(client := Client.Upload(opts), up := cs), Mover(w), k1, ks);
  }

  /** The empty password goes out as a send of nothing; the client then
      waits for its acknowledgement. */
  lemma SendsNothing(w: World, server: Server.ServerState, up: Queue) returns (k: nat)
    ensures Run(Sys(Client.Upload([Client.Exchange("", AckPass)]), server, up, []), w, k) ==
            Sys(Client.AwaitAck(AckPass, []), server, up, [])
  {
    var ops := [Client.Exchange("", AckPass)];
    var s := Sys(Client.Upload(ops), server, up, []);
    assert ops[1..] == [];
    assert Client.ClientStep(s.client, [], w.save) == Client.ClientMove(Client.AwaitAck(AckPass, []), [], "");
    assert Enqueue(up, "") == up;
    ClientMoves(s, w);
    k := Step(s, w, Sys(Client.AwaitAck(AckPass, []), server, up, []));
  }

  /** A local rejection ends the client at once, with nothing sent. */
  lemma Rejects(w: World, why: Client.Invalid, server: Server.ServerState, up: Queue) returns (k: nat)
    ensures Run(Sys(Client.Upload([Client.Reject(why)]), server, up, []), w, k) ==
            Sys(Client.Finished(Client.InputError(why)), server, up, [])
  {
    var s := Sys(Client.Upload([Client.Reject(why)]), server, up, []);
    assert Enqueue(up, []) == up;
    ClientMoves(s, w);
    k := Step(s, w, Sys(Client.Finished(Client.InputError(why)), server, up, []));
  }

  /** Both ends blocked in a read: both time out. */
  lemma Deadlock(w: World, an: string, name: string, data: string) returns (k: nat)
    ensures Run(Sys(Client.AwaitAck(AckPass, []), Server.RecvOptions(an, name, data, [Password], []), [], []), w, k) ==
            Sys(Client.Finished(Client.TimedOut), Server.Closed(Server.Dropped), [], [])
  {
    var s := Sys(Client.AwaitAck(AckPass, []), Server.RecvOptions(an, name, data, [Password], []), [], []);
    k := Step(s, w, Sys(Client.Finished(Client.TimedOut), Server.Closed(Server.Dropped), [], []));
  }

  /** The client has given up: the server acknowledges the password field,
      reads an end of stream and drops the connection. */
  lemma ReadsEnd(w: World, c: Client.ClientState, an: string, name: string, data: string) returns (k: nat)
    requires c.Finished?
    ensures Run(Sys(c, Server.RecvOptions(an, name, data, [Password], []), [], []), w, k) ==
            Sys(c, Server.Closed(Server.Dropped), [], [Token(AckPass)])
  {
    var s := Sys(c, Server.RecvOptions(an, name, data, [Password], []), [], []);
    ServerMoves(s, w);
    assert Wire([Token(AckPass)]) == [Token(AckPass)];
    k := Step(s, w, Sys(c, Server.Closed(Server.Dropped), [], [Token(AckPass)]));
  }

  /** As written, an empty password for encryption or decryption passes the
      client's check and is sent with `sendall` of zero bytes: nothing
      reaches the server, both ends wait for the other, and the request ends
      in a timeout on both sides instead of a rejection. */
  lemma EmptyPasswordStallsAsWritten(a: Action, t: Client.Target, o: Client.Opts, d: Client.Desk, h: Server.Host) returns (k: nat)
    requires a == Encrypt || a == Decrypt
    requires o.password == Some("")
    requires Client.Prepare(a, t, d).Ok?
    requires 0 < |Client.Prepare(a, t, d).value.0| <= 1024 && |Client.Prepare(a, t, d).value.1| < SizeFieldLimit
    ensures Run(Start(Client.PlanAsWritten(a, t, o, d)), World(h, d.save), k) ==
            Sys(Client.Finished(Client.TimedOut), Server.Closed(Server.Dropped), [], [])
  {
    var w := World(h, d.save);
    var (name, data) := Client.Prepare(a, t, d).value;
    var an := Name(a);
    var opts := Client.OptionOps(a, o, false);
    assert opts == [Client.Exchange("", AckPass)];
    var start := Start(Client.PlanFrom(a, t, o, d, false));
    var k1 := UpToOption(a, t, o, d, false, h);
    var s1 := Sys(Client.Upload(opts), Server.PayloadStart(h, an, name, |data|), Chunks(data), []);
    var k2 := SendsNothing(w, Server.PayloadStart(h, an, name, |data|), Chunks(data));
    var c := Client.AwaitAck(AckPass, []);
    var s2 := Sys(c, Server.PayloadStart(h, an, name, |data|), Chunks(data), []);
    var k3 := PayloadRead(w, c, an, name, data);
    ParseName(a);
    var s3 := Sys(c, Server.RecvOptions(an, name, data, [Password], []), [], []);
    assert Server.AfterPayload(h, an, name, data) == s3.server;
    var k4 := Deadlock(w, an, name, data);
    var j := Chain2(start, s1, s2, Mover(w), k1, k2);
    k := Chain3(start, s2, s3, Sys(Client.Finished(Client.TimedOut), Server.Closed(Server.Dropped), [], []), Mover(w), j, k3, k4);
  }

  /** With the corrected check the client rejects the empty password before
      sending it; the server, having read the payload, acknowledges the
      password field into a closed connection and drops it. */
  lemma EmptyPasswordRejected(a: Action, t: Client.Target, o: Client.Opts, d: Client.Desk, h: Server.Host) returns (k: nat)
    requires a == Encrypt || a == Decrypt
    requires o.password == Some("")
    requires Client.Prepare(a, t, d).Ok?
    requires 0 < |Client.Prepare(a, t, d).value.0| <= 1024 && |Client.Prepare(a, t, d).value.1| < SizeFieldLimit
    ensures Run(Start(Client.Plan(a, t, o, d)), World(h, d.save), k) ==
            Sys(Client.Finished(Client.InputError(Client.NoPassword)), Server.Closed(Server.Dropped), [], [Token(AckPass)])
  {
    var w := World(h, d.save);
    var (name, data) := Client.Prepare(a, t, d).value;
    var an := Name(a);
    var opts := Client.OptionOps(a, o, true);
    assert opts == [Client.Reject(Client.NoPassword)];
    var start := Start(Client.PlanFrom(a, t, o, d, true));
    var k1 := UpToOption(a, t, o, d, true, h);
    var s1 := Sys(Client.Upload(opts), Server.PayloadStart(h, an, name, |data|), Chunks(data), []);
    var c := Client.Finished(Client.InputError(Client.NoPassword));
    var s2 := Sys(c, Server.PayloadStart(h, an, name, |data|), Chunks(data), []);
    var k2 := Rejects(w, Client.NoPassword, Server.PayloadStart(h, an, name, |data|), Chunks(data));
    var k3 := PayloadRead(w, c, an, name, data);
    ParseName(a);
    var s3 := Sys(c, Server.RecvOptions(an, name, data, [Password], []), [], []);
    assert Server.AfterPayload(h, an, name, data) == s3.server;
    var k4 := ReadsEnd(w, c, an, name, data);
    var j := Chain2(start, s1, s2, Mover(w), k1, k2);
    k := Chain3(start, s2, s3, Sys(c, Server.Closed(Server.Dropped), [], [Token(AckPass)]), Mover(w), j, k3, k4);
  }
}


=== FILE: strings.dfy ===
/** The handful of Python `str` operations the protocol applies to the text it
    receives: `strip`, `lower`, `in`, `endswith`, `split`, `int()` and `str()` of
    an integer. Text is a `string`; every character stands for one octet on the
    wire, and character classes are the ASCII ones. */
module Strings {
  import opened Results

  predicate IsDigit(c: char) { '0' <= c <= '9' }

  /** `str.isalnum` on the ASCII range. */
  predicate IsAlnum(c: char) { IsDigit(c) || 'a' <= c <= 'z' || 'A' <= c <= 'Z' }

  /** `str.isspace` on the ASCII range: space, \t \n \v \f \r and the four
      separator controls 0x1c..0x1f. */
  predicate IsSpace(c: char) {
    var k := c as int;
    k == 32 || 9 <= k <= 13 || 28 <= k <= 31
  }

  predicate NoSpace(s: string) { forall i :: 0 <= i < |s| ==> !IsSpace(s[i]) }

  /** Text made of whitespace only (the empty text included). */
  predicate Blank(s: string) { forall i :: 0 <= i < |s| ==> IsSpace(s[i]) }

  /** The first position at or after `i` that is not whitespace (or the end). */
  function SpanStart(s: string, i: nat): (k: nat)
    requires i <= |s|
    ensures i <= k <= |s|
    ensures k == |s| || !IsSpace(s[k])
    ensures forall j :: i <= j < k ==> IsSpace(s[j])
    decreases |s| - i
  {
    if i < |s| && IsSpace(s[i]) then SpanStart(s, i + 1) else i
  }

  /** The end of `s[..j]` once its trailing whitespace is cut off. */
  function SpanEnd(s: string, j: nat): (k: nat)
    requires j <= |s|
    ensures k <= j
    ensures k == 0 || !IsSpace(s[k - 1])
    ensures forall m :: k <= m < j ==> IsSpace(s[m])
    decreases j
  {
    if j > 0 && IsSpace(s[j - 1]) then SpanEnd(s, j - 1) else j
  }

  /** Python's `str.strip()`: the result is the piece of the input that
      starts at its first non-space and ends at its last one; it neither
      starts nor ends with whitespace, and text that has no whitespace is
      left alone. */
  function Strip(s: string): (r: string)
    ensures |r| <= |s|
    ensures r == [] || (!IsSpace(r[0]) && !IsSpace(r[|r| - 1]))
    ensures IsFactorAt(r, s, SpanStart(s, 0))
    ensures NoSpace(s) ==> r == s
  {
    var b := SpanStart(s, 0);
    if b == |s| then [] else s[b..SpanEnd(s, |s|)]
  }

  /** `strip` removes whitespace only: everything before and after the
      stripped text is whitespace. */
  lemma StripRemovesOnlySpace(s: string)
    ensures var k := SpanStart(s, 0);
            k + |Strip(s)| <= |s| && Blank(s[..k]) && Blank(s[k + |Strip(s)|..])
  {
    var k := SpanStart(s, 0);
    var e := k + |Strip(s)|;
    forall i | 0 <= i < k ensures IsSpace(s[..k][i]) {
      assert s[..k][i] == s[i];
    }
    forall i | 0 <= i < |s| - e ensures IsSpace(s[e..][i]) {
      assert s[e..][i] == s[e + i];
    }
  }

  /** `strip` cuts exactly at `b` and `e` when `s[b..e]` starts and ends with
      a non-space and only whitespace surrounds it. */
  lemma StripAt(s: string, b: nat, e: nat)
    requires b < e <= |s| && !IsSpace(s[b]) && !IsSpace(s[e - 1])
    requires forall i :: 0 <= i < b ==> IsSpace(s[i])
    requires forall i :: e <= i < |s| ==> IsSpace(s[i])
    ensures Strip(s) == s[b..e]
  {
    var k := SpanStart(s, 0);
    if k < b {
      assert false;
    } else if k > b {
      assert false;
    }
    var m := SpanEnd(s, |s|);
    if m < e {
      assert false;
    } else if m > e {
      assert false;
    }
  }

  function LowerChar(c: char): char {
    if 'A' <= c <= 'Z' then (c as int + 32) as char else c
  }

  /** `str.lower()` on the ASCII range. */
  function Lower(s: string): (r: string)
    ensures |r| == |s|
    ensures forall i :: 0 <= i < |s| ==> r[i] == LowerChar(s[i])
  {
    seq(|s|, i requires 0 <= i < |s| => LowerChar(s[i]))
  }

  /** `sub in s` for strings. */
  predicate IsFactor(sub: string, s: string) {
    exists i | 0 <= i <= |s| - |sub| :: IsFactorAt(sub, s, i)
  }

  predicate IsFactorAt(sub: string, s: string, i: int) {
    0 <= i <= |s| - |sub| && s[i..i + |sub|] == sub
  }

  /** `s.endswith(suffix)`. */
  predicate EndsWith(s: string, suffix: string) {
    |suffix| <= |s| && s[|s| - |suffix|..] == suffix
  }

  /** Position of the first occurrence of `c` (`str.index`). */
  function IndexOf(s: string, c: char): (i: nat)
    requires c in s
    ensures i < |s| && s[i] == c && c !in s[..i]
  {
    if s[0] == c then 0 else 1 + IndexOf(s[1..], c)
  }

  /** Inverse of `Split`: the parts glued back together with the separator. */
  function Join(parts: seq<string>, sep: char): string {
    if |parts| == 0 then []
    else if |parts| == 1 then parts[0]
    else parts[0] + [sep] + Join(parts[1..], sep)
  }

  /** Python's `s.split(sep)` for a one-character separator: never empty, no
      part holds the separator, and joining the parts gives `s` back. */
  function Split(s: string, sep: char): (parts: seq<string>)
    ensures |parts| >= 1
    ensures forall i :: 0 <= i < |parts| ==> sep !in parts[i]
    ensures Join(parts, sep) == s
    decreases |s|
  {
    if sep !in s then [s]
    else
      var i := IndexOf(s, sep);
      var rest := Split(s[i + 1..], sep);
      var parts := [s[..i]] + rest;
      assert parts[1..] == rest;
      assert s == s[..i] + [sep] + s[i + 1..];
      parts
  }

  /** A separator-free first part is split off whole. */
  lemma SplitCons(a: string, sep: char, b: string)
    requires sep !in a
    ensures Split(a + [sep] + b, sep) == [a] + Split(b, sep)
  {
    var s := a + [sep] + b;
    var i := IndexOf(s, sep);
    IndexOfAfter(a, sep, b);
    assert s[..|a|] == a && s[|a| + 1..] == b;
  }

  lemma IndexOfAfter(a: string, sep: char, b: string)
    requires sep !in a
    ensures sep in a + [sep] + b && IndexOf(a + [sep] + b, sep) == |a|
  {
    var s := a + [sep] + b;
    assert s[|a|] == sep;
  }

  /** A separator-free first part is what `split(sep, 1)` cuts off. */
  lemma SplitOnceCons(a: string, sep: char, b: string)
    requires sep !in a
    ensures sep in a + [sep] + b && SplitOnce(a + [sep] + b, sep) == (a, b)
  {
    IndexOfAfter(a, sep, b);
    var s := a + [sep] + b;
    assert s[..|a|] == a && s[|a| + 1..] == b;
  }

  /** Python's `s.split(sep, 1)` when `sep` occurs: the text before the first
      separator and everything after it. */
  function SplitOnce(s: string, sep: char): (r: (string, string))
    requires sep in s
    ensures sep !in r.0
    ensures r.0 + [sep] + r.1 == s
  {
    var i := IndexOf(s, sep);
    assert s == s[..i] + [sep] + s[i + 1..];
    (s[..i], s[i + 1..])
  }

  // ---------------------------------------------------------------- numbers

  function Min(a: int, b: int): int {
    if a <= b then a else b
  }

  function Max(a: int, b: int): int {
    if a <= b then b else a
  }

  predicate IsNumeral(s: string) {
    |s| > 0 && forall i :: 0 <= i < |s| ==> IsDigit(s[i])
  }

  function DigitValue(c: char): nat
    requires IsDigit(c)
  {
    c as int - '0' as int
  }

  function DigitChar(d: nat): char
    requires d < 10
  {
    ('0' as int + d) as char
  }

  /** The value of a string of decimal digits, most significant first. */
  function NumeralValue(s: string): nat
    requires forall i :: 0 <= i < |s| ==> IsDigit(s[i])
    decreases |s|
  {
    if |s| == 0 then 0 else 10 * NumeralValue(s[..|s| - 1]) + DigitValue(s[|s| - 1])
  }

  function Pow10(k: nat): nat {
    if k == 0 then 1 else 10 * Pow10(k - 1)
  }

  /** `str(n)` for a natural number: canonical decimal digits (no leading zero)
      whose value is `n`. */
  function NatToString(n: nat): (s: string)
    ensures IsNumeral(s)
    ensures NumeralValue(s) == n
    ensures s[0] != '0' || s == "0"
    decreases n
  {
    if n < 10 then [DigitChar(n)]
    else
      var t := NatToString(n / 10);
      var s := t + [DigitChar(n % 10)];
      assert s[..|s| - 1] == t;
      s
  }

  /** `str(i)` for an integer. */
  function IntToString(i: int): (s: string)
    ensures |s| > 0
  {
    if i < 0 then "-" + NatToString(-i) else NatToString(i)
  }

  /** Python's `int()` applied to a string, restricted to ASCII decimal text:
      surrounding whitespace is ignored, one optional sign is accepted, and
      anything else is the `ValueError` case (`None`). */
  function ParseInt(s: string): Option<int> {
    var t := Strip(s);
    if |t| > 0 && (t[0] == '-' || t[0] == '+') then
      var digits := t[1..];
      if IsNumeral(digits) then
        var v: int := if t[0] == '-' then 0 - NumeralValue(digits) as int else NumeralValue(digits);
        Some(v)
      else None
    else if IsNumeral(t) then Some(NumeralValue(t))
    else None
  }

  /** An optionally signed decimal numeral, the text `int()` accepts here. */
  predicate IsIntText(t: string) {
    IsNumeral(t) || (|t| > 0 && t[0] in "+-" && IsNumeral(t[1..]))
  }

  /** Anything `ParseInt` accepts is an optionally signed numeral once trimmed. */
  lemma ParseIntAcceptsOnlyNumerals(s: string)
    ensures ParseInt(s).Some? <==> IsIntText(Strip(s))
  {
  }

  /** Two numerals without leading zeros denote the same number only if they
      are the same text; hence `NatToString` is injective. */
  lemma {:induction false} NatToStringInjective(m: nat, n: nat)
    requires NatToString(m) == NatToString(n)
    ensures m == n
  {
    var s := NatToString(m);
    assert NumeralValue(s) == m && NumeralValue(s) == n;
  }

  /** `int(str(n))` gives `n` back, and so does `int(str(i))` for negative `i`. */
  lemma IntToStringRoundTrip(i: int)
    ensures ParseInt(IntToString(i)) == Some(i)
  {
    var s := IntToString(i);
    NoSpaceNumeral(NatToString(if i < 0 then -i else i));
    assert NoSpace(s);
    assert Strip(s) == s;
    if i < 0 {
      assert s[1..] == NatToString(-i);
    }
  }

  lemma NoSpaceNumeral(s: string)
    requires IsNumeral(s)
    ensures NoSpace(s)
  {
  }

  /** The decimal text of `n` fits in `k` characters exactly when `n < 10^k`. */
  lemma {:induction false} NatToStringLength(n: nat, k: nat)
    requires k >= 1
    ensures |NatToString(n)| <= k <==> n < Pow10(k)
    decreases n
  {
    if n < 10 {
      Pow10AtLeast10(k);
    } else {
      if k == 1 {
        assert |NatToString(n)| == |NatToString(n / 10)| + 1;
        assert Pow10(1) == 10;
      } else {
        NatToStringLength(n / 10, k - 1);
        assert |NatToString(n)| == |NatToString(n / 10)| + 1;
        assert n / 10 < Pow10(k - 1) <==> n < Pow10(k);
      }
    }
  }

  lemma {:induction false} Pow10Add(j: nat, k: nat)
    ensures Pow10(j + k) == Pow10(j) * Pow10(k)
    decreases j
  {
    if j > 0 {
      Pow10Add(j - 1, k);
    }
  }

  lemma {:induction false} Pow10AtLeast10(k: nat)
    requires k >= 1
    ensures Pow10(k) >= 10
  {
    if k > 1 {
      Pow10AtLeast10(k - 1);
    }
  }
}

=== FILE: transfer.dfy ===
/** The transfer engine: one direction of the connection as a queue of sent
    messages, the `recv(n)` that reads from it, the sender's 64 KiB chunking and
    the receiver's exact-size loop. */
module Transfer {
  import opened Results
  import opened Strings

  const ChunkSize: nat := 65536

  /** One direction of the connection: the messages written and not yet read,
      oldest first. A zero-length write puts nothing on the wire, so a
      well-formed queue holds non-empty messages only. */
  type Queue = seq<string>

  predicate WellFormed(q: Queue) {
    forall i :: 0 <= i < |q| ==> |q[i]| > 0
  }

  /** The bytes still in flight, in order. */
  function Flatten(q: Queue): string {
    if q == [] then [] else q[0] + Flatten(q[1..])
  }

  lemma {:induction false} FlattenAppend(p: Queue, q: Queue)
    ensures Flatten(p + q) == Flatten(p) + Flatten(q)
    decreases |p|
  {
    if p == [] {
      assert p + q == q;
    } else {
      assert (p + q)[1..] == p[1..] + q;
      FlattenAppend(p[1..], q);
    }
  }

  /** `sendall(m)`: the message joins the queue; a zero-length send
      transmits nothing. */
  function Enqueue(q: Queue, m: string): (r: Queue)
    ensures Flatten(r) == Flatten(q) + m
    ensures WellFormed(q) ==> WellFormed(r)
    ensures |r| <= |q| + 1
  {
    FlattenAppend(q, [m]);
    assert Flatten([m]) == m + Flatten([]);
    if m == [] then q else q + [m]
  }

  /** `recv(n)` on data that has arrived: at most `n` bytes from the oldest
      message, whose remainder stays at the head. Nothing left and the peer
      gone is the end of the stream, an empty read. */
  function Take(q: Queue, n: nat): (r: (string, Queue))
    requires n > 0
    ensures |r.0| == if q == [] then 0 else Min(n, |q[0]|)
    ensures q != [] ==> r.0 == q[0][..|r.0|]
    ensures WellFormed(q) ==> WellFormed(r.1)
    ensures |r.1| <= |q|
    ensures WellFormed(q) ==> (r.0 == [] <==> q == [])
  {
    if q == [] then ([], [])
    else if |q[0]| <= n then (q[0], q[1..])
    else (q[0][..n], [q[0][n..]] + q[1..])
  }

  /** `recv(n)` loses nothing and reorders nothing: the bytes read followed
      by the bytes left are exactly the bytes that were in flight. */
  lemma TakeSplits(q: Queue, n: nat)
    requires n > 0
    ensures Take(q, n).0 + Flatten(Take(q, n).1) == Flatten(q)
  {
    if q != [] && |q[0]| > n {
      var rest := [q[0][n..]] + q[1..];
      assert rest[1..] == q[1..];
      assert q[0] == q[0][..n] + q[0][n..];
    }
  }

  /** A read at least as large as the next message takes all of it. */
  lemma TakeHead(q: Queue, n: nat)
    requires n > 0 && q != [] && |q[0]| <= n
    ensures Take(q, n) == (q[0], q[1..])
  {
  }

  /** The sender's loop `while chunk := f.read(65536): sendall(chunk)`: the
      chunks are non-empty, at most 64 KiB, and together are exactly `d`. */
  function Chunks(d: string): (cs: Queue)
    ensures WellFormed(cs)
    ensures Flatten(cs) == d
    ensures forall i :: 0 <= i < |cs| ==> |cs[i]| <= ChunkSize
    ensures d == [] <==> cs == []
    decreases |d|
  {
    if |d| == 0 then []
    else if |d| <= ChunkSize then
      assert Flatten([d]) == d + Flatten([]);
      [d]
    else
      var rest := Chunks(d[ChunkSize..]);
      var cs := [d[..ChunkSize]] + rest;
      assert cs[1..] == rest;
      assert d == d[..ChunkSize] + d[ChunkSize..];
      cs
  }

  /** A receiver that asks for `min(65536, remaining)` bytes reads the
      sender's chunks one whole chunk at a time. */
  lemma ChunkAligned(d: string, more: Queue)
    requires |d| > 0 && WellFormed(more)
    ensures Chunks(d) != []
    ensures Chunks(d)[0] == d[..Min(ChunkSize, |d|)]
    ensures Chunks(d)[1..] == Chunks(d[Min(ChunkSize, |d|)..])
    ensures Take(Chunks(d) + more, Min(ChunkSize, |d|)) == (Chunks(d)[0], Chunks(d)[1..] + more)
  {
    ChunksHead(d);
    TakeAppendHead(Chunks(d), more, Min(ChunkSize, |d|));
  }

  lemma TakeAppendHead(p: Queue, more: Queue, n: nat)
    requires n > 0 && p != [] && |p[0]| <= n
    ensures Take(p + more, n) == (p[0], p[1..] + more)
  {
    var q := p + more;
    assert q[0] == p[0];
    assert q[1..] == p[1..] + more;
    TakeHead(q, n);
  }

  lemma ChunksHead(d: string)
    requires |d| > 0
    ensures Chunks(d) != []
    ensures Chunks(d)[0] == d[..Min(ChunkSize, |d|)]
    ensures Chunks(d)[1..] == Chunks(d[Min(ChunkSize, |d|)..])
  {
    if |d| <= ChunkSize {
      assert d[..|d|] == d;
      assert d[|d|..] == [];
    }
  }

  /** One read of the receive loop keeps the bytes read followed by the
      bytes in flight equal to everything sent; an empty read means all of
      it has been read. */
  lemma ReadStep(q: Queue, data: string, rest: Queue, ask: nat)
    requires ask > 0 && WellFormed(rest) && data + Flatten(rest) == Flatten(q)
    ensures (data + Take(rest, ask).0) + Flatten(Take(rest, ask).1) == Flatten(q)
    ensures Take(rest, ask).0 == [] ==> data == Flatten(q)
  {
    TakeSplits(rest, ask);
    assert (data + Take(rest, ask).0) + Flatten(Take(rest, ask).1)
        == data + (Take(rest, ask).0 + Flatten(Take(rest, ask).1));
  }

  /** The bookkeeping of the receive loop: `before[i]` bytes had arrived
      when the `i`-th read was issued, the first read starts from nothing,
      every read asks for `min(65536, size - before[i])` with bytes still
      missing, and each read adds at least one byte. */
  predicate AskedInOrder(asks: seq<nat>, before: seq<nat>, size: int) {
    && |before| == |asks|
    && (|before| > 0 ==> before[0] == 0)
    && (forall i :: 0 <= i < |before| ==> before[i] < size && asks[i] == Min(ChunkSize, size - before[i]))
    && (forall i :: 0 < i < |before| ==> before[i - 1] < before[i])
  }

  /** One more read, issued with `received` bytes in hand. */
  lemma AskedExtend(asks: seq<nat>, before: seq<nat>, size: int, received: nat)
    requires AskedInOrder(asks, before, size) && received < size
    requires |before| > 0 ==> before[|before| - 1] < received
    requires |before| == 0 ==> received == 0
    ensures AskedInOrder(asks + [Min(ChunkSize, size - received)], before + [received], size)
  {
  }

  /** The receive loop of both ends: while fewer than `size` bytes have
      arrived, ask for `min(65536, size - received)`; a zero-byte read means
      the peer closed and aborts with the count so far. On normal exit exactly
      `size` bytes were read (none when the parsed size is negative, in which
      case the loop never runs), and they are the bytes that were sent. */
  method ReceiveExactly(q: Queue, size: int)
    returns (r: Result<(string, Queue), nat>, asks: seq<nat>, before: seq<nat>)
    requires WellFormed(q)
    ensures |Flatten(q)| >= size ==> r.Ok?
    ensures r.Ok? ==> |r.value.0| == Max(size, 0)
    ensures r.Ok? ==> r.value.0 + Flatten(r.value.1) == Flatten(q)
    ensures r.Ok? ==> WellFormed(r.value.1)
    ensures |Flatten(q)| < size ==> r == Err(|Flatten(q)|)
    ensures forall i :: 0 <= i < |asks| ==> 0 < asks[i] <= ChunkSize
    ensures AskedInOrder(asks, before, size)
  {
    var data: string := [];
    var rest := q;
    asks, before := [], [];
    while |data| < size
      invariant WellFormed(rest)
      invariant data + Flatten(rest) == Flatten(q)
      invariant |data| <= Max(size, 0)
      invariant forall i :: 0 <= i < |asks| ==> 0 < asks[i] <= ChunkSize
      invariant AskedInOrder(asks, before, size)
      invariant |before| > 0 ==> before[|before| - 1] < |data|
      invariant |before| == 0 ==> data == []
      decreases size - |data|
    {
      var ask: nat := Min(ChunkSize, size - |data|);
      AskedExtend(asks, before, size, |data|);
      asks, before := asks + [ask], before + [|data|];
      var got := Take(rest, ask);
      ReadStep(q, data, rest, ask);
      if got.0 == [] {
        return Err(|data|), asks, before;
      }
      data := data + got.0;
      rest := got.1;
    }
    r := Ok((data, rest));
  }
}

=== FILE: workspace.dfy ===
/** How the server names a session's files in the system temporary directory
    (server.py:558-596): the client's file name is split into root and
    extension, the root is sanitised and capped, and every name carries the
    server's process id. Names here are the last path component; the
    directory is the system temporary directory. Separators are those of
    Windows paths, `/` and `\`, since the server relies on Windows automation. */
module Workspace {
  import opened Results
  import opened Strings

  const NameLimit: nat := 50

  predicate IsSep(c: char) { c == '/' || c == '\\' }

  /** A name that cannot leave the directory it is joined to. */
  predicate SeparatorFree(s: string) {
    forall i :: 0 <= i < |s| ==> !IsSep(s[i])
  }

  predicate SafeChar(c: char) { IsAlnum(c) || c == '_' || c == '-' }

  predicate AllSafe(s: string) {
    forall i :: 0 <= i < |s| ==> SafeChar(s[i])
  }

  /** Index of the last separator, or -1 when there is none. */
  function LastSep(p: string): (i: int)
    ensures -1 <= i < |p|
    ensures i >= 0 ==> IsSep(p[i])
    ensures forall k :: i < k < |p| ==> !IsSep(p[k])
    decreases |p|
  {
    if |p| == 0 then -1
    else if IsSep(p[|p| - 1]) then |p| - 1
    else LastSep(p[..|p| - 1])
  }

  /** Index of the last dot, or -1 when there is none. */
  function LastDot(p: string): (i: int)
    ensures -1 <= i < |p|
    ensures i >= 0 ==> p[i] == '.'
    ensures forall k :: i < k < |p| ==> p[k] != '.'
    decreases |p|
  {
    if |p| == 0 then -1
    else if p[|p| - 1] == '.' then |p| - 1
    else LastDot(p[..|p| - 1])
  }

  /** `os.path.splitext`: the extension runs from the last dot of the final
      path component to the end, unless everything before that dot in the
      component is dots (a leading-dot name has no extension). The two parts
      rebuild the input; an extension is one dot followed by neither dots nor
      separators; and there is one exactly when the final component has a dot
      somewhere after a character that is not a dot. */
  function SplitExt(p: string): (r: (string, string))
    ensures r.0 + r.1 == p
    ensures r.1 == [] || (r.1[0] == '.' && forall i :: 1 <= i < |r.1| ==> r.1[i] != '.' && !IsSep(r.1[i]))
    ensures r.1 != [] <==> exists i, j :: LastSep(p) < i < j < |p| && p[i] != '.' && p[j] == '.'
  {
    var s := LastSep(p);
    var d := LastDot(p);
    ExtensionDot(p);
    if d > s && exists k :: s < k < d && p[k] != '.' then
      assert p[..d] + p[d..] == p;
      (p[..d], p[d..])
    else (p, [])
  }

  /** A non-dot followed by a dot in the final component is the same as a
      non-dot there before the component's last dot. */
  lemma ExtensionDot(p: string)
    ensures (exists i, j :: LastSep(p) < i < j < |p| && p[i] != '.' && p[j] == '.') <==>
            (LastDot(p) > LastSep(p) && exists k :: LastSep(p) < k < LastDot(p) && p[k] != '.')
  {
    var s := LastSep(p);
    var d := LastDot(p);
    if exists i, j :: s < i < j < |p| && p[i] != '.' && p[j] == '.' {
      var i, j :| s < i < j < |p| && p[i] != '.' && p[j] == '.';
      assert j <= d;
    }
    if d > s && exists k :: s < k < d && p[k] != '.' {
      var k :| s < k < d && p[k] != '.';
      assert s < k < d < |p| && p[k] != '.' && p[d] == '.';
    }
  }

  /** `os.path.basename`: the text after the last separator (a drive
      prefix such as `C:` is not split off). It contains no
      separator, ends the path, and is the whole path or starts just after a
      separator. */
  function BaseName(p: string): (r: string)
    ensures SeparatorFree(r)
    ensures EndsWith(p, r)
    ensures SeparatorFree(p) ==> r == p
  {
    p[LastSep(p) + 1..]
  }

  /** A base name that is not the whole path starts right after a
      separator, so it is everything after the last one. */
  lemma BaseNameFollowsSeparator(p: string)
    ensures BaseName(p) != p ==> |BaseName(p)| < |p| && IsSep(p[|p| - |BaseName(p)| - 1])
  {
  }

  /** Each character kept when alphanumeric, `_` or `-`, otherwise `_`. */
  function Sanitize(s: string): (r: string)
    ensures |r| == |s|
    ensures AllSafe(r)
    ensures forall i :: 0 <= i < |s| && SafeChar(s[i]) ==> r[i] == s[i]
  {
    seq(|s|, i requires 0 <= i < |s| => if SafeChar(s[i]) then s[i] else '_')
  }

  /** `safe_base`: the sanitised root cut to 50 characters. */
  function SafeBase(root: string): (r: string)
    ensures |r| == Min(|root|, NameLimit)
    ensures AllSafe(r)
    ensures forall i :: 0 <= i < |r| ==> r[i] == (if SafeChar(root[i]) then root[i] else '_')
  {
    Sanitize(root)[..Min(|root|, NameLimit)]
  }

  /** Sanitising a safe base changes nothing. */
  lemma SafeBaseIdempotent(root: string)
    ensures SafeBase(SafeBase(root)) == SafeBase(root)
  {
  }

  lemma AllSafeSeparatorFree(s: string)
    requires AllSafe(s)
    ensures SeparatorFree(s)
    ensures '.' !in s
  {
  }

  function PidSuffix(pid: nat): string {
    "_" + NatToString(pid)
  }

  /** The session's file names: the received input, the produced output, the
      action's scratch directory if it has one, and the name suggested to the
      client. */
  datatype Names = Names(input: string, output: string, scratch: Option<string>, suggestion: string)

  /** The per-action table, given the already computed pieces: `safe` is the
      safe base, `ext` the client's extension, `mergeStem` the merge output
      stem and `suffix` the text standing for an unrecognised action. */
  function Layout(action: string, safe: string, ext: string, mergeStem: string, suffix: string, pid: nat): Names {
    var p := PidSuffix(pid);
    var input := if action == "merge" then safe + p + ".zip" else safe + p + ext;
    if action == "pdf_to_jpg" then
      Names(input, safe + "_images" + p + ".zip", Some(safe + "_jpg_output" + p), safe + "_images.zip")
    else if action == "pdf_to_word" then
      Names(input, safe + p + ".docx", None, safe + ".docx")
    else if action == "pdf_to_pptx" then
      Names(input, safe + p + ".pptx", Some(safe + "_pptx_temp_imgs" + p), safe + ".pptx")
    else if action == "split" then
      Names(input, safe + "_split_files" + p + ".zip", Some(safe + "_split_output" + p), safe + "_split_files.zip")
    else if action == "merge" then
      Names(input, mergeStem + p + ".pdf", None, mergeStem + ".pdf")
    else
      var stem := safe + "_" + (if action == "convert" then "processed" else suffix);
      Names(input, stem + p + ".pdf", None, stem + ".pdf")
  }

  /** The naming as the server writes it: the merge output stem is cut from
      the raw root, and an unrecognised action's text goes into the output
      name unchanged. */
  function NamesAsWritten(action: string, filename: string, pid: nat): (w: Names)
    ensures SeparatorFree(w.input)
    ensures w.scratch.Some? ==> SeparatorFree(w.scratch.value)
    ensures action == "merge" ==> EndsWith(w.input, ".zip") && |w.output| >= 7 && w.output[..7] == "merged_"
    ensures action != "merge" && AllSafe(action) ==> SeparatorFree(w.output) && SeparatorFree(w.suggestion)
    ensures action != "merge" ==> SafeBase(SplitExt(filename).0) <= w.output
  {
    var (root, ext) := SplitExt(filename);
    var stem := "merged_" + root;
    var mergeStem := stem[..Min(|stem|, NameLimit)];
    assert mergeStem[..7] == "merged_";
    RawLayout(action, SafeBase(root), ext, mergeStem, pid);
    Layout(action, SafeBase(root), ext, mergeStem, action, pid)
  }

  /** The table with a raw merge stem and the raw action text: the input and
      scratch names never depend on them, and a safe action text outside
      `merge` keeps every name free of separators. */
  lemma RawLayout(action: string, safe: string, ext: string, mergeStem: string, pid: nat)
    requires AllSafe(safe) && SeparatorFree(ext)
    ensures var w := Layout(action, safe, ext, mergeStem, action, pid);
            && SeparatorFree(w.input)
            && (w.scratch.Some? ==> SeparatorFree(w.scratch.value))
            && (action != "merge" && AllSafe(action) ==> SeparatorFree(w.output) && SeparatorFree(w.suggestion))
            && (action == "merge" ==> EndsWith(w.input, ".zip") && mergeStem <= w.output)
            && (action != "merge" ==> safe <= w.output)
  {
    var w := Layout(action, safe, ext, mergeStem, action, pid);
    var plain := Layout(action, safe, ext, "", "", pid);
    LayoutSeparatorFree(action, safe, ext, "", "", pid);
    assert w.input == plain.input && w.scratch == plain.scratch;
    if action != "merge" && AllSafe(action) {
      LayoutSeparatorFree(action, safe, ext, "", action, pid);
      assert w == Layout(action, safe, ext, "", action, pid);
    }
    LayoutPrefixes(action, safe, ext, mergeStem, action, pid);
  }

  /** The naming with every client-supplied piece sanitised: no name contains
      a separator, so every path stays inside the temporary directory; every
      name starts with the safe base (the merge output with `merged_`); the
      merge input is always a `.zip`. */
  function SessionNames(action: string, filename: string, pid: nat): (w: Names)
    ensures SeparatorFree(w.input) && SeparatorFree(w.output) && SeparatorFree(w.suggestion)
    ensures w.scratch.Some? ==> SeparatorFree(w.scratch.value)
    ensures action == "merge" ==> EndsWith(w.input, ".zip")
    ensures action == "merge" ==> |w.output| >= 7 && w.output[..7] == "merged_"
    ensures action != "merge" ==> SafeBase(SplitExt(filename).0) <= w.output
  {
    var (root, ext) := SplitExt(filename);
    var stem := "merged_" + Sanitize(root);
    var safe := SafeBase(root);
    var mergeStem := stem[..Min(|stem|, NameLimit)];
    assert AllSafe(mergeStem) by {
      assert AllSafe("merged_");
      assert forall i :: 0 <= i < |mergeStem| ==> mergeStem[i] == stem[i];
    }
    assert SeparatorFree(ext);
    assert mergeStem[..7] == "merged_";
    LayoutSeparatorFree(action, safe, ext, mergeStem, Sanitize(action), pid);
    LayoutPrefixes(action, safe, ext, mergeStem, Sanitize(action), pid);
    Layout(action, safe, ext, mergeStem, Sanitize(action), pid)
  }

  lemma LayoutPrefixes(action: string, safe: string, ext: string, mergeStem: string, suffix: string, pid: nat)
    ensures var w := Layout(action, safe, ext, mergeStem, suffix, pid);
            && (action == "merge" ==> EndsWith(w.input, ".zip") && mergeStem <= w.output)
            && (action != "merge" ==> safe <= w.output)
  {
    var w := Layout(action, safe, ext, mergeStem, suffix, pid);
    var p := PidSuffix(pid);
    if action == "merge" {
      assert w.input == safe + p + ".zip";
      assert w.output == mergeStem + (p + ".pdf");
    } else if action == "pdf_to_jpg" {
      assert w.output == safe + ("_images" + p + ".zip");
    } else if action == "pdf_to_word" {
      assert w.output == safe + (p + ".docx");
    } else if action == "pdf_to_pptx" {
      assert w.output == safe + (p + ".pptx");
    } else if action == "split" {
      assert w.output == safe + ("_split_files" + p + ".zip");
    } else {
      var tail := if action == "convert" then "processed" else suffix;
      assert w.output == safe + ("_" + tail + p + ".pdf");
    }
  }

  lemma LayoutSeparatorFree(action: string, safe: string, ext: string, mergeStem: string, suffix: string, pid: nat)
    requires AllSafe(safe) && AllSafe(mergeStem) && AllSafe(suffix)
    requires SeparatorFree(ext)
    ensures var w := Layout(action, safe, ext, mergeStem, suffix, pid);
            SeparatorFree(w.input) && SeparatorFree(w.output) && SeparatorFree(w.suggestion)
            && (w.scratch.Some? ==> SeparatorFree(w.scratch.value))
  {
    var p := PidSuffix(pid);
    assert AllSafe(p) by {
      assert p == "_" + NatToString(pid);
    }
    AllSafeSeparatorFree(safe);
    AllSafeSeparatorFree(mergeStem);
    AllSafeSeparatorFree(p);
    var sp := safe + p;
    Glue(safe, p);
    Glue(sp, ".zip");
    Glue(sp, ext);
    var w := Layout(action, safe, ext, mergeStem, suffix, pid);
    if action == "pdf_to_jpg" {
      Glue(safe, "_images");
      Glue(safe + "_images", p);
      Glue(safe + "_images" + p, ".zip");
      Glue(safe, "_jpg_output");
      Glue(safe + "_jpg_output", p);
      Glue(safe, "_images.zip");
    } else if action == "pdf_to_word" {
      Glue(sp, ".docx");
      Glue(safe, ".docx");
    } else if action == "pdf_to_pptx" {
      Glue(sp, ".pptx");
      Glue(safe, "_pptx_temp_imgs");
      Glue(safe + "_pptx_temp_imgs", p);
      Glue(safe, ".pptx");
    } else if action == "split" {
      Glue(safe, "_split_files");
      Glue(safe + "_split_files", p);
      Glue(safe + "_split_files" + p, ".zip");
      Glue(safe, "_split_output");
      Glue(safe + "_split_output", p);
      Glue(safe, "_split_files.zip");
    } else if action == "merge" {
      Glue(mergeStem, p);
      Glue(mergeStem + p, ".pdf");
      Glue(mergeStem, ".pdf");
    } else {
      var tail := if action == "convert" then "processed" else suffix;
      AllSafeSeparatorFree(tail);
      Glue(safe, "_");
      Glue(safe + "_", tail);
      var stem := safe + "_" + tail;
      Glue(stem, p);
      Glue(stem + p, ".pdf");
      Glue(stem, ".pdf");
    }
  }

  /** Gluing separator-free names gives a separator-free name. */
  lemma Glue(a: string, b: string)
    requires SeparatorFree(a)
    requires SeparatorFree(b) || (forall i :: 0 <= i < |b| ==> b[i] != '/' && b[i] != '\\')
    ensures SeparatorFree(a + b)
  {
    assert SeparatorFree(b);
    assert forall i :: 0 <= i < |a + b| ==> (a + b)[i] == if i < |a| then a[i] else b[i - |a|];
  }

  /** The process id is recoverable from a name that embeds it between a
      fixed prefix and a fixed suffix. */
  lemma PidCancel(a: string, b: string, p1: nat, p2: nat)
    ensures a + PidSuffix(p1) + b == a + PidSuffix(p2) + b ==> p1 == p2
  {
    var x1 := a + PidSuffix(p1) + b;
    var x2 := a + PidSuffix(p2) + b;
    if x1 == x2 {
      var s1 := NatToString(p1);
      var s2 := NatToString(p2);
      assert |s1| == |s2|;
      assert x1[|a| + 1..|a| + 1 + |s1|] == s1;
      assert x2[|a| + 1..|a| + 1 + |s2|] == s2;
      NatToStringInjective(p1, p2);
    }
  }

  /** Two server processes never share a session's input or output name,
      whatever file name and action the client sent, under either naming. */
  lemma DistinctProcessesDistinctNames(action: string, filename: string, p1: nat, p2: nat)
    requires p1 != p2
    ensures SessionNames(action, filename, p1).input != SessionNames(action, filename, p2).input
    ensures SessionNames(action, filename, p1).output != SessionNames(action, filename, p2).output
    ensures NamesAsWritten(action, filename, p1).input != NamesAsWritten(action, filename, p2).input
    ensures NamesAsWritten(action, filename, p1).output != NamesAsWritten(action, filename, p2).output
  {
    var (root, ext) := SplitExt(filename);
    var safe := SafeBase(root);
    var stem := "merged_" + Sanitize(root);
    var raw := "merged_" + root;
    var m := stem[..Min(|stem|, NameLimit)];
    var rawM := raw[..Min(|raw|, NameLimit)];
    assert SessionNames(action, filename, p1) == Layout(action, safe, ext, m, Sanitize(action), p1);
    assert SessionNames(action, filename, p2) == Layout(action, safe, ext, m, Sanitize(action), p2);
    LayoutDistinctPids(action, safe, ext, m, Sanitize(action), p1, p2);
    assert NamesAsWritten(action, filename, p1) == Layout(action, safe, ext, rawM, action, p1);
    assert NamesAsWritten(action, filename, p2) == Layout(action, safe, ext, rawM, action, p2);
    LayoutDistinctPids(action, safe, ext, rawM, action, p1, p2);
  }

  /** The table puts the process id into every input and output name, so
      two processes' names differ. */
  lemma LayoutDistinctPids(action: string, safe: string, ext: string, mergeStem: string, suffix: string, p1: nat, p2: nat)
    requires p1 != p2
    ensures Layout(action, safe, ext, mergeStem, suffix, p1).input != Layout(action, safe, ext, mergeStem, suffix, p2).input
    ensures Layout(action, safe, ext, mergeStem, suffix, p1).output != Layout(action, safe, ext, mergeStem, suffix, p2).output
  {
    if action == "merge" {
      PidCancel(safe, ".zip", p1, p2);
      PidCancel(mergeStem, ".pdf", p1, p2);
    } else {
      PidCancel(safe, ext, p1, p2);
      if action == "pdf_to_jpg" {
        PidCancel(safe + "_images", ".zip", p1, p2);
      } else if action == "pdf_to_word" {
        PidCancel(safe, ".docx", p1, p2);
      } else if action == "pdf_to_pptx" {
        PidCancel(safe, ".pptx", p1, p2);
      } else if action == "split" {
        PidCancel(safe + "_split_files", ".zip", p1, p2);
      } else {
        var tail := if action == "convert" then "processed" else suffix;
        PidCancel(safe + "_" + tail, ".pdf", p1, p2);
      }
    }
  }

  /** A name with no separator or dot in its stem and one dotted extension
      splits at that dot. */
  lemma SplitExtOf(stem: string, ext: string)
    requires stem != [] && forall i :: 0 <= i < |stem| ==> stem[i] != '.' && !IsSep(stem[i])
    requires ext != [] && ext[0] == '.'
    requires forall i :: 1 <= i < |ext| ==> ext[i] != '.' && !IsSep(ext[i])
    ensures SplitExt(stem + ext) == (stem, ext)
  {
    var p := stem + ext;
    assert forall k :: 0 <= k < |p| ==> !IsSep(p[k]) by {
      forall k | 0 <= k < |p| ensures !IsSep(p[k]) {
        if k >= |stem| { assert p[k] == ext[k - |stem|]; }
      }
    }
    assert LastSep(p) == -1;
    assert p[|stem|] == '.';
    assert forall k :: |stem| < k < |p| ==> p[k] != '.' by {
      forall k | |stem| < k < |p| ensures p[k] != '.' { assert p[k] == ext[k - |stem|]; }
    }
    assert LastDot(p) == |stem|;
    assert p[0] != '.';
    assert p[..|stem|] == stem && p[|stem|..] == ext;
  }

  /** What an honest client sends (a recognised action; for `merge` a root
      made of safe characters) is named identically by the server as written
      and by the sanitised naming. */
  lemma SanitisingKeepsHonestNames(action: string, filename: string, pid: nat)
    requires AllSafe(action)
    requires action == "merge" ==> AllSafe(SplitExt(filename).0)
    ensures NamesAsWritten(action, filename, pid) == SessionNames(action, filename, pid)
  {
    var root := SplitExt(filename).0;
    assert Sanitize(action) == action;
    if action == "merge" {
      assert Sanitize(root) == root;
    }
  }

  /** As written, a merge request whose file name climbs three directories
      gets an output name that climbs out of the temporary directory: after
      the `merged_..` component, the two remaining `../` reach its parent. */
  lemma MergeNameEscapesAsWritten()
    ensures "merged_../../../evil" <= NamesAsWritten("merge", "../../../evil.zip", 7).output
    ensures !('/' in SessionNames("merge", "../../../evil.zip", 7).output)
  {
    var p := "../../../evil.zip";
    ClimbingSplit();
    var stem := "merged_" + p[..13];
    assert stem == "merged_../../../evil";
    assert stem[..Min(|stem|, NameLimit)] == stem;
    LayoutPrefixes("merge", SafeBase(p[..13]), p[13..], stem, "merge", 7);
  }

  lemma ClimbingSplit()
    ensures SplitExt("../../../evil.zip") == ("../../../evil", ".zip")
  {
    var p := "../../../evil.zip";
    assert p[8] == '/' && p[13] == '.' && p[9] == 'e';
    assert forall k :: 8 < k < |p| ==> !IsSep(p[k]);
    assert forall k :: 13 < k < |p| ==> p[k] != '.';
    assert LastSep(p) == 8;
    assert LastDot(p) == 13;
    assert 8 < 9 < 13 && p[9] != '.';
    assert p[..13] == "../../../evil";
  }

  /** As written, unrecognised action text is copied into the output name.
      That name is never written: such a request fails with the
      invalid-action error before any output exists. */
  lemma ActionTextEscapesAsWritten()
    ensures '/' in NamesAsWritten("../x", "a.pdf", 7).output
    ensures !('/' in SessionNames("../x", "a.pdf", 7).output)
  {
    var p := "a.pdf";
    assert p[0] == 'a' && p[1] == '.';
    assert forall k :: 0 <= k < |p| ==> !IsSep(p[k]);
    assert forall k :: 1 < k < |p| ==> p[k] != '.';
    assert LastSep(p) == -1;
    assert LastDot(p) == 1;
    assert -1 < 0 < 1 && p[0] != '.';
    assert SplitExt(p) == (p[..1], p[1..]);
    assert p[..1] == "a";
    var w := NamesAsWritten("../x", p, 7);
    assert w.output[4] == '/';
  }

  /** The suggested name is short: at most the 50-character safe base (or
      merge stem), an underscore, the action's text and an extension, under
      either naming. A client reading it with `recv(1024)` gets all of it for
      any action name of the vocabulary. */
  lemma SuggestionLength(action: string, filename: string, pid: nat)
    ensures 4 <= |SessionNames(action, filename, pid).suggestion| <= NameLimit + 16 + |action|
    ensures 4 <= |NamesAsWritten(action, filename, pid).suggestion| <= NameLimit + 16 + |action|
  {
    var (root, ext) := SplitExt(filename);
    var stem := "merged_" + Sanitize(root);
    var raw := "merged_" + root;
    var m := stem[..Min(|stem|, NameLimit)];
    var rawM := raw[..Min(|raw|, NameLimit)];
    assert SessionNames(action, filename, pid) == Layout(action, SafeBase(root), ext, m, Sanitize(action), pid);
    LayoutSuggestionLength(action, SafeBase(root), ext, m, Sanitize(action), pid);
    assert NamesAsWritten(action, filename, pid) == Layout(action, SafeBase(root), ext, rawM, action, pid);
    LayoutSuggestionLength(action, SafeBase(root), ext, rawM, action, pid);
  }

  lemma LayoutSuggestionLength(action: string, safe: string, ext: string, mergeStem: string, suffix: string, pid: nat)
    requires |safe| <= NameLimit && |mergeStem| <= NameLimit && |suffix| <= |action|
    ensures 4 <= |Layout(action, safe, ext, mergeStem, suffix, pid).suggestion| <= NameLimit + 16 + |action|
  {
  }

  /** The kind of file each action produces, by extension. */
  function OutputExt(action: string): string {
    if action == "pdf_to_jpg" || action == "split" then ".zip"
    else if action == "pdf_to_word" then ".docx"
    else if action == "pdf_to_pptx" then ".pptx"
    else ".pdf"
  }

  /** The name suggested to the client is the output file's name without the
      process id: both share one stem and the extension of the action's kind
      of output, so the client's save dialog offers the right file type. This
      holds under either naming (`rawStem` for the naming as written). */
  lemma SuggestionMatchesOutput(action: string, filename: string, pid: nat) returns (stem: string, rawStem: string)
    ensures SessionNames(action, filename, pid).output == stem + PidSuffix(pid) + OutputExt(action)
    ensures SessionNames(action, filename, pid).suggestion == stem + OutputExt(action)
    ensures NamesAsWritten(action, filename, pid).output == rawStem + PidSuffix(pid) + OutputExt(action)
    ensures NamesAsWritten(action, filename, pid).suggestion == rawStem + OutputExt(action)
  {
    var (root, ext) := SplitExt(filename);
    var merged := "merged_" + Sanitize(root);
    var mergeStem := merged[..Min(|merged|, NameLimit)];
    assert Layout(action, SafeBase(root), ext, mergeStem, Sanitize(action), pid) == SessionNames(action, filename, pid);
    stem := LayoutStem(action, SafeBase(root), ext, mergeStem, Sanitize(action), pid);
    var raw := "merged_" + root;
    var rawM := raw[..Min(|raw|, NameLimit)];
    assert Layout(action, SafeBase(root), ext, rawM, action, pid) == NamesAsWritten(action, filename, pid);
    rawStem := LayoutStem(action, SafeBase(root), ext, rawM, action, pid);
  }

  lemma LayoutStem(action: string, safe: string, ext: string, mergeStem: string, suffix: string, pid: nat) returns (stem: string)
    ensures Layout(action, safe, ext, mergeStem, suffix, pid).output == stem + PidSuffix(pid) + OutputExt(action)
    ensures Layout(action, safe, ext, mergeStem, suffix, pid).suggestion == stem + OutputExt(action)
  {
    if action == "pdf_to_jpg" {
      stem := safe + "_images";
    } else if action == "pdf_to_word" || action == "pdf_to_pptx" {
      stem := safe;
    } else if action == "split" {
      stem := safe + "_split_files";
    } else if action == "merge" {
      stem := mergeStem;
    } else {
      stem := safe + "_" + (if action == "convert" then "processed" else suffix);
    }
  }
}

